=== FILE: README.md ===
# EasyToolkit inspector core, modelled in Dafny

This project models the core of the EasyToolkit inspector engine. The engine is a Unity editor extension that builds an
element tree for the inspected objects and draws each element through pluggable handlers.

**Handlers.** There are three kinds:

- visual builders;
- visual processors;
- drawers.

**Handler resolution.** The engine discovers handler classes by scanning assemblies. It ranks them by priority, in three
steps:

1. an explicit priority attribute;
2. the registered "null priority" fallbacks;
3. the default.

The ranked handlers go to a type matcher. For each element the engine asks the matcher for candidates. It then filters
them by capability and by each handler's own `CanHandle`.

**Elements.** Each element (`ElementBase`) has a lifecycle of phases:

- refresh;
- update;
- post-process;
- draw;
- destroy;
- dispose.

Along the way it rents resolvers from a pool and gives them back.

**Collections.** A collection element keeps one child per item. Its structure resolver keeps one item definition per
item. In UIToolkit, a draggable list view mirrors the collection.
The mirror holds for changes made to the collection. It breaks when the list view reorders its own items by drag, and
when an item is dropped onto it (both are listed below the model table).

**Smaller pieces.** The model also covers:

- the value operations that read and write element values;
- the value semantics of inspector attributes;
- the persistent-context cache;
- the pairing of group attributes;
- the element-tree factory's argument checks;
- the element extension helpers.

**How it is modelled.**

- Every module models one source class, or a small family of them.
- `null` is `Option.None`.
- A thrown exception is `Outcome.Throws`, carrying the exception type and, where the source gives one, its message.
- A call that changes state and may throw part-way returns a `Completion`. It is `Normal` or `Abrupt`, and either way it
  carries the state the call leaves behind. A throw therefore keeps every change made before it.
- Mutable objects become immutable datatypes that each operation hands back.
- Code outside the core becomes a parameter. This covers the type matcher, `ResolverUtility`, the serializer, the file
  system and the assembly scan. A parameter is a plain value, a function value, or a log of the calls made to it.
- Base64 (`Convert.ToBase64String`) follows section 4 of RFC 4648.

## Model

| member | source | states |
|---|---|---|
| HandlerPriority.ApplyFallbackFirstRule | Editor/Core/VisualProcessor/Utilities/VisualProcessorUtility.cs:19-35 | The first rule of a fallback whose generic definition the type implements decides its priority; later rules are never consulted. |
| HandlerPriority.ApplyFallbackNoRule | Editor/Core/VisualProcessor/Utilities/VisualProcessorUtility.cs:34 | A fallback none of whose rules applies answers null. |
| HandlerPriority.VisualProcessorFallbackLevels | Editor/Core/VisualProcessor/Utilities/VisualProcessorUtility.cs:19-35 | Attribute and group processors get the Attribute level, value processors the Value level (attribute checked first), anything else null. |
| HandlerPriority.DrawerFallbackLevels | Editor/Utilities/InspectorDrawerUtility.cs:20-36 | The drawer fallback gives attribute drawers the attribute level, value drawers the value level, checked in that order, and null otherwise. |
| HandlerPriority.DrawerFallback | Editor/Utilities/InspectorDrawerUtility.cs:20-36 | Whatever type it is asked about, the drawer fallback answers the attribute level, the value level, or null. |
| HandlerPriority.ThreeRuleFallback | Editor/Utilities/InspectorDrawerUtility.cs:22-35 | A fallback of three rules answers the priority of the first rule whose generic definition the type implements, and null when none applies. |
| HandlerPriority.MarkerPriority | Editor/Core/Common/Handler/HandlerUtility.cs:197-201 | Some priority exactly when an inherited attribute is a priority marker, and then the priority of the first such attribute. |
| HandlerPriority.FirstFallbackPriority | Editor/Core/Common/Handler/HandlerUtility.cs:203-213 | Some priority exactly when some registered fallback answers, and then the answer of the first one in registration order that does. |
| HandlerPriority.GetHandlerPriority | Editor/Core/Common/Handler/HandlerUtility.cs:193-216 | An explicit marker wins over every fallback; only without one do the fallbacks decide; only when all are null does the default apply. |
| HandlerPriority.AppendedFallbackKeepsDecided | Editor/Core/Common/Handler/HandlerUtility.cs:203-213 | Registering another fallback never changes the priority of a handler that a marker or an earlier fallback already decides. |
| HandlerPriority.AppendedFallbackDecidesRest | Editor/Core/Common/Handler/HandlerUtility.cs:203-215 | A handler nothing earlier decides gets the new fallback's answer, or the default when that is null too. |
| HandlerPriority.FirstFallbackPrefix | Editor/Core/Common/Handler/HandlerUtility.cs:205-212 | The loop stops at the first non-null answer, so appending a fallback keeps a decided answer. |
| HandlerRegistry.DiscoverHandlerTypes | Editor/Core/Common/Handler/HandlerUtility.cs:72-79 | A scanned type is discovered exactly when it is a concrete, non-abstract class implementing `IHandler`. |
| HandlerRegistry.DiscoverKeepsOrder | Editor/Core/Common/Handler/HandlerUtility.cs:72-79 | Discovery preserves scan order: scanning two batches finds the first batch's handlers, then the second's. |
| HandlerRegistry.InsertByPriority | Editor/Core/Common/Handler/HandlerUtility.cs:85 | Inserting into the priority order adds exactly the one entry and loses none. |
| HandlerRegistry.InsertKeepsSorted | Editor/Core/Common/Handler/HandlerUtility.cs:85 | Insertion keeps the order descending by priority and, among equal priorities, by discovery position. |
| HandlerRegistry.SortByPriority | Editor/Core/Common/Handler/HandlerUtility.cs:85 | `OrderByDescending` is a permutation of the discovered handlers. |
| HandlerRegistry.SortIsSorted | Editor/Core/Common/Handler/HandlerUtility.cs:85 | The result is sorted by descending priority and stable: equal priorities keep discovery order. |
| HandlerRegistry.KeyedTypes | Editor/Core/Common/Handler/HandlerUtility.cs:84-85 | Every discovered type is keyed once, by its priority and a distinct discovery position. |
| HandlerRegistry.InsertKeepsTypes | Editor/Core/Common/Handler/HandlerUtility.cs:85 | Insertion changes the multiset of handler types by exactly the inserted type. |
| HandlerRegistry.SortKeepsTypes | Editor/Core/Common/Handler/HandlerUtility.cs:85 | Sorting keeps the multiset of handler types. |
| HandlerRegistry.NearestConstraintsMarked | Editor/Core/Common/Handler/HandlerUtility.cs:96-104 | The walk up the base chain finds a type exactly when some type on the chain carries `HandlerConstraints`, and finds the nearest one. |
| HandlerRegistry.NearestMarkedStep | Editor/Core/Common/Handler/HandlerUtility.cs:97-104 | For an unmarked type, the nearest marked type is that of its base class. |
| HandlerRegistry.GetConstraints | Editor/Core/Common/Handler/HandlerUtility.cs:89-112 | The generic arguments of the nearest marked type win; without one, a generic base class gives the arguments relative to its definition; otherwise null. |
| HandlerRegistry.BuildCandidates | Editor/Core/Common/Handler/HandlerUtility.cs:84-86 | One candidate per discovered handler type. |
| HandlerRegistry.CandidateRanks | Editor/Core/Common/Handler/HandlerUtility.cs:86 | Ranks run from the number of handlers down to 1, strictly decreasing along the priority order. |
| HandlerRegistry.CandidatesArePermutation | Editor/Core/Common/Handler/HandlerUtility.cs:84-86 | The candidates' handler types are a permutation of the discovered types, and each carries the constraints `GetConstraints` gives it. |
| HandlerRegistry.CandidateOrder | Editor/Core/Common/Handler/HandlerUtility.cs:84-86 | An earlier candidate has a higher priority, or the same priority and an earlier discovery position. |
| HandlerRegistry.KeyedEntryShape | Editor/Core/Common/Handler/HandlerUtility.cs:84-85 | A keyed entry records its type's discovery position and the priority `GetHandlerPriority` gives it. |
| HandlerRegistry.EmptyRegistry | Editor/Core/Common/Handler/HandlerUtility.cs:29 | At start no type has been scanned, no fallback is registered and no matcher exists. |
| HandlerRegistry.AddNullPriorityFallback | Editor/Core/Common/Handler/HandlerUtility.cs:45-53 | The fallback is appended last, the matcher is dropped, and the discovered types are kept. |
| HandlerRegistry.InitializeTypeMatcher | Editor/Core/Common/Handler/HandlerUtility.cs:66-87 | The assembly is scanned only if no scan happened before; the candidates are rebuilt from the discovered types under the current fallbacks. |
| HandlerRegistry.EnsureTypeMatcherInitialized | Editor/Core/Common/Handler/HandlerUtility.cs:55-64 | An existing matcher is kept unchanged; a missing one is initialised. |
| HandlerRegistry.TypeMatcher | Editor/Core/Common/Handler/HandlerUtility.cs:31-38 | Reading the property yields the candidates the registry now holds. |
| HandlerRegistry.OperationsKeepCoherent | Editor/Core/Common/Handler/HandlerUtility.cs:45-87 | Each registry operation keeps any matcher consistent with the discovered types and the current fallbacks. |
| HandlerRegistry.TypeMatcherIsCached | Editor/Core/Common/Handler/HandlerUtility.cs:31-64 | A second read of the matcher changes nothing and answers the same candidates, whatever a fresh scan would find. |
| HandlerRegistry.RescanNotNeededAfterFallback | Editor/Core/Common/Handler/HandlerUtility.cs:66-81 | After a fallback is added, the next read re-ranks the same discovered types under all fallbacks, without rescanning. |
| HandlerRegistry.LateFallbackPromotes | Editor/Core/Common/Handler/HandlerUtility.cs:40-53 | A fallback added late re-sorts the matcher: an undecided handler it ranks above a marked one is placed before it. |
| HandlerRegistry.HigherPriorityRanksFirst | Editor/Core/Common/Handler/HandlerUtility.cs:84-86 | Of two discovered handlers, the one with the strictly higher priority is handed to the matcher first, wherever each was discovered. |
| HandlerRegistry.AttributeProcessorOutranksValueProcessor | Editor/Core/VisualProcessor/Models/VisualProcessorPriorityLevel.cs:13-28 | With the processor fallback registered first, an unmarked attribute or group processor is matched before an unmarked value processor, because the Attribute level (200000) lies above the Value level (100000). |
| HandlerRegistry.RootBuilderBetweenLevels | Editor/Core/VisualBuilder/Models/VisualBuilderPriorityLevel.cs:13-28 | A builder marked one below the Attribute level, as `VisualRootBuilder` is, is matched after every Attribute-level builder and before every Value-level builder. |
| HandlerQuery.QueryVectors | Editor/Core/Common/Handler/HandlerUtility.cs:170-191 | The match vectors are: the empty vector first, then the value type for a value element, then the caller's additional vectors in order. |
| HandlerQuery.AttributeVectors | Editor/Core/VisualProcessor/Utilities/VisualProcessorUtility.cs:46-55 | One vector per attribute, or two per attribute for a value element. |
| HandlerQuery.AttributeVectorsLayout | Editor/Core/VisualBuilder/Utilities/VisualBuilderUtility.cs:19-28 | Attribute `i` owns `[attr]`, followed for a value element by `[attr, valueType]`. |
| HandlerQuery.AcceptedTypes | Editor/Core/Common/Handler/HandlerUtility.cs:139-168 | The reference list of handlers: exactly the merged results that pass the filter and `CanHandle`, each once. |
| HandlerQuery.AcceptedTypesOrder | Editor/Core/Common/Handler/HandlerUtility.cs:139-168 | The handler list keeps the matcher's order: an earlier handler first appears earlier in the results. |
| HandlerQuery.FirstAcceptedType | Editor/Core/Common/Handler/HandlerUtility.cs:114-137 | Null exactly when no result is accepted; otherwise an accepted result with none accepted before it. |
| HandlerQuery.FirstIsHeadOfAll | Editor/Core/Common/Handler/HandlerUtility.cs:114-168 | The single-handler lookup answers the head of the full handler list, and null when that list is empty. |
| HandlerQuery.FirstAcceptedAt | Editor/Core/Common/Handler/HandlerUtility.cs:114-137 | The first accepted position decides the single-handler lookup. |
| HandlerQuery.GetHandlerTypes | Editor/Core/Common/Handler/HandlerUtility.cs:139-168 | The loop with its HashSet yields exactly the reference handler list: accepted types only, no duplicates, in first-appearance order. |
| HandlerQuery.GetFirstElementType | Editor/Core/Common/Handler/HandlerUtility.cs:114-137 | The loop answers the first accepted merged result, or null. |
| HandlerQuery.CapabilityFilter | Editor/Core/VisualProcessor/Utilities/VisualProcessorUtility.cs:57 | The filter a capability utility passes accepts exactly the types deriving from the capability interface. |
| HandlerQuery.GetVisualProcessorTypes | Editor/Core/VisualProcessor/Utilities/VisualProcessorUtility.cs:44-58 | The processors are the reference handler list over the merged results for the element's attribute vectors: exactly the matched types that derive from `IVisualProcessor` and can handle the element, each listed once, in merged order. |
| HandlerQuery.GetDrawerTypes | Editor/Core/Drawer/Utilities/EasyDrawerUtility.cs:11-25 | The drawers are the reference handler list over the merged results for the element's attribute vectors: exactly the matched types that derive from `IEasyDrawer` and can handle the element, each listed once, in merged order. |
| HandlerQuery.GetVisualBuilderType | Editor/Core/VisualBuilder/Utilities/VisualBuilderUtility.cs:17-31 | The builder is the first accepted type among the merged results for the element's attribute vectors: it derives from `IVisualBuilder` and can handle the element, and it is null exactly when none does. |
| HandlerQuery.GetHandlerTypeResults | Editor/Core/Common/Handler/HandlerUtility.cs:170-191 | The merge receives the matches of the empty vector, then of the value type for a value element, then of each additional vector, in that order. |
| HandlerQuery.MatchListsLayout | Editor/Core/Common/Handler/HandlerUtility.cs:172-189 | Matching the query vectors one by one gives exactly those match lists, in the order the vectors are built. |
| Types.JoinedKey | Editor/Core/VisualProcessor/Utilities/VisualProcessorUtility.cs:65-70 | A handler key is the type name, `+`, then the element key, each part recoverable by position. The drawer key at Editor/Core/Drawer/Utilities/EasyDrawerUtility.cs:27-32 is the same join. |
| HandlerQuery.HandlerKeyInjective | Editor/Core/VisualProcessor/Utilities/VisualProcessorUtility.cs:65-70 | When type names contain no `+`, equal keys mean the same handler type on the same element. |
| HandlerBases.CanHandle | Editor/VisualProcessors/VisualProcessor.cs:100-103 | A handler accepts only elements of its base class's kind that its element hook also accepts. The plain bases defer to the hook alone. |
| HandlerBases.DefaultHooksAcceptKind | Editor/VisualBuilders/VisualAttributeBuilder.cs:43-62 | With no overridden hook, a handler accepts exactly the elements of its base class's kind. |
| HandlerBases.HooksOnlyNarrow | Editor/VisualProcessors/VisualValueProcessor.cs:42-75 | A handler accepts exactly when the kind matches and both overridable hooks agree, so an override can only narrow acceptance. |
| HandlerBases.ValueCheckIsExact | Editor/VisualBuilders/VisualAttributeBuilder.cs:104-115 | A value handler rejects every element whose value type differs from `TValue`, including derived types. |
| HandlerBases.MethodBuilderIgnoresLogical | Editor/VisualBuilders/VisualMethodBuilder.cs:31-39 | A method builder accepts exactly the method elements, whether or not they are logical elements. |
| HandlerBases.ReadLazy | Editor/VisualBuilders/VisualAttributeBuilder.cs:24-35 | A set field is returned unchanged; an unset one is filled with the computed value, which is also returned. |
| HandlerBases.LazyIsStable | Editor/VisualProcessors/VisualValueProcessor.cs:23-34 | Once a read yields a value, later reads return it whatever the lookup would now compute. |
| HandlerBases.LazyRetriesNull | Editor/VisualBuilders/VisualAttributeBuilder.cs:85-96 | A null result is not memoised, so the next read computes again. |
| HandlerBases.FreshInstance | Editor/Core/Common/Handler/HandlerUtility.cs:227 | A new handler is bound to nothing, uninitialised, and has run nothing. |
| HandlerBases.EnsureInitialize | Editor/VisualProcessors/VisualProcessor.cs:88-95 | Initialise runs only if not yet run, and the handler is initialised afterwards. |
| HandlerBases.Work | Editor/VisualProcessors/VisualProcessor.cs:110-114 | Every piece of work is preceded by initialisation and counted once, with the bindings kept. |
| HandlerBases.InitializeRunsOnce | Editor/VisualBuilders/VisualBuilder.cs:55-81 | However many times a handler works, it initialises exactly once. |
| HandlerBases.BindToChain | Editor/VisualProcessors/VisualProcessor.cs:18-31 | The setters bind the handler to the element and the chain, and change nothing else about it. |
| ResolverPool.Rent | Editor/Core/ResolverFactories/Implementations/DefaultVisualBuilderResolverFactory.cs:20 | Each rent hands out a new identity and is recorded with its type and capability. |
| ResolverPool.Release | Editor/Core/Elements/Implementations/ElementBase.cs:360-364 | A release is recorded and hands out nothing. |
| ResolverPool.RentKeepsWellFormed | Editor/Core/ResolverFactories/Implementations/DefaultAttributeResolverFactory.cs:12 | Renting keeps the pool sound: the new resolver is outstanding and every other identity's counts are unchanged. |
| ResolverPool.ReleaseKeepsWellFormed | Editor/Core/Elements/Implementations/ElementBase.cs:360-388 | Giving back an outstanding resolver keeps the pool sound and returns exactly that identity. |
| ResolverPool.CountsGrow | Editor/Core/Elements/Implementations/ElementBase.cs:360-388 | Rent and release counts never decrease as the pool is used. |
| ResolverPool.CreateResolver | Editor/Core/ResolverFactories/Implementations/DefaultVisualBuilderResolverFactory.cs:15-26 | With no resolver type the factory answers null and leaves the pool alone; otherwise it rents a new resolver and binds it to the element. |
| ResolverPool.CreatedResolverIsOutstanding | Editor/Core/ResolverFactories/Implementations/DefaultStructureResolverFactory.cs:8-18 | A created resolver is outstanding in a sound pool, bound to the requesting element, with the requested capability. |
| ProcessorChain.NewChain | Editor/Core/VisualProcessor/Models/VisualProcessorChain.cs:53-57 | A new chain holds a copy of the processors for its element, with the cursor before the first. |
| ProcessorChain.Current | Editor/Core/VisualProcessor/Models/VisualProcessorChain.cs:23-35 | Null outside the processors; inside, the processor under the cursor, now bound to this chain and element, with the others untouched. |
| ProcessorChain.MoveNext | Editor/Core/VisualProcessor/Models/VisualProcessorChain.cs:65-69 | Advances the cursor by one and reports whether a processor is there. |
| ProcessorChain.Reset | Editor/Core/VisualProcessor/Models/VisualProcessorChain.cs:74-77 | Moves the cursor back before the first processor, with everything else kept. |
| ProcessorChain.MoveNextAfterReset | Editor/Core/VisualProcessor/Models/VisualProcessorChain.cs:65-77 | After a reset, `MoveNext` succeeds exactly for the first as many calls as there are processors, so no processor is skipped. |
| ProcessorChain.ExhaustedStaysExhausted | Editor/Core/VisualProcessor/Models/VisualProcessorChain.cs:65-69 | Once `MoveNext` has failed, it keeps failing. |
| ProcessorChain.CallNextProcessor | Editor/VisualProcessors/VisualProcessor.cs:75-83 | Advances the chain; when a processor is there, it runs once, bound and initialised, and no other processor changes. |
| ProcessorChain.RunChainVisitsPrefix | Editor/VisualProcessors/VisualProcessor.cs:75-83 | From a reset chain, k hand-offs run exactly the first k processors once each, in order, each bound to the chain, and leave the rest untouched. |
| ProcessorChain.RunChainLast | Editor/VisualProcessors/VisualProcessor.cs:75-83 | A run of k+1 hand-offs is a run of k followed by one more hand-off. |
| VisualResolvers.NewBuilderResolver | Editor/Resolvers/VisualBuilderResolver/VisualBuilderResolverBase.cs:12 | A newly rented resolver is bound to its element, uninitialised, and holds no builder. |
| VisualResolvers.InitializeBuilder | Editor/Resolvers/VisualBuilderResolver/DefaultVisualBuilderResolver.cs:15-23 | A found builder type becomes a new builder instance; when none is found the field is left as it was. |
| VisualResolvers.GetVisualBuilder | Editor/Resolvers/VisualBuilderResolver/VisualBuilderResolverBase.cs:28-41 | Initialises on first use only, then answers the cached builder. |
| VisualResolvers.ReleaseBuilderResolver | Editor/Resolvers/VisualBuilderResolver/DefaultVisualBuilderResolver.cs:37-41 | Back in the pool, the resolver forgets its initialisation and its builder. |
| VisualResolvers.BuilderIsCached | Editor/Resolvers/VisualBuilderResolver/VisualBuilderResolverBase.cs:28-41 | Later reads answer the same builder, whatever a fresh lookup would find. |
| VisualResolvers.ReleasedBuilderResolverIsFresh | Editor/Resolvers/VisualBuilderResolver/VisualBuilderResolverBase.cs:46-50 | A released and re-rented resolver behaves like a newly rented one for its next element. |
| VisualResolvers.NewChainResolver | Editor/Resolvers/VisualProcessorResolver/VisualProcessorChainResolverBase.cs:12 | A newly rented chain resolver is bound to its element, uninitialised, and holds no chain. |
| VisualResolvers.InstantiateProcessors | Editor/Resolvers/VisualProcessorResolver/DefaultVisualProcessorChainResolver.cs:25-29 | One new processor per looked-up type, in lookup order. |
| VisualResolvers.GetVisualProcessorChain | Editor/Resolvers/VisualProcessorResolver/DefaultVisualProcessorChainResolver.cs:18-42 | On first use the resolver builds a chain over the looked-up processors; afterwards it answers that same chain. |
| VisualResolvers.ReleaseChainResolver | Editor/Resolvers/VisualProcessorResolver/DefaultVisualProcessorChainResolver.cs:47-51 | Back in the pool, the chain resolver forgets its initialisation and its chain. |
| VisualResolvers.FirstChainMatchesLookup | Editor/Resolvers/VisualProcessorResolver/DefaultVisualProcessorChainResolver.cs:18-33 | The first chain holds exactly the looked-up processors, in order, none initialised, with the cursor before the first. |
| VisualResolvers.InitializeOncePerRental | Editor/Resolvers/VisualProcessorResolver/VisualProcessorChainResolverBase.cs:28-50 | Over any run of reads and releases, initialisation runs at most once per rental. |
| ElementLifecycle.NewElement | Editor/Core/Elements/Implementations/ElementBase.cs:58-66 | A constructed element has no phase, no children list, no resolver and no visual element, and has never updated. |
| ElementLifecycle.NewElementSound | Editor/Core/Elements/Implementations/ElementBase.cs:58-66 | A new element's resolver bookkeeping is sound. |
| ElementLifecycle.ValidateDisposed | Editor/Core/Elements/Implementations/ElementBase.cs:445-451 | Throws `ObjectDisposedException` exactly for a destroyed element. |
| ElementLifecycle.Children | Editor/Core/Elements/Implementations/ElementBase.cs:95-102 | The children list, and a throw exactly for a destroyed element. |
| ElementLifecycle.ResolverTypeFor | Editor/Core/ResolverFactories/Implementations/DefaultVisualBuilderResolverFactory.cs:17 | The resolver type a factory obtains is present exactly when one is configured for the capability. |
| ElementLifecycle.ReleaseSlot | Editor/Core/Elements/Implementations/ElementBase.cs:485-489 | A bound resolver is given back and its field nulled; other fields and the rest of the state are untouched; an empty field is a no-op. |
| ElementLifecycle.ReplaceSlot | Editor/Core/Elements/Implementations/ElementBase.cs:484-492 | After the old resolver is released, the field holds a newly rented one exactly when a resolver type exists; other fields are unchanged. |
| ElementLifecycle.OutstandingBelowNext | Editor/Core/Elements/Implementations/ElementBase.cs:360-388 | Every outstanding resolver was handed out earlier. |
| ElementLifecycle.ReleaseSlotSound | Editor/Core/Elements/Implementations/ElementBase.cs:485-489 | Releasing a field keeps the bookkeeping sound, gives that resolver back exactly once, and touches no other identity. |
| ElementLifecycle.BindRentedSound | Editor/Core/Elements/Implementations/ElementBase.cs:491-492 | Binding a newly rented resolver into an empty field keeps every field outstanding and distinct. |
| ElementLifecycle.ReplaceSlotSound | Editor/Core/Elements/Implementations/ElementBase.cs:484-492 | Replacement keeps the bookkeeping sound, and the old resolver is back in the pool. |
| ElementLifecycle.Request | Editor/Core/Elements/Implementations/ElementBase.cs:179-191 | Always reports success; while drawing the action is queued, otherwise it runs at once. |
| ElementLifecycle.RefreshOrder | Editor/Core/Elements/Implementations/ElementBase.cs:484-545 | Refresh re-resolves only the element's own resolver fields. |
| ElementLifecycle.ReplaceAll | Editor/Core/Elements/Implementations/ElementBase.cs:484-545 | The listed fields are bound exactly when a resolver type exists, always to new resolvers; other fields are kept. |
| ElementLifecycle.ReplaceAllSound | Editor/Core/Elements/Implementations/ElementBase.cs:484-545 | Replacing fields keeps the bookkeeping sound, and every replaced resolver has been given back. |
| ElementLifecycle.Refresh | Editor/Core/Elements/Implementations/ElementBase.cs:466-552 | Refresh ends marked refreshed and pending post-process and draw. It has a new children list exactly when children are allowed. The backend's fields are re-bound; the other fields are kept. |
| ElementLifecycle.RefreshChildren | Editor/Core/Elements/Implementations/ElementBase.cs:468-482 | Enters `Refreshing`, leaves `PendingRefresh`, and creates a new children list exactly when children are allowed. |
| ElementLifecycle.RefreshReleasesReplaced | Editor/Core/Elements/Implementations/ElementBase.cs:484-545 | After a refresh the bookkeeping is sound, every replaced resolver is back in the pool, and every bound resolver is new. |
| ElementLifecycle.RequestRefresh | Editor/Core/Elements/Implementations/ElementBase.cs:303-320 | Throws for a destroyed element; refused (state unchanged) after the first refresh unless the element refreshes every time; accepted otherwise. |
| ElementLifecycle.RequestRefreshTiming | Editor/Core/Elements/Implementations/ElementBase.cs:303-320 | An accepted request refreshes at once outside drawing; while drawing it marks the refresh pending and queues it. |
| ElementLifecycle.RepeatedRequestsQueueTwice | Editor/Core/Elements/Implementations/ElementBase.cs:303-320 | Two requests while drawing queue two refreshes in order and change nothing else: requests are not coalesced. |
| ElementLifecycle.Update | Editor/Core/Elements/Implementations/ElementBase.cs:574-593 | Nothing happens twice in one frame unless forced; otherwise the update records the frame and clears `JustRefreshed` on a later frame. It throws exactly on the first update of a destroyed element, and the state it leaves then has `JustRefreshed` already removed. |
| ElementLifecycle.UpdateOncePerFrame | Editor/Core/Elements/Implementations/ElementBase.cs:576-579 | A second unforced update in the same frame changes nothing. |
| ElementLifecycle.FirstUpdateRefreshes | Editor/Core/Elements/Implementations/ElementBase.cs:586-591 | The very first update of a live element that is not drawing refreshes it, and `JustRefreshed` survives that update. |
| ElementLifecycle.NextFrameClearsJustRefreshed | Editor/Core/Elements/Implementations/ElementBase.cs:581-584 | The next frame's update ends `JustRefreshed`. |
| ElementLifecycle.PostProcessIfNeeded | Editor/Core/Elements/Implementations/ElementBase.cs:554-572 | Nothing happens unless post-processing is pending; a destroyed element then throws; afterwards the pending mark is cleared and `PostProcessing` is not left set. |
| ElementLifecycle.RunPostProcessorsLoop | Editor/Core/Elements/Implementations/ElementBase.cs:558-565 | The loop logs one post-processor run per chain entry, in chain order, after everything already logged. |
| ElementLifecycle.RunPostProcessorsShape | Editor/Core/Elements/Implementations/ElementBase.cs:558-565 | A log with that shape is exactly the runs of the whole chain. |
| ElementLifecycle.PostProcessOnce | Editor/Core/Elements/Implementations/ElementBase.cs:554-572 | Right after post-processing, a second call reports nothing needed and changes nothing. |
| ElementLifecycle.PostProcessRunsEachOnce | Editor/Core/Elements/Implementations/ElementBase.cs:554-572 | With a post-processor resolver, each chain entry runs exactly once, in order. |
| ElementLifecycle.RequestsWhileDrawingQueue | Editor/Core/Elements/Implementations/ElementBase.cs:179-191 | While drawing, any run of requests leaves the element alone and queues the actions in order. |
| ElementLifecycle.CreateVisualElement | Editor/Core/Elements/Implementations/ElementBase.cs:595-651 | A null builder resolver field throws; the result reports a new visual element exactly when a builder exists and creates one; without one nothing changes. |
| ElementLifecycle.Draw | Editor/Core/Elements/Implementations/ElementBase.cs:233-298 | A destroyed element is rejected unchanged. A successful draw leaves nothing pending to draw and does not leave `Drawing` set. Within the model, any other throw is a UIToolkit null dereference of the visual builder resolver, which leaves `Drawing` and `PendingDraw` set. |
| ElementLifecycle.ImguiDrawDefersRequests | Editor/Core/Elements/Implementations/ElementBase.cs:241-254 | An IMGUI draw runs the head drawer once, and what the drawer requested is queued behind the existing queue instead of run. |
| ElementLifecycle.UiToolkitDrawNeedsPending | Editor/Core/Elements/Implementations/ElementBase.cs:255-258 | A UIToolkit draw with nothing pending changes nothing. |
| ElementLifecycle.UiToolkitDrawWithoutBuilderResolver | Editor/Core/Elements/Implementations/ElementBase.cs:255-293 | A pending UIToolkit draw whose builder resolver field is null fails with a null dereference. The element is left with `Drawing` set, so every later request only queues. |
| ElementLifecycle.OnElementMoved | Editor/Core/Elements/Implementations/ElementBase.cs:416-443 | Only notices after a move act. The moved element requests its new non-null parent. Another element tries to remove a child inserted under a different parent. Nothing else changes the parent. |
| ElementLifecycle.LateRemovalKeepsParent | Editor/Core/Elements/Implementations/ElementBase.cs:420-434 | When the insertion is reported before the removal, the removal's null new parent leaves the assigned parent in place. |
| ElementLifecycle.Destroy | Editor/Core/Elements/Implementations/ElementBase.cs:326-335 | Destruction is requested from the factory at most once, and the element is then marked pending, destroying or destroyed. |
| ElementLifecycle.DestroyIdempotent | Editor/Core/Elements/Implementations/ElementBase.cs:326-335 | A second `Destroy` changes nothing, and the factory is asked exactly once. |
| ElementLifecycle.ReleaseAll | Editor/Core/Elements/Implementations/ElementBase.cs:359-388 | The listed fields are nulled and the others are kept. |
| ElementLifecycle.ReleaseAllSound | Editor/Core/Elements/Implementations/ElementBase.cs:359-388 | Releasing fields keeps the bookkeeping sound and gives each released resolver back exactly once. |
| ElementLifecycle.ReleasedStaysReleased | Editor/Core/Elements/Implementations/ElementBase.cs:359-388 | No identity outside the fields is released. |
| ElementLifecycle.Dispose | Editor/Core/Elements/Implementations/ElementBase.cs:699-710 | Disposal runs once. It leaves `PendingDestroy` for `Destroying` and detaches the element from its parent. It throws exactly when there is a parent whose `Children` getter throws or answers null, and then only `Destroying` has changed. Otherwise it disposes the children, nulls all five resolver fields and ends `Destroyed`. |
| ElementLifecycle.DisposeBegin | Editor/Core/Elements/Implementations/ElementBase.cs:344-357 | Before any resolver is given back, the element is `Destroying`. A failed detach (the getter's own exception, or `NullReferenceException` for a null list) changes nothing else. A successful one only appends to the effect log, which records the detach exactly when there is a parent. |
| ElementLifecycle.DisposeReleasesEachOnce | Editor/Core/Elements/Implementations/ElementBase.cs:344-389 | Disposal of a live element completes exactly when the detach succeeds. It then gives every bound resolver back exactly once and leaves every field null. |
| ElementLifecycle.FailedDetachLeaksResolvers | Editor/Core/Elements/Implementations/ElementBase.cs:344-389 | When the detach throws, no resolver goes back and the element never becomes `Destroyed`. Every later dispose returns at once, so the resolvers stay rented. |
| ElementLifecycle.DisposeIdempotent | Editor/Core/Elements/Implementations/ElementBase.cs:701-704 | A second dispose does nothing, whether the first completed or threw. |
| ElementLifecycle.DisposedRejects | Editor/Core/Elements/Implementations/ElementBase.cs:445-451 | After a disposal that completes, the guarded members (children, refresh request, draw, post-process) throw `ObjectDisposedException`. |
| ElementLifecycle.RefreshAfterDisposeRebinds | Editor/Core/Elements/Implementations/ElementBase.cs:466-492 | `Refresh` is unguarded: run after disposal, it binds resolvers to the destroyed element again. |
| CollectionStructure.ItemName | Editor/Resolvers/StructureResolver/Collection/CollectionStructureResolverBase.cs:53-60 | Item names have the form `Array.data[<i>]`. |
| CollectionStructure.ItemNamesDistinct | Editor/Resolvers/StructureResolver/Collection/CollectionStructureResolverBase.cs:53-60 | Different items get different names. |
| CollectionStructure.CreateItemDefinition | Editor/Resolvers/StructureResolver/Collection/CollectionStructureResolverBase.cs:53-60 | The definition of item i has index i, the collection's item type and the item's name. |
| CollectionStructure.Initialize | Editor/Resolvers/StructureResolver/Collection/CollectionStructureResolverBase.cs:23-31 | One definition per current item, each the canonical one for its position. |
| CollectionStructure.CanonicalDefinitions | Editor/Resolvers/StructureResolver/Collection/CollectionStructureResolverBase.cs:23-31 | The canonical definitions for n items exist and have length n. |
| CollectionStructure.CanonicalIsUnique | Editor/Resolvers/StructureResolver/Collection/CollectionStructureResolverBase.cs:53-60 | Two canonical arrays of the same length are equal. |
| CollectionStructure.UpdateItemCount | Editor/Resolvers/StructureResolver/Collection/CollectionStructureResolverBase.cs:73-87 | A null array and a negative size throw; an unchanged length is a no-op; a resize keeps the common prefix and creates canonical definitions for new positions. |
| CollectionStructure.IncrementItemCount | Editor/Resolvers/StructureResolver/Collection/CollectionStructureResolverBase.cs:33-36 | Appends exactly the definition of the new last item; throws only before initialisation. |
| CollectionStructure.DecrementItemCount | Editor/Resolvers/StructureResolver/Collection/CollectionStructureResolverBase.cs:38-41 | Drops the last definition; throws exactly before initialisation or when there is none to drop. |
| CollectionStructure.ClearItemCount | Editor/Resolvers/StructureResolver/Collection/CollectionStructureResolverBase.cs:43-46 | Empties the definitions; throws only before initialisation. |
| CollectionStructure.OnRelease | Editor/Resolvers/StructureResolver/Collection/CollectionStructureResolverBase.cs:65-69 | A released resolver holds no definitions. |
| CollectionStructure.UpdateKeepsCanonical | Editor/Resolvers/StructureResolver/Collection/CollectionStructureResolverBase.cs:73-87 | Any successful resize of a canonical array gives the canonical array of the requested length. |
| CollectionStructure.IncrementThenDecrement | Editor/Resolvers/StructureResolver/Collection/CollectionStructureResolverBase.cs:33-41 | Adding then removing an item gives back the same resolver. |
| CollectionStructure.UpdateIdempotent | Editor/Resolvers/StructureResolver/Collection/CollectionStructureResolverBase.cs:73-87 | Resizing twice to the same count is the same as once. |
| CollectionStructure.ReleasedHoldsNoItems | Editor/Resolvers/StructureResolver/Collection/CollectionStructureResolverBase.cs:65-69 | After release, every resize throws until the next initialise, whatever the resolver held before. |
| CollectionElement.CanHaveChildren | Editor/Core/Elements/Implementations/CollectionElement.cs:28-31 | A collection element always has children. |
| CollectionElement.RefreshGivesChildrenList | Editor/Core/Elements/Implementations/ElementBase.cs:466-481 | With that answer, every refresh disposes the old children list and creates a new one. |
| CollectionElement.HandleAddItem | Editor/Core/Elements/Implementations/CollectionElement.cs:111-117 | Grows the definitions by the new last one and appends a new child built from it. It throws exactly before initialisation, and then changes nothing. |
| CollectionElement.HandleRemoveItem | Editor/Core/Elements/Implementations/CollectionElement.cs:119-125 | An empty child list throws before any change. Otherwise the last child is removed and destroyed even when shrinking the definitions then throws; that throw leaves the resolver as it was. |
| CollectionElement.HandleClearCollection | Editor/Core/Elements/Implementations/CollectionElement.cs:127-136 | Empties the children and destroys each former child in order, whether or not it then throws. It throws exactly before initialisation; otherwise it empties the definitions. |
| CollectionElement.OnCollectionChanged | Editor/Core/Elements/Implementations/CollectionElement.cs:66-77 | IMGUI, or no collection structure resolver, requests a full refresh and changes nothing else. |
| CollectionElement.IncrementalChangeKeepsSync | Editor/Core/Elements/Implementations/CollectionElement.cs:79-109 | Each incremental change keeps child i built from definition i. It throws exactly for a removal from an empty collection, and then changes nothing. |
| CollectionElement.ChildCountFollowsChange | Editor/Core/Elements/Implementations/CollectionElement.cs:79-109 | Add and Insert grow the children by one, Remove and RemoveAt shrink them by one, Clear empties them. |
| CollectionElement.ChangeIndexIgnored | Editor/Core/Elements/Implementations/CollectionElement.cs:79-109 | The index a change carries is ignored: Insert acts as Add, and RemoveAt acts as Remove. |
| CollectionElement.ClearDestroysEachChildOnce | Editor/Core/Elements/Implementations/CollectionElement.cs:127-136 | Clearing destroys each former child exactly once. |
| CollectionElement.AddThenRemove | Editor/Core/Elements/Implementations/CollectionElement.cs:111-125 | Adding then removing restores the children and the resolver, and the added child is the one destroyed. |
| DraggableList.CountLabel | Editor/VisualBuilders/Collection/DraggableListView.cs:204-207 | The label ends with the items suffix. |
| DraggableList.CountLabelRoundTrip | Editor/VisualBuilders/Collection/DraggableListView.cs:204-207 | The label's digits read back as the item count. |
| DraggableList.NewListView | Editor/VisualBuilders/Collection/DraggableListView.cs:31-41 | A new list shows the items with nothing selected and the label counting them. |
| DraggableList.Refresh | Editor/VisualBuilders/Collection/DraggableListView.cs:222-226 | Refresh relabels to the current count and keeps the items and the selection. |
| DraggableList.AddItem | Editor/VisualBuilders/Collection/DraggableListView.cs:231-235 | Appends the item and relabels. |
| DraggableList.InsertAt | Editor/VisualBuilders/Collection/DraggableListView.cs:240-244 | Inserting outside 0..Count throws; otherwise the item sits at i with the prefix and suffix kept. |
| DraggableList.InsertItem | Editor/VisualBuilders/Collection/DraggableListView.cs:240-244 | Insertion into the list view succeeds exactly for a position in range, and then relabels. |
| DraggableList.RemoveItemAt | Editor/VisualBuilders/Collection/DraggableListView.cs:249-259 | Only an index in range removes, removing just that position and relabelling; otherwise nothing changes. |
| DraggableList.IndexOf | Editor/VisualBuilders/Collection/DraggableListView.cs:264-268 | The first position holding the item, or -1 exactly when it is absent. |
| DraggableList.RemoveItem | Editor/VisualBuilders/Collection/DraggableListView.cs:264-268 | Succeeds exactly when the item is listed; an absent item changes nothing. |
| DraggableList.RemoveItemTakesFirst | Editor/VisualBuilders/Collection/DraggableListView.cs:264-268 | Removing takes out exactly one copy, the first. |
| DraggableList.ClearItems | Editor/VisualBuilders/Collection/DraggableListView.cs:270-274 | Empties the items, relabels, and keeps the selected index. |
| DraggableList.TryGetSelectedItem | Editor/VisualBuilders/Collection/DraggableListView.cs:279-289 | The selected item, present exactly when the selected index is in range. |
| DraggableList.SetSelectedIndex | Editor/VisualBuilders/Collection/DraggableListView.cs:294-300 | An index in range becomes the selection; others are ignored. |
| DraggableList.SelectThenRead | Editor/VisualBuilders/Collection/DraggableListView.cs:279-300 | A selection made is the selection read back. |
| DraggableList.SelectionChanged | Editor/VisualBuilders/Collection/DraggableListView.cs:178-188 | The item at the first reported index that is in range, and none exactly when no reported index is in range. |
| DraggableList.RemoveClicked | Editor/VisualBuilders/Collection/DraggableListView.cs:196-202 | The remove button requests the selected index exactly when something is selected. |
| DraggableList.InsertThenRemoveAt | Editor/VisualBuilders/Collection/DraggableListView.cs:240-259 | Inserting at a position then removing it restores the items. |
| DraggableList.CanAcceptDrag | Editor/VisualBuilders/Collection/DraggableListView.cs:168-171 | A drag without list-item data throws `NullReferenceException`; otherwise the answer is the type check. |
| DraggableList.DropItem | Editor/VisualBuilders/Collection/DraggableListView.cs:147-166 | A drag without list-item data throws `NullReferenceException` before anything changes. A drop of the wrong type, or of an item already listed, does nothing. Otherwise the item is inserted at the selection, or at the end without one, and the list grows by one. The insert throws exactly when the selection lies past the end. |
| DraggableList.DropKeepsDistinct | Editor/VisualBuilders/Collection/DraggableListView.cs:155-162 | A list without duplicates keeps none after a drop. |
| VisualCollectionBuilder.BuilderMatchesStructureResolver | Editor/VisualBuilders/Collection/VisualCollectionBuilder.cs:22-25 | The builder takes exactly the elements the collection structure resolver takes. |
| VisualCollectionBuilder.CreateVisualElement | Editor/VisualBuilders/Collection/VisualCollectionBuilder.cs:32-48 | The list shows a copy of the collection, nothing selected, nothing queued. |
| VisualCollectionBuilder.EntryRemoveAt | Editor/VisualBuilders/Collection/VisualCollectionBuilder.cs:115-118 | Removing from the collection succeeds exactly for an index in range and drops that one item. |
| VisualCollectionBuilder.ApplyToEntry | Editor/VisualBuilders/Collection/VisualCollectionBuilder.cs:84-113 | The collection edit a change report stands for: Add appends, Clear empties. |
| VisualCollectionBuilder.MoveItem | Editor/VisualBuilders/Collection/VisualCollectionBuilder.cs:67-72 | A reorder succeeds exactly for both indices in range, and puts the moved item at the new index. A bad old index throws with the entry unchanged. A bad new index throws after the item is removed, and the removal stays. |
| VisualCollectionBuilder.MoveIsPermutation | Editor/VisualBuilders/Collection/VisualCollectionBuilder.cs:67-72 | A reorder keeps the same items with the same multiplicities. |
| VisualCollectionBuilder.MoveBackRestores | Editor/VisualBuilders/Collection/VisualCollectionBuilder.cs:67-72 | Moving the item back restores the collection. |
| VisualCollectionBuilder.AddRequested | Editor/VisualBuilders/Collection/VisualCollectionBuilder.cs:78-82 | The add button appends exactly one default item. |
| VisualCollectionBuilder.RemoveButtonRequestIsValid | Editor/VisualBuilders/Collection/VisualCollectionBuilder.cs:115-118 | When list and collection agree, the remove button's request cannot throw; it removes the selected item and matches the list's own removal. |
| VisualCollectionBuilder.OnCollectionChanged | Editor/VisualBuilders/Collection/VisualCollectionBuilder.cs:84-90 | A change of the collection is only queued; neither the list nor the collection changes yet. |
| VisualCollectionBuilder.MirrorChange | Editor/VisualBuilders/Collection/VisualCollectionBuilder.cs:88-110 | A missing index reads as -1: an Insert without one throws, a RemoveAt without one does nothing, a Remove of an absent item does nothing. |
| VisualCollectionBuilder.MirrorMatchesEntry | Editor/VisualBuilders/Collection/VisualCollectionBuilder.cs:92-110 | Replaying a reported change on a list that shows the collection shows the changed collection. |
| VisualCollectionBuilder.QueuedMirrorCatchesUp | Editor/VisualBuilders/Collection/VisualCollectionBuilder.cs:84-113 | Once the queue runs, the list shows exactly the collection the reported changes produced, in order. |
| VisualCollectionBuilder.MoveEventsReportMove | Editor/VisualBuilders/Collection/VisualCollectionBuilder.cs:67-72 | A reorder is reported as a removal at the old index, then an insertion of the same item at the new one. Together these reports produce the moved collection. |
| VisualCollectionBuilder.ReorderReplayBreaksMirror | Editor/VisualBuilders/Collection/VisualCollectionBuilder.cs:84-113 | The list view's own reorder is assumed to have already moved the list. Replaying the collection's reports then removes the item that took the old place and adds a second copy of the moved item (distinct items, old and new index differ). The list stops holding the collection's items. |
| VisualCollectionBuilder.ReorderReplayExample | Editor/VisualBuilders/Collection/DraggableListView.cs:173-176 | Dragging the first of three items to the end leaves the list at `[2, 0, 0]` while the collection is `[1, 2, 0]`. |
| VisualCollectionBuilder.DropIsNotWrittenBack | Editor/VisualBuilders/Collection/DraggableListView.cs:147-166 | After a drop the list holds one item the collection does not: nothing writes the drop back. |
| ValueOperations.GetElementValue | Editor/Operations/CollectionElement/ListElementOperation.cs:12-15 | Reads the item at the fixed index; out of range throws `ArgumentOutOfRangeException`, the `IList<T>` indexer's exception for lists and arrays alike. |
| ValueOperations.SetElementValue | Editor/Operations/CollectionElement/ListElementOperation.cs:17-20 | Replaces exactly the item at the fixed index; out of range throws `ArgumentOutOfRangeException`. |
| ValueOperations.SetThenGet | Editor/Operations/CollectionElement/ListElementOperation.cs:12-20 | A write is read back, and writing the same value again changes nothing more. |
| ValueOperations.GetThenSet | Editor/Operations/CollectionElement/ListElementOperation.cs:12-20 | Writing back what was read leaves the collection unchanged. |
| ValueOperations.DistinctPositionsIndependent | Editor/Operations/CollectionElement/ListElementOperation.cs:8-20 | A write at one index leaves what another index reads unchanged. |
| ValueOperations.GenericSetValue | Editor/Operations/GenericValueOperation.cs:47-53 | Throws "Property is read-only" exactly without a setter; otherwise the setter is applied once. |
| ValueOperations.GenericReadIgnoresSetter | Editor/Operations/GenericValueOperation.cs:37-40 | A read only calls the getter: it answers the same whether the operation has a setter or is read-only. |
| ValueOperations.GenericSetThenGet | Editor/Operations/GenericValueOperation.cs:37-53 | With agreeing accessors, a value set is the value read back. |
| ValueOperations.NewMemberValueOperation | Editor/Operations/MemberValueOperation.cs:23-38 | A setter that cannot be built leaves the member read-only instead of failing the constructor. |
| ValueOperations.MemberReadOnlyMessage | Editor/Operations/MemberValueOperation.cs:63-66 | The message is `Member '`, then the member name, then `' is read-only.`. |
| ValueOperations.CastOwner | Editor/Operations/MemberValueOperation.cs:50-56 | The owner cast succeeds exactly for an instance of the owner type, and otherwise throws `InvalidCastException`. |
| ValueOperations.MemberGetValue | Editor/Operations/MemberValueOperation.cs:50-56 | The read succeeds exactly for a proper owner, giving the getter's value and the owner as the getter left it. |
| ValueOperations.MemberSetValue | Editor/Operations/MemberValueOperation.cs:63-72 | Read-only is reported before the cast; a foreign owner throws `InvalidCastException`; success writes through the setter. |
| ValueOperations.FailedSetterMeansReadOnly | Editor/Operations/MemberValueOperation.cs:23-72 | Every write to a member whose setter failed to build throws the message naming it, whatever the owner. |
| ValueOperations.MemberSetThenGet | Editor/Operations/MemberValueOperation.cs:50-72 | With agreeing accessors, a value set through a proper owner is read back. |
| ValueOperations.ReadOnlyMessagesDiffer | Editor/Operations/GenericValueOperation.cs:47-53 | The generic read-only message never coincides with a member's. |
| InspectorAttribute.ComputeId | Runtime/Attributes/Core/InspectorAttribute.cs:11-24 | The Id is the type's full name, `+`, then the Base64 text of the serialized bytes, and that text decodes back to the bytes. |
| InspectorAttribute.ReadId | Runtime/Attributes/Core/InspectorAttribute.cs:11-24 | The Id is computed on first read and memoised; later reads answer the memo. |
| InspectorAttribute.ReadIdIsStable | Runtime/Attributes/Core/InspectorAttribute.cs:11-24 | Reading the Id keeps the memo consistent and answers the same every time. |
| InspectorAttribute.EqualsMeansSameContent | Runtime/Attributes/Core/InspectorAttribute.cs:26-39 | Null is never equal; otherwise equal exactly when the runtime types match and the serialized bytes match. |
| InspectorAttribute.EqualsIsEquivalence | Runtime/Attributes/Core/InspectorAttribute.cs:26-39 | Equality is reflexive, symmetric and transitive. |
| InspectorAttribute.EqualAttributesHashAlike | Runtime/Attributes/Core/InspectorAttribute.cs:41-44 | Equal attributes have equal hash codes. |
| Base64.Encode | Runtime/Attributes/Core/InspectorAttribute.cs:20 | The text's length is a multiple of four. |
| Base64.DecodeEncode | Runtime/Attributes/Core/InspectorAttribute.cs:20 | Base64 loses nothing: decoding gives back the encoded bytes. |
| Base64.EncodeInjective | Runtime/Attributes/Core/InspectorAttribute.cs:20 | Different serialized forms give different Ids. |
| PersistentContext.NewCache | Editor/Tools/PersistentContext/PersistentContextCache.cs:56-59 | A new cache is empty, uninitialised and has loaded nothing. |
| PersistentContext.LoadedEntries | Editor/Tools/PersistentContext/PersistentContextCache.cs:114-132 | A null deserialisation gives an empty directory; a failed load keeps the directory; otherwise the loaded directory. |
| PersistentContext.EnsureInitialize | Editor/Tools/PersistentContext/PersistentContextCache.cs:61-73 | The first call loads once and sets the flag; later calls do nothing. |
| PersistentContext.GetContext | Editor/Tools/PersistentContext/PersistentContextCache.cs:75-89 | Answers the context stored under the key, with the requested value type; only that key changes. |
| PersistentContext.GetContextIsStable | Editor/Tools/PersistentContext/PersistentContextCache.cs:75-89 | Asking twice with the same key and type answers the same context, new at most the first time. |
| PersistentContext.GetContextKeepsIdsIssued | Editor/Tools/PersistentContext/PersistentContextCache.cs:75-89 | Every stored context was created by the cache. |
| PersistentContext.RetypingReplaces | Editor/Tools/PersistentContext/PersistentContextCache.cs:79-88 | Asking under another value type replaces the context, so asking again for the first type creates yet another. |
| PersistentContext.LoadsAtMostOnce | Editor/Tools/PersistentContext/PersistentContextCache.cs:61-73 | However many requests arrive, the cache loads from disk at most once. |
| PersistentContext.CacheFilePath | Editor/Tools/PersistentContext/PersistentContextCache.cs:35-43 | The file path lies strictly under the cache directory and differs from it. |
| PersistentContext.EnsureDirectory | Editor/Tools/PersistentContext/PersistentContextCache.cs:118-119 | The directory exists afterwards with nothing else changed; it throws exactly when a file is in the way. |
| PersistentContext.WriteAllBytes | Editor/Tools/PersistentContext/PersistentContextCache.cs:151 | Writing to a directory path throws; otherwise the path holds exactly the bytes. |
| PersistentContext.LoadCache | Editor/Tools/PersistentContext/PersistentContextCache.cs:114-132 | It throws exactly when a file blocks the directory or a directory blocks the cache file. Otherwise the directory and the cache file exist afterwards, nothing else on disk changes, and the result is the deserialised file content. A missing file is created empty and deserialised as empty bytes. |
| PersistentContext.SaveCache | Editor/Tools/PersistentContext/PersistentContextCache.cs:134-170 | With the write aimed at the cache file: an empty cache ends empty, and no cache file remains. A non-empty cache, with nothing on disk in the way, leaves the directory in place and its serialized bytes in the cache file. |
| PersistentContext.SaveCacheAsWritten | Editor/Tools/PersistentContext/PersistentContextCache.cs:134-162 | As written: an empty cache is handled as by `SaveCache`. A non-empty cache stays in memory, and the cache file is left exactly as it was. |
| PersistentContext.SaveCacheTo | Editor/Tools/PersistentContext/PersistentContextCache.cs:134-170 | An empty cache ends empty; a non-empty cache is kept in memory unchanged. |
| PersistentContext.SaveAsWrittenLeavesFile | Editor/Tools/PersistentContext/PersistentContextCache.cs:147-151 | As written, saving a non-empty cache never changes the cache file. |
| PersistentContext.SavedCacheIsLost | Editor/Tools/PersistentContext/PersistentContextCache.cs:151 | As written, what the next session loads does not depend on which non-empty cache was saved. |
| PersistentContext.SaveThenLoadRoundTrips | Editor/Tools/PersistentContext/PersistentContextCache.cs:114-162 | Saved to the cache file, a cache is exactly what the next load gives back. |
| EventArgsPool.EmptyArgsPool | Editor/Core/Elements/Models/ElementDestroyedEventArgs.cs:40-47 | An empty pool is valid and has nothing free. |
| EventArgsPool.OnRelease | Editor/Core/Elements/Models/ElementDestroyedEventArgs.cs:44-47 | The release hook clears the reported element. |
| EventArgsPool.Rent | Editor/Core/Elements/Models/ElementDestroyedEventArgs.cs:25-30 | Renting reuses the last freed instance or makes a new one; it reports no element, and other instances are untouched. |
| EventArgsPool.Create | Editor/Core/Elements/Models/ElementDestroyedEventArgs.cs:25-30 | The created event args report exactly the given element. |
| EventArgsPool.Dispose | Editor/Core/Elements/Models/ElementDestroyedEventArgs.cs:35-38 | Disposing returns the instance to the pool, cleared, with the others untouched. |
| EventArgsPool.DisposeKeepsValid | Editor/Core/Elements/Models/ElementDestroyedEventArgs.cs:35-47 | The pool stays valid: free instances exist, appear once and report nothing. |
| EventArgsPool.NoStaleElement | Editor/Core/Elements/Models/ElementDestroyedEventArgs.cs:25-47 | A reused instance reports only the new element, never the previous one. |
| DrawerLookup.RegistrationsOf | Editor/Utilities/InspectorDrawerUtility.cs:52-58 | A drawer registers exactly its non-null drawn types. |
| DrawerLookup.Registrations | Editor/Utilities/InspectorDrawerUtility.cs:46-61 | A registration pairs a scanned concrete class deriving from `PropertyDrawer` with one of its non-null drawn types. Every such pair is registered. |
| DrawerLookup.DrawnTypeMapKeys | Editor/Utilities/InspectorDrawerUtility.cs:46-61 | A drawn type is in the table exactly when some registration names it. |
| DrawerLookup.DrawnTypeMapIsLastWins | Editor/Utilities/InspectorDrawerUtility.cs:55-58 | A drawn type in the table maps to the drawer of the last registration that names it. |
| DrawerLookup.IsDefinedUnityPropertyDrawer | Editor/Utilities/InspectorDrawerUtility.cs:63-80 | True exactly when some registered drawn type is assignable from the target. |
| DrawerLookup.DefinedIsInheritedBySubtypes | Editor/Utilities/InspectorDrawerUtility.cs:63-80 | A subtype of a type that has a drawer has one too. |
| GroupAttributes.FirstScope | Editor/Utilities/InspectorAttributeUtility.cs:47-79 | The first scope whose begin (or end) type is the one asked for, or none exactly when no scope has it. |
| GroupAttributes.EndTypeFor | Editor/Utilities/InspectorAttributeUtility.cs:47-62 | A cached begin type answers from the cache. Otherwise the first scope it opens gives the end type, which is then cached; with no such scope it throws `InvalidOperationException` and caches nothing. |
| GroupAttributes.BeginTypeFor | Editor/Utilities/InspectorAttributeUtility.cs:64-79 | The same lookup from an end type to its begin type, through the other cache. |
| GroupAttributes.GetCorrespondGroupAttributeType | Editor/Utilities/InspectorAttributeUtility.cs:29-45 | Null is rejected with `ArgumentNullException`. A type that is neither a begin nor an end group attribute is an invalid argument. A throw leaves the caches unchanged. |
| GroupAttributes.CacheIsTransparent | Editor/Utilities/InspectorAttributeUtility.cs:47-79 | The cached lookup answers what the scopes alone answer, and keeps the caches faithful. |
| GroupAttributes.LookupIsStable | Editor/Utilities/InspectorAttributeUtility.cs:29-79 | Asking twice gives the same answer, and the second time changes no cache. |
| GroupAttributes.BeginEndRoundTrip | Editor/Utilities/InspectorAttributeUtility.cs:29-79 | With one-to-one scopes, begin to end and back gives the begin type again. |
| GroupAttributes.CachedRoundTrip | Editor/Utilities/InspectorAttributeUtility.cs:29-79 | The same round trip holds through the caches, starting from empty caches. |
| TreeFactory.SerializedObjectMatches | Editor/Core/ElementFactories/Implementations/ElementTreeFactory.cs:32-56 | Valid exactly when the serialized object's targets are the targets: same length, same reference at every position. |
| TreeFactory.AllOfType | Editor/Core/ElementFactories/Implementations/ElementTreeFactory.cs:61-69 | True exactly when every target is non-null and of the first type; a null reached first throws a null dereference. |
| TreeFactory.CreateTree | Editor/Core/ElementFactories/Implementations/ElementTreeFactory.cs:26-82 | See below the table. |
| TreeFactory.CreateTreeFromSerializedObject | Editor/Core/ElementFactories/Implementations/ElementTreeFactory.cs:15-23 | A null serialized object is rejected; otherwise the tree is over exactly its targets. |
| TreeFactory.NullTargetIsRejected | Editor/Core/ElementFactories/Implementations/ElementTreeFactory.cs:61-69 | A list holding a null never passes the same-type check. It throws exactly when no earlier target has another type. |
| ElementExtensions.CastValue | Editor/Core/Elements/Extensions/ElementExtensions.cs:14-27 | The cast succeeds exactly for a value element and gives it back unchanged. |
| ElementExtensions.GetAttributeInfo | Editor/Core/Elements/Extensions/ElementExtensions.cs:40-51 | Some info exactly when an attribute has that exact type, and then the first such info. |
| ElementExtensions.GetAttribute | Editor/Core/Elements/Extensions/ElementExtensions.cs:52-73 | Some attribute exactly when one matches (exactly, or derived when derived types are included), and it is one of the element's attributes. |
| ElementExtensions.GenericLookupAgrees | Editor/Core/Elements/Extensions/ElementExtensions.cs:75-90 | The generic lookup answers the same as the lookup by type, for either flag. |
| ElementExtensions.GetAttributeOf | Editor/Core/Elements/Extensions/ElementExtensions.cs:75-90 | The generic lookup answers one of the element's attributes that is a `TAttribute`, of exactly that type unless derived types are included; null exactly when there is none. |
| ElementExtensions.InfoLookupAgrees | Editor/Core/Elements/Extensions/ElementExtensions.cs:40-73 | The exact lookup gives the attribute of the info that `GetAttributeInfo` finds. |
| ElementExtensions.IncludeDerivedFindsMore | Editor/Core/Elements/Extensions/ElementExtensions.cs:52-73 | Including derived types can only find more. |
| ElementExtensions.EnumerateAttributes | Editor/Core/Elements/Extensions/ElementExtensions.cs:92-98 | The attributes, one per info, in info order. |
| ElementExtensions.ContextKeyInjective | Editor/Core/Elements/Extensions/ElementExtensions.cs:34-38 | The context key joins the element key and the caller's key; within one element, different keys give different contexts. |
| ElementExtensions.ContextKeysCanCollideAcrossElements | Editor/Core/Elements/Extensions/ElementExtensions.cs:34-38 | Across elements the join is ambiguous: `a+b`/`c` meets `a`/`b+c`. |
| ElementExtensions.OwningVisualElementAsWritten | Editor/Core/Elements/Extensions/ElementExtensions.cs:100-141 | As written: nothing outside UIToolkit, the root visual for the root, and otherwise only the direct parent is consulted. |
| ElementExtensions.OwningVisualElement | Editor/Core/Elements/Extensions/ElementExtensions.cs:101-105 | As documented: nothing outside UIToolkit, the root visual for the root, and otherwise the walk up the whole chain. |
| ElementExtensions.WalkUpFindsNearest | Editor/Core/Elements/Extensions/ElementExtensions.cs:101-105 | The walk finds the nearest ancestor with a visual element, stopping at the root; it finds nothing only when no ancestor has one and the root is never reached. |
| ElementExtensions.AsWrittenAgreesOnShortChains | Editor/Core/Elements/Extensions/ElementExtensions.cs:119-138 | Where the chain ends at the direct parent, the code and the documented walk agree. |
| ElementExtensions.AsWrittenMissesGrandparent | Editor/Core/Elements/Extensions/ElementExtensions.cs:119-138 | The code misses a grandparent's visual element that the documented walk finds. |

`TreeFactory.CreateTree` states the following cases:

- null targets throw `ArgumentNullException("targets")`;
- with a serialized object, the tree is built exactly when it matches the targets, and otherwise `ArgumentException`;
- without one, the tree is built exactly when all targets are non-null and of one type, and otherwise a null dereference or `ArgumentException`;
- a serialized object is made exactly for non-empty `UnityEngine.Object` targets.

### Where code and documentation disagree

The model follows the code in each case:

- **The processor chain does not skip processors.** The class comment of `VisualProcessorChain` says processors are
  skipped automatically. The code has no skipping, and `ProcessorChain.MoveNextAfterReset` states that none is skipped.
- **Refresh requests are not coalesced.** Each `RequestRefresh` while drawing queues another refresh
  (`ElementLifecycle.RepeatedRequestsQueueTwice`).
- **The withdraw branch of `RequestRefresh` never runs.** `Request` always returns `true`, so the branch that removes
  `PendingRefresh` is dead code.
- **`Refresh` is not guarded against disposal.** A refresh queued before disposal rebinds resolvers when it runs
  (`ElementLifecycle.RefreshAfterDisposeRebinds`).
- **A drop in the draggable list is not written back to the collection**
  (`VisualCollectionBuilder.DropIsNotWrittenBack`).
- **A drag-reorder in the list is applied to the list twice.** The list view moves its own items, the builder moves the
  collection, and the collection's reports are then replayed on the already-moved list. With distinct items the moved
  item ends up twice and its old neighbour is lost (`VisualCollectionBuilder.ReorderReplayBreaksMirror`). This rests on
  the list view's engine behaviour, which is not part of this model (see "## Left out").
- **A drag without list-item data throws.** `CanAcceptDrag` calls `GetType()` on the "DraggableListItem" drag data,
  which is null for a drag that did not come from a list (`DraggableList.CanAcceptDrag`, `DraggableList.DropItem`).
- **A failed detach leaks the element's resolvers.** `Dispose` adds `Destroying` before the detach. When the parent's
  `Children` getter throws, `Destroyed` is never added and no resolver is released, and every later dispose returns
  early (`ElementLifecycle.FailedDetachLeaksResolvers`).
- **`VisualBuilderUtility` names a method that `HandlerUtility` does not declare.** It calls
  `HandlerUtility.GetFirstHandlerType`, and `HandlerUtility` declares `GetFirstElementType`. The model takes it to mean
  `GetFirstElementType`.

## Left out

- **The type matcher.** Its `GetMatches` and `GetMergedResults` are not part of this model. They are the function values
  of `HandlerQuery.MatcherOps`.
- **`ResolverUtility`.** Its resolver-type choice and its object pool are not part of this model. The type is a
  parameter, and the pool is a log of rents and releases.
- **Thread safety.** The lock in `HandlerUtility` only guards concurrent initialisation, and the model is sequential.
- **Reflection.** `GetUninitializedObject`, `CreateInstance` and the assembly scan are replaced by new handler values and
  by the scanned type list.
- **Priorities are integers.** `OrderPriority` values are doubles in the source and integers here. Every level the
  source defines is a whole number.
- **Levels defined in missing files.** The drawer priority levels and `OrderPriority.Default` are defined in files that
  are not part of this model, so they are parameters.
- **Rendering.** IMGUI drawing, the UIToolkit visual tree (adding to and splicing into the owning visual element),
  styling, drag visuals and list-view rendering are not modelled. The effect log records only which drawers and
  processors ran.
- **Tree internals.** The draining of the callback queue and the element factory's destruction are not part of this
  model. The queue is a sequence, and destruction requests are logged.
- **The `ElementBase` constructor's null checks.** The model's elements always have a definition and a shared context.
- **Key parts.** `ElementUtility.GetKey`, `TypeUtility.GetTypeName` and the serialization binder's type names are given
  strings.
- **The serializer.** `EasySerializer` is a pair of functions. An attribute carries the bytes it serializes to.
- **The string hash.** `GetHashCode` takes the string hash as a parameter.
- **Editor callbacks in the persistent-context cache.** The update tick, the play-mode save and its one-second throttle,
  domain unload, the cache memory size and logging are not modelled.
- **`ElementExtensions.CastValue`.** The message of the `InvalidCastException` is not modelled.
- **`ElementExtensions.GetAttribute`.** The contract says the answer matches and is one of the element's attributes. It
  does not say the answer is the first match. The first-match property is stated for the exact lookup through
  `ElementExtensions.InfoLookupAgrees` and `ElementExtensions.GetAttributeInfo`.
- **`ElementLifecycle.Draw`.** The contract states only the guard and the phase bookkeeping. What a draw runs is stated
  per backend by `ElementLifecycle.ImguiDrawDefersRequests`, `ElementLifecycle.UiToolkitDrawNeedsPending` and
  `ElementLifecycle.UiToolkitDrawWithoutBuilderResolver`.
  - The owning visual element is not modelled, so two further UIToolkit throws are not either.
  - A previous visual element missing from its owner is only logged at ElementBase.cs:267-271. The `RemoveAt(-1)` that
    follows throws `ArgumentOutOfRangeException`.
  - A null owning visual element passes the assertion at line 262 in a release build. It is then dereferenced at line
    266, or at line 281 or 285 after the visual element has been built.
  - Both throws leave `Drawing` and `PendingDraw` set, like the modelled one. The contract's list of throws is complete
    only within the model.
- **The list view's own reorder.** Unity's `ListView` is not part of this model. With `reorderable` set
  (DraggableListView.cs:59), it is taken to move its items before it raises `itemIndexChanged`.
  `VisualCollectionBuilder.ReorderReplayBreaksMirror` and `VisualCollectionBuilder.ReorderReplayExample` rest on that
  assumption. `VisualCollectionBuilder.MirrorMatchesEntry` and `VisualCollectionBuilder.QueuedMirrorCatchesUp` hold only
  for a list that shows the collection when the replay starts, which such a reorder breaks.
- **The ordered value entry.** Its reports for a reorder are taken to be a `RemoveAt` with the old index, then an
  `Insert` with the new one (`VisualCollectionBuilder.MoveEvents`).
- **`VisualCollectionBuilder.ApplyToEntry`.** Its own contract states only the Add and Clear cases. The other cases are
  related to the list by `VisualCollectionBuilder.MirrorMatchesEntry`.
- **`CollectionElement.OnCollectionChanged`.** Its own contract states only the full-refresh branch. The incremental
  branch is stated by `CollectionElement.IncrementalChangeKeepsSync`, `CollectionElement.ChildCountFollowsChange` and
  `CollectionElement.ChangeIndexIgnored`.
- **`ElementBase.OnChildrenElementMoved`.** It only re-raises the notice through the shared context's event dispatch,
  which is not part of this model. The handler that acts on the notice, `OnElementMoved`, is modelled as
  `ElementLifecycle.OnElementMoved`.
- **`ElementLifecycle.OnElementMoved`.** `ElementListChangeType` is not part of this model, so the notice says only
  whether the change was an insertion. The children list's `TryRemove` is recorded as an effect, not carried out.
- **`EventArgsPool`.** `EditorPoolUtility` is not part of this model. Its pool is taken to hand out the most recently
  freed instance first, like a stack. Only the contract of `EventArgsPool.Rent` names which free instance is reused;
  the other pool properties hold whichever one it is.
- **`Types.DerivesFrom`.** `IsDerivedFrom` is not part of this model. The model takes it to hold for a type and itself,
  as `IsAssignableFrom` does, and to follow base classes and interfaces.
- **`ValueOperations.GenericGetValue`, `CollectionStructure.CanResolveElement`, `VisualCollectionBuilder.CanBuildElement`.**
  Each is a single delegation, with no contract of its own. What they promise is stated by
  `ValueOperations.GenericReadIgnoresSetter`, `ValueOperations.GenericSetThenGet` and
  `VisualCollectionBuilder.BuilderMatchesStructureResolver`.

## Findings

| source | as written | input that shows it | evidently intended | confidence | as-written member | corrected member |
|---|---|---|---|---|---|---|
| Editor/Tools/PersistentContext/PersistentContextCache.cs:151 | `SaveCache` writes the serialized cache to `CacheDirectory`, a directory the line before made sure exists, so the write always throws and is swallowed. | Any non-empty cache: the cache file keeps its old content, and the next session loads that instead of what was saved. | Write to `CacheFilePath`, the file `LoadCache` reads. | high; not executed | PersistentContext.SaveAsWrittenLeavesFile, PersistentContext.SavedCacheIsLost | PersistentContext.SaveThenLoadRoundTrips |
| Editor/Core/Elements/Extensions/ElementExtensions.cs:119-138 | The lookup loop is a `do … while (false)`, so only the direct parent is examined. `ElementBase.GetOwningVisualElement` (Editor/Core/Elements/Implementations/ElementBase.cs:675-694) repeats the same loop, and `Draw` uses that copy at line 261. | A parent with no visual element that is not the root, whose own parent has visual element 7: the answer is null instead of 7. | Walk up the parents until one has a visual element or the root is reached, as the documentation at lines 101-105 says. | medium; not executed | ElementExtensions.AsWrittenMissesGrandparent | ElementExtensions.WalkUpFindsNearest |

=== FILE: base64.dfy ===
/** `Convert.ToBase64String`: the standard Base64 alphabet of section 4 of
    RFC 4648, with `=` padding, and a decoder proving the encoding loses
    nothing. */
module Base64 {
  import opened Wrappers

  /** The character for a six-bit value. */
  function SextetChar(d: bv8): (c: char)
    requires d < 64
  {
    if d < 26 then ('A' as int + d as int) as char
    else if d < 52 then ('a' as int + (d as int - 26)) as char
    else if d < 62 then ('0' as int + (d as int - 52)) as char
    else if d == 62 then '+'
    else '/'
  }

  predicate IsBase64Char(c: char) {
    'A' <= c <= 'Z' || 'a' <= c <= 'z' || '0' <= c <= '9' || c == '+' || c == '/'
  }

  /** The six-bit value of an alphabet character. */
  function CharSextet(c: char): (d: bv8)
    requires IsBase64Char(c)
    ensures d < 64
  {
    if 'A' <= c <= 'Z' then (c as int - 'A' as int) as bv8
    else if 'a' <= c <= 'z' then (c as int - 'a' as int + 26) as bv8
    else if '0' <= c <= '9' then (c as int - '0' as int + 52) as bv8
    else if c == '+' then 62
    else 63
  }

  lemma SextetRoundTrip(d: bv8)
    requires d < 64
    ensures IsBase64Char(SextetChar(d)) && CharSextet(SextetChar(d)) == d
  {
    if d < 26 {
      assert 'A' <= SextetChar(d) <= 'Z';
    } else if d < 52 {
      assert 'a' <= SextetChar(d) <= 'z';
    } else if d < 62 {
      assert '0' <= SextetChar(d) <= '9';
    }
  }

  /** Three bytes as four characters. */
  function EncodeGroup(b0: bv8, b1: bv8, b2: bv8): (s: string)
    ensures |s| == 4 && forall i | 0 <= i < 4 :: IsBase64Char(s[i])
  {
    var n: bv24 := (b0 as bv24 << 16) | (b1 as bv24 << 8) | b2 as bv24;
    var d0 := ((n >> 18) & 63) as bv8;
    var d1 := ((n >> 12) & 63) as bv8;
    var d2 := ((n >> 6) & 63) as bv8;
    var d3 := (n & 63) as bv8;
    SextetRoundTrip(d0); SextetRoundTrip(d1); SextetRoundTrip(d2); SextetRoundTrip(d3);
    [SextetChar(d0), SextetChar(d1), SextetChar(d2), SextetChar(d3)]
  }

  /** Four six-bit values as three bytes. */
  function DecodeSextets(d0: bv8, d1: bv8, d2: bv8, d3: bv8): (bytes: seq<bv8>)
    requires d0 < 64 && d1 < 64 && d2 < 64 && d3 < 64
    ensures |bytes| == 3
  {
    var n: bv24 := (d0 as bv24 << 18) | (d1 as bv24 << 12) | (d2 as bv24 << 6) | d3 as bv24;
    [(n >> 16) as bv8, ((n >> 8) & 255) as bv8, (n & 255) as bv8]
  }

  /** The encoding: full groups, then one or two trailing bytes padded with
      `=` to a last group of four characters. */
  function Encode(bytes: seq<bv8>): (s: string)
    ensures |s| % 4 == 0
    decreases |bytes|
  {
    if |bytes| == 0 then ""
    else if |bytes| == 1 then EncodeGroup(bytes[0], 0, 0)[..2] + "=="
    else if |bytes| == 2 then EncodeGroup(bytes[0], bytes[1], 0)[..3] + "="
    else EncodeGroup(bytes[0], bytes[1], bytes[2]) + Encode(bytes[3..])
  }

  /** The inverse of `Encode` on its image. */
  function Decode(s: string): (r: Option<seq<bv8>>)
    decreases |s|
  {
    if |s| == 0 then Some([])
    else if |s| < 4 || !IsBase64Char(s[0]) || !IsBase64Char(s[1]) then None
    else if |s| == 4 && s[2] == '=' && s[3] == '=' then
      Some(DecodeSextets(CharSextet(s[0]), CharSextet(s[1]), 0, 0)[..1])
    else if !IsBase64Char(s[2]) then None
    else if |s| == 4 && s[3] == '=' then
      Some(DecodeSextets(CharSextet(s[0]), CharSextet(s[1]), CharSextet(s[2]), 0)[..2])
    else if !IsBase64Char(s[3]) then None
    else
      match Decode(s[4..])
      case None => None
      case Some(rest) =>
        Some(DecodeSextets(CharSextet(s[0]), CharSextet(s[1]), CharSextet(s[2]), CharSextet(s[3])) + rest)
  }

  /** A full group decodes to its three bytes. */
  lemma GroupRoundTrip(b0: bv8, b1: bv8, b2: bv8)
    ensures var s := EncodeGroup(b0, b1, b2);
            DecodeSextets(CharSextet(s[0]), CharSextet(s[1]), CharSextet(s[2]), CharSextet(s[3])) == [b0, b1, b2]
  {
    var n: bv24 := (b0 as bv24 << 16) | (b1 as bv24 << 8) | b2 as bv24;
    var d0 := ((n >> 18) & 63) as bv8;
    var d1 := ((n >> 12) & 63) as bv8;
    var d2 := ((n >> 6) & 63) as bv8;
    var d3 := (n & 63) as bv8;
    SextetRoundTrip(d0); SextetRoundTrip(d1); SextetRoundTrip(d2); SextetRoundTrip(d3);
    BitsRoundTrip(b0, b1, b2);
  }

  /** The bit-level heart of `GroupRoundTrip`. */
  lemma BitsRoundTrip(b0: bv8, b1: bv8, b2: bv8)
    ensures var n: bv24 := (b0 as bv24 << 16) | (b1 as bv24 << 8) | b2 as bv24;
            DecodeSextets(((n >> 18) & 63) as bv8, ((n >> 12) & 63) as bv8, ((n >> 6) & 63) as bv8, (n & 63) as bv8)
              == [b0, b1, b2]
  {
  }

  /** A zero third byte leaves the last sextet zero, and a zero second byte
      the third as well. */
  lemma LowSextetsZero(b0: bv8, b1: bv8)
    ensures var g := EncodeGroup(b0, b1, 0);
            && CharSextet(g[3]) == 0
            && (b1 == 0 ==> CharSextet(g[2]) == 0)
  {
    var n: bv24 := (b0 as bv24 << 16) | (b1 as bv24 << 8) | 0 as bv24;
    assert (n & 63) as bv8 == 0;
    assert b1 == 0 ==> ((n >> 6) & 63) as bv8 == 0;
    SextetRoundTrip(0);
  }

  /** A single trailing byte: two characters and two pads. */
  lemma OneByteRoundTrip(b0: bv8)
    ensures Decode(Encode([b0])) == Some([b0])
  {
    var g := EncodeGroup(b0, 0, 0);
    GroupRoundTrip(b0, 0, 0);
    LowSextetsZero(b0, 0);
    var s := Encode([b0]);
    assert s == [g[0], g[1], '=', '='];
    var decoded := DecodeSextets(CharSextet(g[0]), CharSextet(g[1]), 0, 0);
    assert decoded == [b0, 0, 0];
    assert decoded[..1] == [b0];
  }

  /** Two trailing bytes: three characters and one pad. */
  lemma TwoByteRoundTrip(b0: bv8, b1: bv8)
    ensures Decode(Encode([b0, b1])) == Some([b0, b1])
  {
    var g := EncodeGroup(b0, b1, 0);
    GroupRoundTrip(b0, b1, 0);
    LowSextetsZero(b0, b1);
    var s := Encode([b0, b1]);
    assert s == [g[0], g[1], g[2], '='];
    var decoded := DecodeSextets(CharSextet(g[0]), CharSextet(g[1]), CharSextet(g[2]), 0);
    assert decoded == [b0, b1, 0];
    assert decoded[..2] == [b0, b1];
  }

  /** Decoding gives back exactly the bytes that were encoded. */
  lemma {:induction false} DecodeEncode(bytes: seq<bv8>)
    ensures Decode(Encode(bytes)) == Some(bytes)
    decreases |bytes|
  {
    if |bytes| == 0 {
    } else if |bytes| == 1 {
      assert bytes == [bytes[0]];
      OneByteRoundTrip(bytes[0]);
    } else if |bytes| == 2 {
      assert bytes == [bytes[0], bytes[1]];
      TwoByteRoundTrip(bytes[0], bytes[1]);
    } else {
      DecodeEncode(bytes[3..]);
      assert bytes == [bytes[0], bytes[1], bytes[2]] + bytes[3..];
      FullGroupStep(bytes[0], bytes[1], bytes[2], bytes[3..]);
    }
  }

  /** A leading full group keeps the round trip of what follows it. */
  lemma FullGroupStep(b0: bv8, b1: bv8, b2: bv8, rest: seq<bv8>)
    requires Decode(Encode(rest)) == Some(rest)
    ensures Decode(Encode([b0, b1, b2] + rest)) == Some([b0, b1, b2] + rest)
  {
    var bytes := [b0, b1, b2] + rest;
    assert bytes[0] == b0 && bytes[1] == b1 && bytes[2] == b2 && bytes[3..] == rest;
    assert Encode(bytes) == EncodeGroup(b0, b1, b2) + Encode(rest);
    DecodeAfterGroup(b0, b1, b2, Encode(rest));
  }

  /** A full group in front of any text decodes to its three bytes in front
      of whatever the text decodes to. */
  lemma DecodeAfterGroup(b0: bv8, b1: bv8, b2: bv8, t: string)
    ensures var g := EncodeGroup(b0, b1, b2);
            Decode(g + t) == if Decode(t).Some? then Some([b0, b1, b2] + Decode(t).value) else None
  {
    var g := EncodeGroup(b0, b1, b2);
    var s := g + t;
    assert s[..4] == g && s[4..] == t;
    assert s[0] == g[0] && s[1] == g[1] && s[2] == g[2] && s[3] == g[3];
    GroupRoundTrip(b0, b1, b2);
  }

  /** Different byte strings have different encodings. */
  lemma EncodeInjective(a: seq<bv8>, b: seq<bv8>)
    requires Encode(a) == Encode(b)
    ensures a == b
  {
    DecodeEncode(a);
    DecodeEncode(b);
  }
}

=== FILE: collection_element.dfy ===
/** `CollectionElement`: a collection value element mirrors changes of its
    collection onto its logical children. In UIToolkit with a collection
    structure resolver it updates incrementally — one child per item, always
    added or removed at the end — and otherwise requests a full refresh. */
module CollectionElement {
  import opened Wrappers
  import opened Types
  import opened CollectionStructure
  import ElementLifecycle

  /** A logical child: its element identity and the item definition it was
      created from. */
  datatype Child = Child(id: nat, definition: ItemDefinition)

  /** `CollectionChangeType`, with the index the change carries where there
      is one. */
  datatype Change = Add | Remove | Insert(index: int) | RemoveAt(index: int) | Clear

  /** The element's view of itself: its logical children, its structure
      resolver, the identity the element factory gives the next child, the
      children it destroyed in order, and how many refreshes it requested. */
  datatype CollectionState = CollectionState(
    children: seq<Child>,
    resolver: StructureResolver,
    nextChildId: nat,
    destroyed: seq<nat>,
    refreshRequests: nat)

  /** A collection element can always have children. */
  function CanHaveChildren(): (r: bool)
    ensures r
  {
    true
  }

  /** Answering `CanHaveChildren` with `true` means every refresh of a
      collection element disposes the old children list and gives it a new
      one. */
  lemma RefreshGivesChildrenList(cfg: ElementLifecycle.Config, s: ElementLifecycle.State)
    requires cfg.canHaveChildren == CanHaveChildren()
    ensures ElementLifecycle.Refresh(cfg, s).e.children == Some(s.t.nextListId)
    ensures s.e.children.Some? ==>
              ElementLifecycle.ChildrenListDisposed(s.e.children.value) in ElementLifecycle.Refresh(cfg, s).t.effects
  {
  }

  /** `HandleAddItem`: grow the definitions, then append a child built from
      the last one. */
  function HandleAddItem(s: CollectionState): (r: Completion<CollectionState>)
    ensures r.Abrupt? <==> s.resolver.definitions.None?
    ensures r.Abrupt? ==> r.state == s
    ensures r.Normal? ==>
              var defs := s.resolver.definitions.value;
              && r.state.resolver.definitions == Some(defs + [CreateItemDefinition(s.resolver.itemType, |defs|)])
              && r.state.children == s.children + [Child(s.nextChildId, CreateItemDefinition(s.resolver.itemType, |defs|))]
              && r.state.nextChildId == s.nextChildId + 1
              && r.state.destroyed == s.destroyed && r.state.refreshRequests == s.refreshRequests
  {
    match IncrementItemCount(s.resolver)
    case Throws(err) => Abrupt(err, s)
    case Ok(resolver) =>
      var defs := resolver.definitions.value;
      var child := Child(s.nextChildId, defs[|defs| - 1]);
      Normal(s.(children := s.children + [child], resolver := resolver, nextChildId := s.nextChildId + 1))
  }

  /** `HandleRemoveItem`: remove and destroy the last child, then shrink the
      definitions. Indexing an empty children list throws before anything
      changes; when the definitions cannot shrink, the child is already
      removed and destroyed. */
  function HandleRemoveItem(s: CollectionState): (r: Completion<CollectionState>)
    ensures |s.children| == 0 ==> r == Abrupt(ArgumentOutOfRangeException, s)
    ensures |s.children| > 0 ==>
              && r.state.children == s.children[..|s.children| - 1]
              && r.state.destroyed == s.destroyed + [s.children[|s.children| - 1].id]
              && r.state.nextChildId == s.nextChildId && r.state.refreshRequests == s.refreshRequests
              && (r.Normal? <==> DecrementItemCount(s.resolver).Ok?)
              && (r.Normal? ==> DecrementItemCount(s.resolver) == Ok(r.state.resolver))
              && (r.Abrupt? ==> r.state.resolver == s.resolver)
  {
    if |s.children| == 0 then Abrupt(ArgumentOutOfRangeException, s)
    else
      var last := s.children[|s.children| - 1];
      var s1 := s.(children := s.children[..|s.children| - 1], destroyed := s.destroyed + [last.id]);
      match DecrementItemCount(s.resolver)
      case Throws(err) => Abrupt(err, s1)
      case Ok(resolver) => Normal(s1.(resolver := resolver))
  }

  /** The identities of a run of children. */
  function Ids(children: seq<Child>): (ids: seq<nat>)
    ensures |ids| == |children|
    ensures forall i | 0 <= i < |children| :: ids[i] == children[i].id
  {
    seq(|children|, i requires 0 <= i < |children| => children[i].id)
  }

  /** `HandleClearCollection`: empty the children, destroy each former child
      in order, then clear the definitions. The children are gone even when
      clearing the definitions throws. */
  function HandleClearCollection(s: CollectionState): (r: Completion<CollectionState>)
    ensures r.Abrupt? <==> s.resolver.definitions.None?
    ensures r.state.children == [] && r.state.destroyed == s.destroyed + Ids(s.children)
    ensures r.state.nextChildId == s.nextChildId && r.state.refreshRequests == s.refreshRequests
    ensures r.Normal? ==> r.state.resolver.definitions == Some([])
    ensures r.Abrupt? ==> r.state.resolver == s.resolver
  {
    var s1 := s.(children := [], destroyed := s.destroyed + Ids(s.children));
    match ClearItemCount(s.resolver)
    case Throws(err) => Abrupt(err, s1)
    case Ok(resolver) => Normal(s1.(resolver := resolver))
  }

  /** `OnCollectionChanged`: a full refresh request in IMGUI or without a
      collection structure resolver; otherwise the incremental update. Add
      and Insert both append, Remove and RemoveAt both drop the last child,
      whatever index the change names. */
  function OnCollectionChanged(uiToolkit: bool, hasCollectionResolver: bool, s: CollectionState, c: Change)
    : (r: Completion<CollectionState>)
    ensures !uiToolkit || !hasCollectionResolver ==> r == Normal(s.(refreshRequests := s.refreshRequests + 1))
  {
    if !uiToolkit || !hasCollectionResolver then Normal(s.(refreshRequests := s.refreshRequests + 1))
    else
      match c
      case Add => HandleAddItem(s)
      case Insert(_) => HandleAddItem(s)
      case Remove => HandleRemoveItem(s)
      case RemoveAt(_) => HandleRemoveItem(s)
      case Clear => HandleClearCollection(s)
  }

  /** The children mirror the definitions one for one: as many children as
      definitions, child `i` built from definition `i`, and the definitions
      canonical. */
  predicate Synced(s: CollectionState) {
    && s.resolver.definitions.Some?
    && |s.children| == |s.resolver.definitions.value|
    && Canonical(s.resolver.itemType, s.resolver.definitions.value)
    && forall i | 0 <= i < |s.children| :: s.children[i].definition == s.resolver.definitions.value[i]
  }

  /** Every incremental change keeps children and definitions in step, and
      changes both counts by the same amount. */
  lemma IncrementalChangeKeepsSync(s: CollectionState, c: Change)
    requires Synced(s)
    ensures var r := OnCollectionChanged(true, true, s, c);
            && (r.Normal? ==> Synced(r.state))
            && (r.Abrupt? <==> (c.Remove? || c.RemoveAt?) && |s.children| == 0)
            && (r.Abrupt? ==> r.state == s)
  {
    match c
    case Add =>
    case Insert(_) =>
    case Remove =>
      if |s.children| > 0 {
        assert DecrementItemCount(s.resolver).Ok?;
      }
    case RemoveAt(_) =>
      if |s.children| > 0 {
        assert DecrementItemCount(s.resolver).Ok?;
      }
    case Clear =>
  }

  /** The child count follows the collection: adding grows it by one,
      removing shrinks it by one, clearing empties it. */
  lemma ChildCountFollowsChange(s: CollectionState, c: Change)
    requires Synced(s)
    requires OnCollectionChanged(true, true, s, c).Normal?
    ensures var r := OnCollectionChanged(true, true, s, c).state;
            |r.children| == match c
                            case Add => |s.children| + 1
                            case Insert(_) => |s.children| + 1
                            case Remove => |s.children| - 1
                            case RemoveAt(_) => |s.children| - 1
                            case Clear => 0
  {
  }

  /** The index a change carries is ignored. */
  lemma ChangeIndexIgnored(s: CollectionState, i: int, j: int)
    ensures OnCollectionChanged(true, true, s, Insert(i)) == OnCollectionChanged(true, true, s, Add)
    ensures OnCollectionChanged(true, true, s, RemoveAt(i)) == OnCollectionChanged(true, true, s, RemoveAt(j))
    ensures OnCollectionChanged(true, true, s, RemoveAt(i)) == OnCollectionChanged(true, true, s, Remove)
  {
  }

  /** Clearing destroys each former child exactly once: the destroyed log
      grows by exactly the former children's identities, in order. */
  lemma ClearDestroysEachChildOnce(s: CollectionState, id: nat)
    requires Synced(s)
    ensures var r := OnCollectionChanged(true, true, s, Clear);
            && r.Normal?
            && multiset(r.state.destroyed)[id] == multiset(s.destroyed)[id] + multiset(Ids(s.children))[id]
  {
  }

  /** Adding then removing an item restores the children and definitions;
      the added child is the one destroyed. */
  lemma AddThenRemove(s: CollectionState)
    requires Synced(s)
    ensures var r1 := OnCollectionChanged(true, true, s, Add);
            && r1.Normal?
            && var r2 := OnCollectionChanged(true, true, r1.state, Remove);
            && r2.Normal?
            && r2.state.children == s.children
            && r2.state.resolver == s.resolver
            && r2.state.destroyed == s.destroyed + [s.nextChildId]
  {
    var r1 := OnCollectionChanged(true, true, s, Add).state;
    IncrementThenDecrement(s.resolver);
    assert r1.children[..|r1.children| - 1] == s.children;
  }
}

=== FILE: collection_structure.dfy ===
/** `CollectionStructureResolverBase`: the structure resolver of a
    collection element keeps one item definition per collection item, item
    `i` named `Array.data[i]`, and resizes that array when items are added,
    removed or cleared. */
module CollectionStructure {
  import opened Wrappers
  import opened Types
  import Decimal

  /** An `ICollectionItemDefinition`: the item index, the item type and the
      name. */
  datatype ItemDefinition = ItemDefinition(itemIndex: nat, valueType: Ty, name: string)

  /** The resolver's state: the item type of the collection and the
      `_definitions` array (`None` before `Initialize` and after `OnRelease`). */
  datatype StructureResolver = StructureResolver(itemType: Ty, definitions: Option<seq<ItemDefinition>>)

  /** The element roles the resolver reads. */
  datatype Role = CollectionRole | ItemRole | MemberRole | MethodRole | GroupRole

  /** `CanResolveElement`: only elements in the collection role. */
  predicate CanResolveElement(roles: set<Role>) {
    CollectionRole in roles
  }

  /** The name given to item `i`. */
  function ItemName(i: nat): (name: string)
    ensures |name| > |"Array.data[]"|
    ensures name[..|"Array.data["|] == "Array.data[" && name[|name| - 1] == ']'
  {
    "Array.data[" + Decimal.NatToString(i) + "]"
  }

  /** Different items get different names. */
  lemma ItemNamesDistinct(i: nat, j: nat)
    requires ItemName(i) == ItemName(j)
    ensures i == j
  {
    var a := ItemName(i);
    var b := ItemName(j);
    assert Decimal.NatToString(i) == a[|"Array.data["|..|a| - 1];
    assert Decimal.NatToString(j) == b[|"Array.data["|..|b| - 1];
    Decimal.NatToStringInjective(i, j);
  }

  /** `CreateItemDefinition`. */
  function CreateItemDefinition(itemType: Ty, i: nat): (d: ItemDefinition)
    ensures d.itemIndex == i && d.valueType == itemType && d.name == ItemName(i)
  {
    ItemDefinition(i, itemType, ItemName(i))
  }

  /** Every definition is the one created for its own position. */
  predicate Canonical(itemType: Ty, defs: seq<ItemDefinition>) {
    forall i | 0 <= i < |defs| :: defs[i] == CreateItemDefinition(itemType, i)
  }

  /** `Initialize`: `count` is `CalculateChildCount()`, the collection's
      current item count. */
  method Initialize(r: StructureResolver, count: nat) returns (r': StructureResolver)
    ensures r'.itemType == r.itemType && r'.definitions.Some?
    ensures |r'.definitions.value| == count
    ensures Canonical(r.itemType, r'.definitions.value)
  {
    var defs: seq<ItemDefinition> := [];
    var i := 0;
    while i < count
      invariant 0 <= i <= count
      invariant |defs| == i
      invariant Canonical(r.itemType, defs)
    {
      defs := defs + [CreateItemDefinition(r.itemType, i)];
      i := i + 1;
    }
    r' := r.(definitions := Some(defs));
  }

  /** The canonical definitions for `count` items. */
  function CanonicalDefinitions(itemType: Ty, count: nat): (defs: seq<ItemDefinition>)
    ensures |defs| == count && Canonical(itemType, defs)
  {
    seq(count, i requires 0 <= i < count => CreateItemDefinition(itemType, i))
  }

  /** Two canonical arrays of the same length are the same array. */
  lemma CanonicalIsUnique(itemType: Ty, a: seq<ItemDefinition>, b: seq<ItemDefinition>)
    requires Canonical(itemType, a) && Canonical(itemType, b) && |a| == |b|
    ensures a == b
  {
  }

  /** `UpdateItemCount`: nothing when the length already matches; otherwise
      resize, keeping the common prefix and creating the definitions of the
      new positions. Reading the length of a null array and resizing to a
      negative length both throw. */
  function UpdateItemCount(r: StructureResolver, count: int): (res: Outcome<StructureResolver>)
    ensures r.definitions.None? ==> res == Throws(NullReferenceException)
    ensures r.definitions.Some? && count == |r.definitions.value| ==> res == Ok(r)
    ensures r.definitions.Some? && count < 0 ==> res == Throws(ArgumentOutOfRangeException)
    ensures res.Ok? ==>
              && res.value.itemType == r.itemType && res.value.definitions.Some?
              && count >= 0 && |res.value.definitions.value| == count
    ensures res.Ok? ==>
              var before := r.definitions.value;
              var after := res.value.definitions.value;
              && (forall i | 0 <= i < |before| && i < count :: after[i] == before[i])
              && (forall i | |before| <= i < count :: after[i] == CreateItemDefinition(r.itemType, i))
  {
    if r.definitions.None? then Throws(NullReferenceException)
    else
      var defs := r.definitions.value;
      if count == |defs| then Ok(r)
      else if count < 0 then Throws(ArgumentOutOfRangeException)
      else if count < |defs| then Ok(r.(definitions := Some(defs[..count])))
      else
        var added := seq(count - |defs|, k requires 0 <= k < count - |defs| => CreateItemDefinition(r.itemType, |defs| + k));
        var grown := defs + added;
        assert forall i | 0 <= i < |defs| :: grown[i] == defs[i];
        assert forall i | |defs| <= i < count :: grown[i] == added[i - |defs|];
        Ok(r.(definitions := Some(grown)))
  }

  /** `IncrementItemCount`. */
  function IncrementItemCount(r: StructureResolver): (res: Outcome<StructureResolver>)
    ensures r.definitions.None? <==> res.Throws?
    ensures res.Ok? ==>
              res.value.definitions == Some(r.definitions.value + [CreateItemDefinition(r.itemType, |r.definitions.value|)])
  {
    if r.definitions.None? then Throws(NullReferenceException)
    else
      var defs := r.definitions.value;
      var res := UpdateItemCount(r, |defs| + 1);
      assert res.value.definitions.value == defs + [CreateItemDefinition(r.itemType, |defs|)];
      res
  }

  /** `DecrementItemCount`: an empty array would be resized to −1, which
      throws. */
  function DecrementItemCount(r: StructureResolver): (res: Outcome<StructureResolver>)
    ensures res.Throws? <==> r.definitions.None? || |r.definitions.value| == 0
    ensures res.Ok? ==> res.value.definitions == Some(r.definitions.value[..|r.definitions.value| - 1])
  {
    if r.definitions.None? then Throws(NullReferenceException)
    else
      var res := UpdateItemCount(r, |r.definitions.value| - 1);
      if res.Ok? then
        assert res.value.definitions.value == r.definitions.value[..|r.definitions.value| - 1];
        res
      else res
  }

  /** `ClearItemCount`. */
  function ClearItemCount(r: StructureResolver): (res: Outcome<StructureResolver>)
    ensures r.definitions.None? <==> res.Throws?
    ensures res.Ok? ==> res.value.definitions == Some([])
  {
    UpdateItemCount(r, 0)
  }

  /** `OnRelease`. */
  function OnRelease(r: StructureResolver): (r': StructureResolver)
    ensures r'.definitions.None? && r'.itemType == r.itemType
  {
    r.(definitions := None)
  }

  /** Resizing keeps the array canonical: after any successful resize it is
      exactly the canonical array of the requested length. */
  lemma UpdateKeepsCanonical(r: StructureResolver, count: int)
    requires r.definitions.Some? && Canonical(r.itemType, r.definitions.value)
    requires UpdateItemCount(r, count).Ok?
    ensures UpdateItemCount(r, count).value.definitions == Some(CanonicalDefinitions(r.itemType, count))
  {
    var resized := UpdateItemCount(r, count).value.definitions.value;
    CanonicalIsUnique(r.itemType, resized, CanonicalDefinitions(r.itemType, count));
  }

  /** Adding then removing an item gives back the same resolver. */
  lemma IncrementThenDecrement(r: StructureResolver)
    requires r.definitions.Some?
    ensures IncrementItemCount(r).Ok?
    ensures DecrementItemCount(IncrementItemCount(r).value) == Ok(r)
  {
    var defs := r.definitions.value;
    var grown := defs + [CreateItemDefinition(r.itemType, |defs|)];
    assert grown[..|grown| - 1] == defs;
  }

  /** Resizing to the current length twice is the same as once. */
  lemma UpdateIdempotent(r: StructureResolver, count: int)
    requires UpdateItemCount(r, count).Ok?
    ensures UpdateItemCount(UpdateItemCount(r, count).value, count) == UpdateItemCount(r, count)
  {
  }

  /** A released resolver carries no item state: whatever it held, the next
      rental must initialise before any resize succeeds. */
  lemma ReleasedHoldsNoItems(r: StructureResolver, count: int)
    ensures UpdateItemCount(OnRelease(r), count) == Throws(NullReferenceException)
    ensures OnRelease(r) == OnRelease(r.(definitions := None))
  {
  }
}

=== FILE: decimal.dfy ===
/** Decimal rendering of a count or index, as C# string interpolation prints
    an `int`: used by item definition names (`Array.data[3]`) and the list
    count label. */
module Decimal {

  function DigitChar(d: nat): (c: char)
    requires d < 10
    ensures '0' <= c <= '9'
  {
    ['0', '1', '2', '3', '4', '5', '6', '7', '8', '9'][d]
  }

  function DigitValue(c: char): nat
    requires '0' <= c <= '9'
  {
    (c as int - '0' as int) as nat
  }

  lemma DigitRoundTrip(d: nat)
    requires d < 10
    ensures DigitValue(DigitChar(d)) == d
  {
  }

  /** The decimal digits of `n`, most significant first, no leading zeros. */
  function NatToString(n: nat): (s: string)
    ensures |s| >= 1
    ensures forall i | 0 <= i < |s| :: '0' <= s[i] <= '9'
    decreases n
  {
    if n < 10 then [DigitChar(n)] else NatToString(n / 10) + [DigitChar(n % 10)]
  }

  /** Reads a string of decimal digits back as a number. */
  function ParseDecimal(s: string): nat
    requires forall i | 0 <= i < |s| :: '0' <= s[i] <= '9'
    decreases |s|
  {
    if |s| == 0 then 0 else ParseDecimal(s[..|s| - 1]) * 10 + DigitValue(s[|s| - 1])
  }

  /** Parsing inverts rendering. */
  lemma {:induction false} ParseNatToString(n: nat)
    ensures ParseDecimal(NatToString(n)) == n
    decreases n
  {
    var s := NatToString(n);
    if n < 10 {
      DigitRoundTrip(n);
      assert s[..0] == [];
    } else {
      ParseNatToString(n / 10);
      DigitRoundTrip(n % 10);
      assert s[..|s| - 1] == NatToString(n / 10);
    }
  }

  /** Distinct numbers render as distinct strings. */
  lemma NatToStringInjective(m: nat, n: nat)
    requires NatToString(m) == NatToString(n)
    ensures m == n
  {
    ParseNatToString(m);
    ParseNatToString(n);
  }
}

=== FILE: draggable_list.dfy ===
/** `DraggableListView`: the item list behind the UIToolkit collection
    view, its selection, its count label and the rule for a dropped item.
    Widget wiring, styling and the list view's own rendering are not
    modelled; `_items` is a `seq` and `_listView.selectedIndex` an `int`. */
module DraggableList {
  import opened Wrappers
  import Decimal

  /** The list's state: the items, the list view's selected index (−1 for
      none) and the text of the count label. */
  datatype ListState<T> = ListState(items: seq<T>, selectedIndex: int, countLabel: string)

  /** The count label's suffix, the CJK character for "items". */
  const ItemsSuffix: string := " \U{9879}"

  /** The count label for `n` items. */
  function CountLabel(n: nat): (text: string)
    ensures |text| > |ItemsSuffix| && text[|text| - |ItemsSuffix|..] == ItemsSuffix
  {
    Decimal.NatToString(n) + ItemsSuffix
  }

  /** The label gives the count back. */
  lemma CountLabelRoundTrip(n: nat)
    ensures var text := CountLabel(n);
            var digits := text[..|text| - |ItemsSuffix|];
            && (forall i | 0 <= i < |digits| :: '0' <= digits[i] <= '9')
            && Decimal.ParseDecimal(digits) == n
  {
    var text := CountLabel(n);
    assert text[..|text| - |ItemsSuffix|] == Decimal.NatToString(n);
    Decimal.ParseNatToString(n);
  }

  /** The constructor: the list over `items`, nothing selected, the label
      counting the items. */
  function NewListView<T>(items: seq<T>): (v: ListState<T>)
    ensures v.items == items && v.selectedIndex == -1 && v.countLabel == CountLabel(|items|)
  {
    ListState(items, -1, CountLabel(|items|))
  }

  /** `Refresh`: redraw the items and relabel. */
  function Refresh<T>(v: ListState<T>): (r: ListState<T>)
    ensures r.items == v.items && r.selectedIndex == v.selectedIndex
    ensures r.countLabel == CountLabel(|v.items|)
  {
    v.(countLabel := CountLabel(|v.items|))
  }

  /** `AddItem`. */
  function AddItem<T>(v: ListState<T>, x: T): (r: ListState<T>)
    ensures r.items == v.items + [x] && r.countLabel == CountLabel(|v.items| + 1)
  {
    Refresh(v.(items := v.items + [x]))
  }

  /** `IList.Insert` on the items: a position outside `0..Count` throws. */
  function InsertAt<T>(items: seq<T>, i: int, x: T): (r: Outcome<seq<T>>)
    ensures r.Ok? <==> 0 <= i <= |items|
    ensures r.Throws? ==> r.error == ArgumentOutOfRangeException
    ensures r.Ok? ==> |r.value| == |items| + 1 && r.value[i] == x
                      && r.value[..i] == items[..i] && r.value[i + 1..] == items[i..]
  {
    if 0 <= i <= |items| then Ok(items[..i] + [x] + items[i..]) else Throws(ArgumentOutOfRangeException)
  }

  /** `InsertItem`. */
  function InsertItem<T>(v: ListState<T>, i: int, x: T): (r: Outcome<ListState<T>>)
    ensures r.Ok? <==> 0 <= i <= |v.items|
    ensures r.Ok? ==> Ok(r.value.items) == InsertAt(v.items, i, x) && r.value.countLabel == CountLabel(|v.items| + 1)
  {
    match InsertAt(v.items, i, x)
    case Throws(err) => Throws(err)
    case Ok(items) => Ok(Refresh(v.(items := items)))
  }

  /** `RemoveItemAt`: only an index in range removes (and relabels). */
  function RemoveItemAt<T>(v: ListState<T>, i: int): (r: (bool, ListState<T>))
    ensures r.0 <==> 0 <= i < |v.items|
    ensures !r.0 ==> r.1 == v
    ensures r.0 ==> r.1.items == v.items[..i] + v.items[i + 1..] && r.1.countLabel == CountLabel(|v.items| - 1)
  {
    if 0 <= i < |v.items| then (true, Refresh(v.(items := v.items[..i] + v.items[i + 1..])))
    else (false, v)
  }

  /** `IList.IndexOf`: the first position holding `x`, or −1. */
  function IndexOf<T(==)>(items: seq<T>, x: T): (i: int)
    ensures -1 <= i < |items|
    ensures i >= 0 ==> items[i] == x && forall j | 0 <= j < i :: items[j] != x
    ensures i == -1 <==> x !in items
    decreases |items|
  {
    if |items| == 0 then -1
    else if items[0] == x then 0
    else
      var k := IndexOf(items[1..], x);
      if k == -1 then -1 else k + 1
  }

  /** `RemoveItem`: remove the first occurrence; an absent item changes
      nothing. */
  function RemoveItem<T(==)>(v: ListState<T>, x: T): (r: (bool, ListState<T>))
    ensures r.0 <==> x in v.items
    ensures !r.0 ==> r.1 == v
  {
    RemoveItemAt(v, IndexOf(v.items, x))
  }

  /** Removing an item takes out exactly one copy, the first. */
  lemma RemoveItemTakesFirst<T>(v: ListState<T>, x: T)
    requires x in v.items
    ensures var i := IndexOf(v.items, x);
            && RemoveItem(v, x).1.items == v.items[..i] + v.items[i + 1..]
            && x !in v.items[..i]
            && multiset(RemoveItem(v, x).1.items) == multiset(v.items) - multiset{x}
  {
    var i := IndexOf(v.items, x);
    assert v.items == v.items[..i] + [x] + v.items[i + 1..];
  }

  /** `ClearItems`. */
  function ClearItems<T>(v: ListState<T>): (r: ListState<T>)
    ensures r.items == [] && r.countLabel == CountLabel(0) && r.selectedIndex == v.selectedIndex
  {
    Refresh(v.(items := []))
  }

  /** `TryGetSelectedItem`. */
  function TryGetSelectedItem<T>(v: ListState<T>): (r: Option<T>)
    ensures r.Some? <==> 0 <= v.selectedIndex < |v.items|
    ensures r.Some? ==> r.value == v.items[v.selectedIndex]
  {
    if 0 <= v.selectedIndex < |v.items| then Some(v.items[v.selectedIndex]) else None
  }

  /** `SetSelectedIndex`: indices out of range are ignored. */
  function SetSelectedIndex<T>(v: ListState<T>, i: int): (r: ListState<T>)
    ensures 0 <= i < |v.items| ==> r == v.(selectedIndex := i)
    ensures !(0 <= i < |v.items|) ==> r == v
  {
    if 0 <= i < |v.items| then v.(selectedIndex := i) else v
  }

  /** A selection made through `SetSelectedIndex` is what
      `TryGetSelectedItem` reads. */
  lemma SelectThenRead<T>(v: ListState<T>, i: int)
    requires 0 <= i < |v.items|
    ensures TryGetSelectedItem(SetSelectedIndex(v, i)) == Some(v.items[i])
  {
  }

  /** `OnSelectionChanged`: the item at the first reported index that is in
      range, if any. */
  function SelectionChanged<T>(v: ListState<T>, indices: seq<int>): (r: Option<T>)
    ensures r.None? <==> forall k | 0 <= k < |indices| :: !(0 <= indices[k] < |v.items|)
    ensures r.Some? ==> exists k | 0 <= k < |indices| ::
                          && 0 <= indices[k] < |v.items| && r.value == v.items[indices[k]]
                          && forall m | 0 <= m < k :: !(0 <= indices[m] < |v.items|)
    decreases |indices|
  {
    if |indices| == 0 then None
    else if 0 <= indices[0] < |v.items| then Some(v.items[indices[0]])
    else
      SelectionChanged(v, indices[1..])
  }

  /** `OnRemoveClicked`: the removal request names the selected index, and
      only when it is in range. */
  function RemoveClicked<T>(v: ListState<T>): (request: Option<int>)
    ensures request.Some? <==> TryGetSelectedItem(v).Some?
    ensures request.Some? ==> request.value == v.selectedIndex
  {
    if 0 <= v.selectedIndex < |v.items| then Some(v.selectedIndex) else None
  }

  /** Inserting at a position and removing that position again restores the
      items. */
  lemma InsertThenRemoveAt<T>(v: ListState<T>, i: int, x: T)
    requires 0 <= i <= |v.items|
    ensures InsertItem(v, i, x).Ok?
    ensures var w := InsertItem(v, i, x).value;
            RemoveItemAt(w, i).0 && RemoveItemAt(w, i).1.items == v.items
  {
    var w := InsertItem(v, i, x).value;
    assert w.items[..i] + w.items[i + 1..] == v.items[..i] + v.items[i..];
    assert v.items[..i] + v.items[i..] == v.items;
  }

  /** `CanAcceptDrag`: the runtime type check on the "DraggableListItem"
      drag data. A drag that carries no such data (an asset dragged in from
      elsewhere) gives null, and `GetType()` on it throws; `OnDragUpdated`
      and `OnDragPerform` both call this first. */
  function CanAcceptDrag<T>(dragged: Option<T>, derivesFromItemType: bool): (r: Outcome<bool>)
    ensures r.Throws? <==> dragged.None?
    ensures r.Throws? ==> r.error == NullReferenceException
    ensures r.Ok? ==> (r.value <==> derivesFromItemType)
  {
    if dragged.None? then Throws(NullReferenceException) else Ok(derivesFromItemType)
  }

  /** `OnDragPerform`: a dragged object whose type derives from the item
      type and that is not already listed is inserted at the selection, or at
      the end without one; the inserted index is reported. `dragged` is the
      drag data (absent: null) and `derivesFromItemType` the runtime type
      check on it. */
  function DropItem<T(==)>(v: ListState<T>, dragged: Option<T>, derivesFromItemType: bool)
    : (r: Outcome<(Option<int>, ListState<T>)>)
    ensures dragged.None? ==> r == Throws(NullReferenceException)
    ensures dragged.Some? && (!derivesFromItemType || dragged.value in v.items) ==> r == Ok((None, v))
    ensures r.Ok? && r.value.0.Some? ==>
              && dragged.Some? && derivesFromItemType && dragged.value !in v.items
              && r.value.0.value == (if v.selectedIndex >= 0 then v.selectedIndex else |v.items|)
              && Ok(r.value.1.items) == InsertAt(v.items, r.value.0.value, dragged.value)
    ensures dragged.Some? && derivesFromItemType && dragged.value !in v.items ==>
              && (r.Throws? <==> v.selectedIndex > |v.items|)
              && (r.Throws? ==> r.error == ArgumentOutOfRangeException)
              && (r.Ok? ==> r.value.0.Some? && dragged.value in r.value.1.items
                            && |r.value.1.items| == |v.items| + 1)
  {
    match CanAcceptDrag(dragged, derivesFromItemType)
    case Throws(err) => Throws(err)
    case Ok(accepted) =>
      if !accepted || dragged.value in v.items then Ok((None, v))
      else
        var at := if v.selectedIndex >= 0 then v.selectedIndex else |v.items|;
        match InsertItem(v, at, dragged.value)
        case Throws(err) => Throws(err)
        case Ok(w) => Ok((Some(at), w))
  }

  /** A drop never lists the same object twice: a list without duplicates
      keeps none. */
  lemma DropKeepsDistinct<T>(v: ListState<T>, dragged: Option<T>, derivesFromItemType: bool)
    requires forall i, j | 0 <= i < j < |v.items| :: v.items[i] != v.items[j]
    requires DropItem(v, dragged, derivesFromItemType).Ok?
    ensures var w := DropItem(v, dragged, derivesFromItemType).value.1;
            forall i, j | 0 <= i < j < |w.items| :: w.items[i] != w.items[j]
  {
    var r := DropItem(v, dragged, derivesFromItemType).value;
    if r.0.Some? {
      var at := r.0.value;
      var w := r.1.items;
      assert w == v.items[..at] + [dragged.value] + v.items[at..];
      forall i, j | 0 <= i < j < |w|
        ensures w[i] != w[j]
      {
        if i == at {
          assert w[j] == v.items[j - 1];
        } else if j == at {
          assert w[i] == v.items[i];
        } else {
          var i' := if i < at then i else i - 1;
          var j' := if j < at then j else j - 1;
          assert w[i] == v.items[i'] && w[j] == v.items[j'];
        }
      }
    }
  }
}

=== FILE: drawer_lookup.dfy ===
/** `InspectorDrawerUtility`: the table of Unity property drawers by the type
    they draw, and the question whether a type has one. The assembly scan
    is replaced by the list of scanned types; `drawnTypesOf` gives, for a
    type, the `m_Type` of each of its `CustomPropertyDrawer` attributes in
    declaration order (`None` for null). */
module DrawerLookup {
  import opened Wrappers
  import opened Types

  const PropertyDrawerType: Ty := NamedClass("UnityEditor.PropertyDrawer")

  /** The scan's filter: concrete classes derived from `PropertyDrawer`. */
  predicate IsPropertyDrawerClass(t: Ty) {
    t.kind == ClassKind && !t.isAbstract && DerivesFrom(t, PropertyDrawerType)
  }

  /** One registration: a drawn type and the drawer class for it. */
  datatype Registration = Registration(drawn: Ty, drawer: Ty)

  /** The non-null drawn types of one drawer class, in order. */
  function RegistrationsOf(drawer: Ty, drawn: seq<Option<Ty>>): (regs: seq<Registration>)
    ensures forall r | r in regs :: r.drawer == drawer && Some(r.drawn) in drawn
    ensures forall t | Some(t) in drawn :: Registration(t, drawer) in regs
    decreases |drawn|
  {
    if |drawn| == 0 then []
    else (if drawn[0].Some? then [Registration(drawn[0].value, drawer)] else []) + RegistrationsOf(drawer, drawn[1..])
  }

  /** Every registration of the scan, in scan order. */
  function Registrations(scanned: seq<Ty>, drawnTypesOf: Ty -> seq<Option<Ty>>): (regs: seq<Registration>)
    ensures forall r | r in regs :: IsPropertyDrawerClass(r.drawer) && r.drawer in scanned
                                    && Some(r.drawn) in drawnTypesOf(r.drawer)
    ensures forall t, d | t in scanned && IsPropertyDrawerClass(t) && Some(d) in drawnTypesOf(t) ::
              Registration(d, t) in regs
    decreases |scanned|
  {
    if |scanned| == 0 then []
    else
      var last := scanned[|scanned| - 1];
      var rest := scanned[..|scanned| - 1];
      assert scanned == rest + [last];
      var earlier := Registrations(rest, drawnTypesOf);
      earlier + (if IsPropertyDrawerClass(last) then RegistrationsOf(last, drawnTypesOf(last)) else [])
  }

  /** The static constructor's table: registrations applied in order, a
      later one for the same drawn type overwriting an earlier one. */
  function BuildDrawnTypeMap(regs: seq<Registration>): (m: map<Ty, Ty>)
    decreases |regs|
  {
    if |regs| == 0 then map[]
    else BuildDrawnTypeMap(regs[..|regs| - 1])[regs[|regs| - 1].drawn := regs[|regs| - 1].drawer]
  }

  /** A drawn type is in the table exactly when some registration names it. */
  lemma {:induction false} DrawnTypeMapKeys(regs: seq<Registration>, t: Ty)
    ensures t in BuildDrawnTypeMap(regs) <==> exists i | 0 <= i < |regs| :: regs[i].drawn == t
    decreases |regs|
  {
    if |regs| > 0 {
      var prefix := regs[..|regs| - 1];
      var last := regs[|regs| - 1];
      DrawnTypeMapKeys(prefix, t);
      assert BuildDrawnTypeMap(regs) == BuildDrawnTypeMap(prefix)[last.drawn := last.drawer];
      assert forall i | 0 <= i < |prefix| :: regs[i] == prefix[i];
      if last.drawn != t {
        forall i | 0 <= i < |regs| && regs[i].drawn == t
          ensures i < |prefix| && prefix[i].drawn == t
        {
        }
      }
    }
  }

  /** A drawn type in the table maps to the drawer of the last registration
      that names it. */
  lemma {:induction false} DrawnTypeMapIsLastWins(regs: seq<Registration>, t: Ty)
    requires t in BuildDrawnTypeMap(regs)
    ensures exists i | 0 <= i < |regs| ::
              && regs[i].drawn == t && BuildDrawnTypeMap(regs)[t] == regs[i].drawer
              && forall j | i < j < |regs| :: regs[j].drawn != t
    decreases |regs|
  {
    var prefix := regs[..|regs| - 1];
    var last := regs[|regs| - 1];
    assert BuildDrawnTypeMap(regs) == BuildDrawnTypeMap(prefix)[last.drawn := last.drawer];
    if last.drawn == t {
      assert regs[|regs| - 1].drawn == t && BuildDrawnTypeMap(regs)[t] == regs[|regs| - 1].drawer;
    } else {
      DrawnTypeMapIsLastWins(prefix, t);
      var i :| 0 <= i < |prefix| && prefix[i].drawn == t && BuildDrawnTypeMap(prefix)[t] == prefix[i].drawer
               && forall j | i < j < |prefix| :: prefix[j].drawn != t;
      assert regs[i] == prefix[i];
      assert forall j | i < j < |prefix| :: regs[j] == prefix[j];
      assert BuildDrawnTypeMap(regs)[t] == regs[i].drawer;
    }
  }

  /** `IsDefinedUnityPropertyDrawer`: the target is a key, or some key is
      assignable from it. */
  method IsDefinedUnityPropertyDrawer(table: map<Ty, Ty>, keys: seq<Ty>, target: Ty) returns (defined: bool)
    requires forall t :: t in table <==> t in keys
    ensures defined <==> exists k | k in table :: DerivesFrom(target, k)
  {
    if target in table {
      assert DerivesFrom(target, target);
      return true;
    }
    var i := 0;
    while i < |keys|
      invariant 0 <= i <= |keys|
      invariant forall j | 0 <= j < i :: !DerivesFrom(target, keys[j])
    {
      if DerivesFrom(target, keys[i]) {
        assert keys[i] in keys;
        return true;
      }
      i := i + 1;
    }
    forall k | k in table ensures !DerivesFrom(target, k) {
      var j :| 0 <= j < |keys| && keys[j] == k;
    }
    return false;
  }

  /** The exact-key test is only a shortcut: a registered key is always
      assignable from itself, and a key that is assignable from a subtype's
      supertype is assignable from the subtype too. */
  lemma DefinedIsInheritedBySubtypes(table: map<Ty, Ty>, sub: Ty, sup: Ty)
    requires DerivesFrom(sub, sup)
    requires exists k | k in table :: DerivesFrom(sup, k)
    ensures exists k | k in table :: DerivesFrom(sub, k)
  {
    var k :| k in table && DerivesFrom(sup, k);
    DerivesFromTransitive(sub, sup, k);
  }
}

=== FILE: element_extensions.dfy ===
/** `ElementExtensions`: the helpers every element offers on top of its
    interface — the cast to a value element, attribute lookups over the
    element's attribute infos, the key of its persistent context, and the
    visual element that owns it in UIToolkit. */
module ElementExtensions {
  import opened Wrappers
  import opened Types
  import ElementLifecycle

  // ---------------------------------------------------------------------------
  // Cast
  // ---------------------------------------------------------------------------

  /** An element as far as the cast reads it. */
  datatype ElementRef = ElementRef(id: nat, isValueElement: bool)

  /** `CastValue`: the element itself when it is a value element. */
  function CastValue(element: ElementRef): (r: Outcome<ElementRef>)
    ensures r.Ok? <==> element.isValueElement
    ensures r.Ok? ==> r.value == element
    ensures r.Throws? ==> r.error == InvalidCastException
  {
    if element.isValueElement then Ok(element) else Throws(InvalidCastException)
  }

  // ---------------------------------------------------------------------------
  // Attribute lookups
  // ---------------------------------------------------------------------------

  /** An attribute instance: its identity and runtime type. */
  datatype Attr = Attr(id: nat, runtimeType: Ty)

  /** An `ElementAttributeInfo`; only its attribute is read here. */
  datatype AttributeInfo = AttributeInfo(attribute: Attr)

  /** `GetAttributeInfo`: the first info whose attribute has exactly the
      given type. */
  function GetAttributeInfo(infos: seq<AttributeInfo>, attributeType: Ty): (r: Option<AttributeInfo>)
    ensures r.None? <==> forall i | 0 <= i < |infos| :: infos[i].attribute.runtimeType != attributeType
    ensures r.Some? ==> exists k | 0 <= k < |infos| ::
                          && r.value == infos[k] && infos[k].attribute.runtimeType == attributeType
                          && forall j | 0 <= j < k :: infos[j].attribute.runtimeType != attributeType
    decreases |infos|
  {
    if |infos| == 0 then None
    else if infos[0].attribute.runtimeType == attributeType then Some(infos[0])
    else GetAttributeInfo(infos[1..], attributeType)
  }

  /** Whether `GetAttribute(Type, includeDerived)` takes an attribute. */
  predicate MatchesType(a: Attr, attributeType: Ty, includeDerived: bool) {
    if includeDerived then DerivesFrom(a.runtimeType, attributeType) else a.runtimeType == attributeType
  }

  /** `GetAttribute(Type, includeDerived)`: the first attribute of exactly
      that type, or of a type derived from it. */
  function GetAttribute(infos: seq<AttributeInfo>, attributeType: Ty, includeDerived: bool): (r: Option<Attr>)
    ensures r.None? <==> forall i | 0 <= i < |infos| :: !MatchesType(infos[i].attribute, attributeType, includeDerived)
    ensures r.Some? ==> MatchesType(r.value, attributeType, includeDerived) && r.value in EnumerateAttributes(infos)
    decreases |infos|
  {
    if |infos| == 0 then None
    else if MatchesType(infos[0].attribute, attributeType, includeDerived) then Some(infos[0].attribute)
    else GetAttribute(infos[1..], attributeType, includeDerived)
  }

  /** `GetAttribute<TAttribute>(includeDerived)`: the first attribute that
      is a `TAttribute`, skipping those of a strictly derived type unless
      derived types are included. */
  function GetAttributeOf(infos: seq<AttributeInfo>, attributeType: Ty, includeDerived: bool): (r: Option<Attr>)
    ensures r.Some? ==> && DerivesFrom(r.value.runtimeType, attributeType)
                        && (includeDerived || r.value.runtimeType == attributeType)
                        && exists i | 0 <= i < |infos| :: infos[i].attribute == r.value
    ensures r.None? ==> forall i | 0 <= i < |infos| ::
                          !DerivesFrom(infos[i].attribute.runtimeType, attributeType)
                          || (!includeDerived && infos[i].attribute.runtimeType != attributeType)
    decreases |infos|
  {
    if |infos| == 0 then None
    else
      var a := infos[0].attribute;
      if DerivesFrom(a.runtimeType, attributeType) && (includeDerived || a.runtimeType == attributeType) then Some(a)
      else GetAttributeOf(infos[1..], attributeType, includeDerived)
  }

  /** The generic lookup and the one taking a type agree for every flag:
      an attribute of exactly the type always is one. */
  lemma {:induction false} GenericLookupAgrees(infos: seq<AttributeInfo>, attributeType: Ty, includeDerived: bool)
    ensures GetAttributeOf(infos, attributeType, includeDerived) == GetAttribute(infos, attributeType, includeDerived)
    decreases |infos|
  {
    if |infos| > 0 {
      var a := infos[0].attribute;
      if a.runtimeType == attributeType {
        assert DerivesFrom(a.runtimeType, attributeType);
      }
      GenericLookupAgrees(infos[1..], attributeType, includeDerived);
    }
  }

  /** The exact lookups agree: `GetAttribute` without derived types is the
      attribute of the info `GetAttributeInfo` finds. */
  lemma {:induction false} InfoLookupAgrees(infos: seq<AttributeInfo>, attributeType: Ty)
    ensures GetAttribute(infos, attributeType, false) ==
              (match GetAttributeInfo(infos, attributeType) case None => None case Some(info) => Some(info.attribute))
    decreases |infos|
  {
    if |infos| > 0 && infos[0].attribute.runtimeType != attributeType {
      InfoLookupAgrees(infos[1..], attributeType);
    }
  }

  /** Including derived types can only find more, and finds an earlier or
      the same attribute. */
  lemma IncludeDerivedFindsMore(infos: seq<AttributeInfo>, attributeType: Ty)
    ensures GetAttribute(infos, attributeType, false).Some? ==> GetAttribute(infos, attributeType, true).Some?
  {
    if GetAttribute(infos, attributeType, false).Some? {
      var i :| 0 <= i < |infos| && MatchesType(infos[i].attribute, attributeType, false);
      assert MatchesType(infos[i].attribute, attributeType, true);
    }
  }

  /** `EnumerateAttributes`: the attributes, in info order. */
  function EnumerateAttributes(infos: seq<AttributeInfo>): (attrs: seq<Attr>)
    ensures |attrs| == |infos|
    ensures forall i | 0 <= i < |infos| :: attrs[i] == infos[i].attribute
  {
    seq(|infos|, i requires 0 <= i < |infos| => infos[i].attribute)
  }

  // ---------------------------------------------------------------------------
  // Persistent context key
  // ---------------------------------------------------------------------------

  /** `GetPersistentContext` stores a value under the element's key and the
      caller's key, joined. Within one element, different keys give different
      contexts. */
  lemma ContextKeyInjective(elementKey: string, key1: string, key2: string)
    requires JoinedKey(elementKey, key1) == JoinedKey(elementKey, key2)
    ensures key1 == key2
  {
    var k := JoinedKey(elementKey, key1);
    assert key1 == k[|elementKey| + 1..];
  }

  /** Across elements the join is ambiguous: an element key containing `+`
      can meet another element's context. */
  lemma ContextKeysCanCollideAcrossElements()
    ensures JoinedKey("a+b", "c") == JoinedKey("a", "b+c")
  {
  }

  // ---------------------------------------------------------------------------
  // Owning visual element
  // ---------------------------------------------------------------------------

  /** An element on the parent chain: its visual element (`None` for null)
      and whether it is the root element. */
  datatype ChainNode = ChainNode(visual: Option<nat>, isRoot: bool)

  /** `GetOwningVisualElement` as written: the loop body runs once, so only
      the direct parent is looked at. `parents` is the parent chain, nearest
      first. */
  function OwningVisualElementAsWritten(backend: ElementLifecycle.Backend, rootVisual: Option<nat>,
                                        element: ChainNode, parents: seq<ChainNode>): (r: Option<nat>)
    ensures backend != ElementLifecycle.UIToolkit ==> r.None?
    ensures backend == ElementLifecycle.UIToolkit && element.isRoot ==> r == rootVisual
    ensures r.Some? && !element.isRoot ==> |parents| > 0 && (r == parents[0].visual || (parents[0].isRoot && r == rootVisual))
  {
    if backend != ElementLifecycle.UIToolkit then None
    else if element.isRoot then rootVisual
    else if |parents| == 0 then None
    else if parents[0].visual.Some? then parents[0].visual
    else if parents[0].isRoot then rootVisual
    else None
  }

  /** The walk up the chain: the first ancestor's visual element, or the
      tree's root visual element on reaching the root. */
  function WalkUp(rootVisual: Option<nat>, parents: seq<ChainNode>): (r: Option<nat>)
    decreases |parents|
  {
    if |parents| == 0 then None
    else if parents[0].visual.Some? then parents[0].visual
    else if parents[0].isRoot then rootVisual
    else WalkUp(rootVisual, parents[1..])
  }

  /** An ancestor at `k` ends the walk when it has a visual element or is
      the root, and none before it does. */
  predicate StopsAt(parents: seq<ChainNode>, k: nat)
    requires k < |parents|
  {
    && (parents[k].visual.Some? || parents[k].isRoot)
    && forall j | 0 <= j < k :: parents[j].visual.None? && !parents[j].isRoot
  }

  /** `GetOwningVisualElement` as its documentation describes it: the walk
      goes up the whole chain. */
  function OwningVisualElement(backend: ElementLifecycle.Backend, rootVisual: Option<nat>,
                               element: ChainNode, parents: seq<ChainNode>): (r: Option<nat>)
    ensures backend != ElementLifecycle.UIToolkit ==> r.None?
    ensures backend == ElementLifecycle.UIToolkit && element.isRoot ==> r == rootVisual
  {
    if backend != ElementLifecycle.UIToolkit then None
    else if element.isRoot then rootVisual
    else WalkUp(rootVisual, parents)
  }

  /** The walk finds the nearest ancestor with a visual element, stopping
      at the root; it finds nothing only when no ancestor has one and the
      root is never reached. */
  lemma {:induction false} WalkUpFindsNearest(rootVisual: Option<nat>, parents: seq<ChainNode>)
    ensures (forall j | 0 <= j < |parents| :: parents[j].visual.None? && !parents[j].isRoot)
            ==> WalkUp(rootVisual, parents).None?
    ensures forall k | 0 <= k < |parents| && StopsAt(parents, k) ::
              WalkUp(rootVisual, parents) == (if parents[k].visual.Some? then parents[k].visual else rootVisual)
    decreases |parents|
  {
    if |parents| > 0 {
      WalkUpFindsNearest(rootVisual, parents[1..]);
      forall k | 0 < k < |parents| && StopsAt(parents, k) ensures StopsAt(parents[1..], k - 1) {
        assert parents[1..][k - 1] == parents[k];
        forall j | 0 <= j < k - 1 ensures parents[1..][j].visual.None? && !parents[1..][j].isRoot {
          assert parents[1..][j] == parents[j + 1];
        }
      }
    }
  }

  /** Where the chain ends at the direct parent — it has a visual element,
      is the root, or is missing — the written code and the walk agree. */
  lemma AsWrittenAgreesOnShortChains(backend: ElementLifecycle.Backend, rootVisual: Option<nat>,
                                     element: ChainNode, parents: seq<ChainNode>)
    requires |parents| == 0 || parents[0].visual.Some? || parents[0].isRoot
    ensures OwningVisualElementAsWritten(backend, rootVisual, element, parents)
            == OwningVisualElement(backend, rootVisual, element, parents)
  {
  }

  /** The written code misses a grandparent's visual element: with a parent
      that has none and is not the root, it answers null. */
  lemma AsWrittenMissesGrandparent()
    ensures var element := ChainNode(None, false);
            var parents := [ChainNode(None, false), ChainNode(Some(7), false)];
            && OwningVisualElementAsWritten(ElementLifecycle.UIToolkit, Some(1), element, parents) == None
            && OwningVisualElement(ElementLifecycle.UIToolkit, Some(1), element, parents) == Some(7)
  {
  }
}

=== FILE: element_lifecycle.dfy ===
/** `ElementBase`: the per-element lifecycle. An element carries a set of
    phases, a first-refresh flag, the id of the last update it saw, its
    children list and five resolver slots; the tree it lives in carries the
    shared update id, the callback queue, the resolver pool and a log of the
    side effects the element causes in code outside this model (drawers,
    post-processors, list disposal, the parent's children). */
module ElementLifecycle {
  import opened Wrappers
  import opened Types
  import opened ResolverPool

  /** The `ElementPhases` flags. */
  datatype Phase =
    | PendingRefresh
    | Refreshing
    | JustRefreshed
    | PendingPostProcess
    | PostProcessing
    | PendingDraw
    | Drawing
    | PendingDestroy
    | Destroying
    | Destroyed

  datatype Backend = IMGUI | UIToolkit

  /** What the element's virtual hooks and its shared context answer:
      the backend of the tree, `CanHaveChildren()`,
      `IsNecessaryToRefreshMultiple()`, and for each capability the resolver
      type `ResolverUtility` would pick (absent: none). */
  datatype Config = Config(
    backend: Backend,
    canHaveChildren: bool,
    refreshMultiple: bool,
    resolverTypes: map<Capability, Ty>)

  /** An action handed to `Request`: a refresh, the parent assignment
      `OnElementMoved` requests, or any other callback (identified by a tag). */
  datatype Action = RefreshAction | SetParentAction(newParent: nat) | External(tag: nat)

  /** Side effects on code outside this model, in the order they happen. */
  datatype Effect =
    | ChildrenListDisposed(list: nat)
    | DetachedFrom(parent: nat)
    | PostProcessed(index: nat)
    | HeadDrawerDrawn
    | VisualRebuilt(created: bool)
    | HeadVisualProcessorRan
    | ActionRan(tag: nat)
    | ChildTryRemoved(list: nat, element: nat)

  /** The element's fields. `children` is the identity of the current children
      list; `slots` maps each bound resolver capability to the pool identity of
      the resolver in that field; `hasVisual` is `_visualElement != null`. */
  datatype Element = Element(
    id: nat,
    parent: Option<nat>,
    phases: set<Phase>,
    isFirstRefreshed: bool,
    lastUpdateId: Option<int>,
    children: Option<nat>,
    slots: map<Capability, nat>,
    hasVisual: bool)

  /** What the element sees of its tree: `SharedContext.UpdateId`, the
      callback queue, the resolver pool, the next identity for a children
      list, the elements passed to `ElementFactory.DestroyElement`, and the
      effect log. */
  datatype Tree = Tree(
    updateId: int,
    queue: seq<Action>,
    pool: Pool,
    nextListId: nat,
    destroyRequests: seq<nat>,
    effects: seq<Effect>)

  datatype State = State(e: Element, t: Tree)

  /** A constructed element: no phase, no children, no resolver. */
  function NewElement(id: nat, parent: Option<nat>): (e: Element)
    ensures e.phases == {} && !e.isFirstRefreshed && e.lastUpdateId.None?
    ensures e.children.None? && e.slots == map[] && !e.hasVisual && e.id == id
  {
    Element(id, parent, {}, false, None, None, map[], false)
  }

  /** The five resolver fields of `ElementBase`. */
  predicate IsElementSlot(c: Capability) {
    c.AttributeResolver? || c.DrawerChainResolver? || c.PostProcessorChainResolver?
    || c.VisualBuilderResolver? || c.VisualProcessorChainResolver?
  }

  /** The order in which `Dispose` releases the resolver fields. */
  const DisposeOrder: seq<Capability> :=
    [AttributeResolver, DrawerChainResolver, PostProcessorChainResolver,
     VisualBuilderResolver, VisualProcessorChainResolver]

  /** The resolver bookkeeping is sound: the pool is sound, every bound
      resolver is outstanding in it, no two fields share a resolver, and
      only the five element fields are bound. */
  ghost predicate SlotsSound(s: State) {
    && WellFormed(s.t.pool)
    && (forall c | c in s.e.slots :: IsElementSlot(c) && Outstanding(s.t.pool, s.e.slots[c]))
    && (forall c1, c2 | c1 in s.e.slots && c2 in s.e.slots && c1 != c2 :: s.e.slots[c1] != s.e.slots[c2])
  }

  lemma NewElementSound(id: nat, parent: Option<nat>, t: Tree)
    requires WellFormed(t.pool)
    ensures SlotsSound(State(NewElement(id, parent), t))
  {
  }

  /** `ValidateDisposed`. */
  function ValidateDisposed(e: Element): (r: Option<Exception>)
    ensures r.Some? <==> Destroyed in e.phases
    ensures r.Some? ==> r.value == ObjectDisposedException
  {
    if Destroyed in e.phases then Some(ObjectDisposedException) else None
  }

  /** The `Children` getter. */
  function Children(s: State): (r: Outcome<Option<nat>>)
    ensures Destroyed in s.e.phases <==> r.Throws?
    ensures r.Ok? ==> r.value == s.e.children
  {
    if Destroyed in s.e.phases then Throws(ObjectDisposedException) else Ok(s.e.children)
  }

  // ---------------------------------------------------------------------------
  // Resolver fields
  // ---------------------------------------------------------------------------

  /** The resolver type the factory of capability `c` would obtain. */
  function ResolverTypeFor(cfg: Config, c: Capability): (r: Option<Ty>)
    ensures r.Some? <==> c in cfg.resolverTypes
    ensures r.Some? ==> r.value == cfg.resolverTypes[c]
  {
    if c in cfg.resolverTypes then Some(cfg.resolverTypes[c]) else None
  }

  /** Release the resolver in field `c`, if any, and null the field. */
  function ReleaseSlot(s: State, c: Capability): (r: State)
    ensures c !in r.e.slots
    ensures r.e == s.e.(slots := r.e.slots) && r.t == s.t.(pool := r.t.pool)
    ensures forall d | d != c :: (d in r.e.slots <==> d in s.e.slots)
    ensures forall d | d != c && d in s.e.slots :: r.e.slots[d] == s.e.slots[d]
    ensures c in s.e.slots ==> r.t.pool == Release(s.t.pool, s.e.slots[c])
    ensures c !in s.e.slots ==> r == s
  {
    if c in s.e.slots then
      State(s.e.(slots := s.e.slots - {c}), s.t.(pool := Release(s.t.pool, s.e.slots[c])))
    else s
  }

  /** Release the resolver in field `c` (if any), then bind whatever the
      factory for `c` creates for this element. */
  function ReplaceSlot(cfg: Config, s: State, c: Capability): (r: State)
    ensures r.e == s.e.(slots := r.e.slots) && r.t == s.t.(pool := r.t.pool)
    ensures c in r.e.slots <==> c in cfg.resolverTypes
    ensures c in r.e.slots ==> r.e.slots[c] == s.t.pool.nextId
    ensures forall d | d != c :: (d in r.e.slots <==> d in s.e.slots)
    ensures forall d | d != c && d in s.e.slots :: r.e.slots[d] == s.e.slots[d]
    ensures s.t.pool.log <= r.t.pool.log && s.t.pool.nextId <= r.t.pool.nextId
  {
    var s1 := ReleaseSlot(s, c);
    var (h, pool') := CreateResolver(c, ResolverTypeFor(cfg, c), s.e.id, s1.t.pool);
    State(s1.e.(slots := if h.Some? then s1.e.slots[c := h.value.id] else s1.e.slots), s1.t.(pool := pool'))
  }

  /** An outstanding identity was handed out before `nextId`. */
  lemma OutstandingBelowNext(p: Pool, id: nat)
    requires WellFormed(p) && Outstanding(p, id)
    ensures id < p.nextId
  {
  }

  /** Releasing a field keeps the bookkeeping sound, gives that resolver back
      to the pool exactly once, and leaves every other identity's counts as
      they were. */
  lemma ReleaseSlotSound(s: State, c: Capability)
    requires SlotsSound(s)
    ensures SlotsSound(ReleaseSlot(s, c))
    ensures forall id: nat :: RentCount(ReleaseSlot(s, c).t.pool.log, id) == RentCount(s.t.pool.log, id)
    ensures forall id: nat ::
              ReleaseCount(ReleaseSlot(s, c).t.pool.log, id)
              == ReleaseCount(s.t.pool.log, id) + (if c in s.e.slots && s.e.slots[c] == id then 1 else 0)
  {
    if c in s.e.slots {
      var released := s.e.slots[c];
      ReleaseKeepsWellFormed(s.t.pool, released);
      forall id: nat
        ensures RentCount(Release(s.t.pool, released).log, id) == RentCount(s.t.pool.log, id)
        ensures ReleaseCount(Release(s.t.pool, released).log, id)
                == ReleaseCount(s.t.pool.log, id) + (if id == released then 1 else 0)
      {
        CountsAfterRelease(s.t.pool, released, id);
      }
    }
  }

  /** Binding a newly rented resolver into an empty field keeps the
      bookkeeping sound. */
  lemma BindRentedSound(s: State, c: Capability, ty: Ty)
    requires SlotsSound(s) && IsElementSlot(c) && c !in s.e.slots
    ensures var (newId, q) := Rent(s.t.pool, ty, c);
            SlotsSound(State(s.e.(slots := s.e.slots[c := newId]), s.t.(pool := q)))
  {
    var (newId, q) := Rent(s.t.pool, ty, c);
    RentKeepsWellFormed(s.t.pool, ty, c);
    forall d | d in s.e.slots
      ensures s.e.slots[d] != newId && Outstanding(q, s.e.slots[d])
    {
      OutstandingBelowNext(s.t.pool, s.e.slots[d]);
    }
  }

  /** Replacing a field keeps the bookkeeping sound and gives the old
      resolver back to the pool before the new one is rented. */
  lemma ReplaceSlotSound(cfg: Config, s: State, c: Capability)
    requires SlotsSound(s) && IsElementSlot(c)
    ensures SlotsSound(ReplaceSlot(cfg, s, c))
    ensures c in s.e.slots ==> ReleaseCount(ReplaceSlot(cfg, s, c).t.pool.log, s.e.slots[c]) >= 1
  {
    var s1 := ReleaseSlot(s, c);
    ReleaseSlotSound(s, c);
    var ty := ResolverTypeFor(cfg, c);
    if ty.Some? {
      BindRentedSound(s1, c, ty.value);
      assert ReplaceSlot(cfg, s, c)
             == State(s1.e.(slots := s1.e.slots[c := s1.t.pool.nextId]),
                      s1.t.(pool := Rent(s1.t.pool, ty.value, c).1));
      if c in s.e.slots {
        CountsAfterRent(s1.t.pool, ty.value, c, s.e.slots[c]);
      }
    } else {
      assert ReplaceSlot(cfg, s, c) == s1;
    }
  }

  // ---------------------------------------------------------------------------
  // Request and refresh
  // ---------------------------------------------------------------------------

  /** `Request`: run the action now, or queue it on the tree while the
      element is drawing. It always reports success; `forceDelay` is
      ignored and therefore not a parameter. */
  function Request(cfg: Config, s: State, a: Action): (r: (bool, State))
    ensures r.0
    ensures Drawing in s.e.phases ==> r.1 == s.(t := s.t.(queue := s.t.queue + [a]))
    ensures Drawing !in s.e.phases ==> r.1 == RunAction(cfg, s, a)
  {
    if Drawing in s.e.phases then (true, s.(t := s.t.(queue := s.t.queue + [a])))
    else (true, RunAction(cfg, s, a))
  }

  /** When an `ElementMovedEventArgs` is raised relative to the move, and
      what it says: the element moved, its new parent (`None` for null,
      as after a removal) and whether the change was an insertion. */
  datatype MoveTiming = MoveBefore | MoveAfter
  datatype MovedArgs = MovedArgs(timing: MoveTiming, element: nat, newParent: Option<nat>, isInsert: bool)

  /** `OnElementMoved`: after a move, the element named by the notice
      requests that its parent become the new non-null parent; otherwise an
      insertion under another parent makes this element try to remove the
      moved element from its own children list. Everything else is ignored. */
  function OnElementMoved(cfg: Config, s: State, args: MovedArgs): (r: State)
    ensures args.timing.MoveBefore? ==> r == s
    ensures args.timing.MoveAfter? && args.element == s.e.id && args.newParent.Some? ==>
              && (Drawing !in s.e.phases ==> r == s.(e := s.e.(parent := args.newParent)))
              && (Drawing in s.e.phases ==> r == s.(t := s.t.(queue := s.t.queue + [SetParentAction(args.newParent.value)])))
    ensures args.timing.MoveAfter? && !(args.element == s.e.id && args.newParent.Some?)
            && args.isInsert && args.newParent != Some(s.e.id) ==>
              r == s.(t := s.t.(effects := s.t.effects
                                            + if s.e.children.Some? then [ChildTryRemoved(s.e.children.value, args.element)] else []))
    ensures r.e.parent != s.e.parent ==> args.timing.MoveAfter? && args.element == s.e.id && r.e.parent == args.newParent
                                         && args.newParent.Some?
  {
    if args.timing.MoveBefore? then s
    else if args.element == s.e.id && args.newParent.Some? then
      Request(cfg, s, SetParentAction(args.newParent.value)).1
    else if args.isInsert && args.newParent != Some(s.e.id) then
      if s.e.children.Some? then s.(t := s.t.(effects := s.t.effects + [ChildTryRemoved(s.e.children.value, args.element)]))
      else s
    else s
  }

  /** A move in two steps, the insertion under the new parent reported
      before the removal from the old one: the late removal notice, whose new
      parent is null, does not undo the parent assignment. */
  lemma LateRemovalKeepsParent(cfg: Config, s: State, p: nat, inserted: bool)
    requires Drawing !in s.e.phases
    ensures var s1 := OnElementMoved(cfg, s, MovedArgs(MoveAfter, s.e.id, Some(p), true));
            var s2 := OnElementMoved(cfg, s1, MovedArgs(MoveAfter, s.e.id, None, inserted));
            s1.e.parent == Some(p) && s2.e.parent == Some(p)
  {
  }

  /** Running an action on the element. */
  function RunAction(cfg: Config, s: State, a: Action): State {
    match a
    case RefreshAction => Refresh(cfg, s)
    case SetParentAction(p) => s.(e := s.e.(parent := Some(p)))
    case External(tag) => s.(t := s.t.(effects := s.t.effects + [ActionRan(tag)]))
  }

  /** The fields `Refresh` re-resolves, in order, under the given backend. */
  function RefreshOrder(backend: Backend): (order: seq<Capability>)
    ensures forall i | 0 <= i < |order| :: IsElementSlot(order[i])
  {
    [AttributeResolver, PostProcessorChainResolver]
    + match backend
      case UIToolkit => [VisualBuilderResolver, VisualProcessorChainResolver]
      case IMGUI => [DrawerChainResolver]
  }

  /** Replace each field of `order` in turn. */
  function ReplaceAll(cfg: Config, s: State, order: seq<Capability>): (r: State)
    ensures r.e == s.e.(slots := r.e.slots) && r.t == s.t.(pool := r.t.pool)
    ensures forall c | c in order :: (c in r.e.slots <==> c in cfg.resolverTypes)
    ensures forall c | c in order && c in r.e.slots :: r.e.slots[c] >= s.t.pool.nextId
    ensures forall c | c !in order :: (c in r.e.slots <==> c in s.e.slots)
    ensures forall c | c !in order && c in s.e.slots :: r.e.slots[c] == s.e.slots[c]
    ensures s.t.pool.log <= r.t.pool.log && s.t.pool.nextId <= r.t.pool.nextId
    decreases |order|
  {
    if |order| == 0 then s
    else ReplaceAll(cfg, ReplaceSlot(cfg, s, order[0]), order[1..])
  }

  /** Replacing a run of fields keeps the bookkeeping sound, and every
      resolver that sat in one of those fields has been given back. */
  lemma {:induction false} ReplaceAllSound(cfg: Config, s: State, order: seq<Capability>)
    requires SlotsSound(s)
    requires forall i | 0 <= i < |order| :: IsElementSlot(order[i])
    ensures SlotsSound(ReplaceAll(cfg, s, order))
    ensures forall c | c in order && c in s.e.slots ::
              ReleaseCount(ReplaceAll(cfg, s, order).t.pool.log, s.e.slots[c]) >= 1
    decreases |order|
  {
    if |order| > 0 {
      var s1 := ReplaceSlot(cfg, s, order[0]);
      var r := ReplaceAll(cfg, s1, order[1..]);
      assert ReplaceAll(cfg, s, order) == r;
      ReplaceSlotSound(cfg, s, order[0]);
      ReplaceAllSound(cfg, s1, order[1..]);
      forall c | c in order && c in s.e.slots
        ensures ReleaseCount(r.t.pool.log, s.e.slots[c]) >= 1
      {
        if c == order[0] {
          CountsGrow(s1.t.pool.log, r.t.pool.log, s.e.slots[c]);
        } else {
          assert c in order[1..];
        }
      }
    }
  }

  /** `Refresh`: dispose the children list and make a new one when children
      are allowed; replace the attribute and post-processor resolvers, then the
      visual builder and visual processor chain resolvers (UIToolkit) or the
      drawer chain resolver (IMGUI); finally mark the element refreshed and
      pending post-processing and drawing. */
  function Refresh(cfg: Config, s: State): (r: State)
    ensures r.e.id == s.e.id && r.e.parent == s.e.parent && r.e.lastUpdateId == s.e.lastUpdateId
    ensures r.e.hasVisual == s.e.hasVisual
    ensures r.t.updateId == s.t.updateId && r.t.queue == s.t.queue && r.t.destroyRequests == s.t.destroyRequests
    ensures r.e.isFirstRefreshed
    ensures PendingRefresh !in r.e.phases && Refreshing !in r.e.phases
    ensures JustRefreshed in r.e.phases && PendingPostProcess in r.e.phases && PendingDraw in r.e.phases
    ensures forall ph | ph !in {PendingRefresh, Refreshing, JustRefreshed, PendingPostProcess, PendingDraw} ::
              ph in r.e.phases <==> ph in s.e.phases
    ensures r.e.children.Some? <==> cfg.canHaveChildren
    ensures r.e.children.Some? ==> r.e.children.value == s.t.nextListId
    ensures forall c | c in RefreshOrder(cfg.backend) :: (c in r.e.slots <==> c in cfg.resolverTypes)
    ensures forall c | c !in RefreshOrder(cfg.backend) :: (c in r.e.slots <==> c in s.e.slots)
    ensures forall c | c !in RefreshOrder(cfg.backend) && c in s.e.slots :: r.e.slots[c] == s.e.slots[c]
  {
    var s1 := RefreshChildren(cfg, s);
    var s2 := ReplaceAll(cfg, s1, RefreshOrder(cfg.backend));
    s2.(e := s2.e.(phases := s2.e.phases - {Refreshing} + {JustRefreshed, PendingPostProcess, PendingDraw},
                   isFirstRefreshed := true))
  }

  /** The first half of `Refresh`: enter `Refreshing`, dispose the old
      children list and create a new one when children are allowed. */
  function RefreshChildren(cfg: Config, s: State): (r: State)
    ensures r.e == s.e.(phases := r.e.phases, children := r.e.children)
    ensures r.t == s.t.(effects := r.t.effects, nextListId := r.t.nextListId)
    ensures r.e.phases == s.e.phases - {PendingRefresh} + {Refreshing}
    ensures r.e.children.Some? <==> cfg.canHaveChildren
    ensures r.e.children.Some? ==> r.e.children.value == s.t.nextListId
  {
    var effects := if s.e.children.Some? then s.t.effects + [ChildrenListDisposed(s.e.children.value)] else s.t.effects;
    var children := if cfg.canHaveChildren then Some(s.t.nextListId) else None;
    var nextList := if cfg.canHaveChildren then s.t.nextListId + 1 else s.t.nextListId;
    State(s.e.(phases := s.e.phases - {PendingRefresh} + {Refreshing}, children := children),
          s.t.(effects := effects, nextListId := nextList))
  }

  /** Refresh keeps the resolver bookkeeping sound; every resolver it
      replaces is back in the pool, and every resolver it binds is new. */
  lemma RefreshReleasesReplaced(cfg: Config, s: State)
    requires SlotsSound(s)
    ensures var r := Refresh(cfg, s);
            && SlotsSound(r)
            && (forall c | c in s.e.slots && c in RefreshOrder(cfg.backend) :: !Outstanding(r.t.pool, s.e.slots[c]))
            && (forall c | c in r.e.slots && c in RefreshOrder(cfg.backend) :: RentCount(s.t.pool.log, r.e.slots[c]) == 0)
  {
    var s1 := RefreshChildren(cfg, s);
    ReplaceAllSound(cfg, s1, RefreshOrder(cfg.backend));
  }

  /** `RequestRefresh`: refused once the element has refreshed unless it
      asks to refresh every time; otherwise mark a refresh pending and
      request it. `Request` always succeeds, so the branch that withdraws
      the pending mark never runs. */
  function RequestRefresh(cfg: Config, s: State): (r: Outcome<(bool, State)>)
    ensures Destroyed in s.e.phases <==> r.Throws?
    ensures r.Throws? ==> r.error == ObjectDisposedException
    ensures r.Ok? ==> (r.value.0 <==> !(s.e.isFirstRefreshed && !cfg.refreshMultiple))
    ensures r.Ok? && !r.value.0 ==> r.value.1 == s
  {
    if Destroyed in s.e.phases then Throws(ObjectDisposedException)
    else if s.e.isFirstRefreshed && !cfg.refreshMultiple then Ok((false, s))
    else
      var s1 := s.(e := s.e.(phases := s.e.phases + {PendingRefresh}));
      var (accepted, s2) := Request(cfg, s1, RefreshAction);
      if accepted then Ok((true, s2))
      else Ok((false, s2.(e := s2.e.(phases := s2.e.phases - {PendingRefresh}))))
  }

  /** Outside drawing a refresh request refreshes at once; while drawing it
      only marks the refresh pending and queues it. */
  lemma RequestRefreshTiming(cfg: Config, s: State)
    requires Destroyed !in s.e.phases && !(s.e.isFirstRefreshed && !cfg.refreshMultiple)
    ensures var r := RequestRefresh(cfg, s);
            && r.Ok? && r.value.0
            && (Drawing !in s.e.phases ==> r.value.1 == Refresh(cfg, s.(e := s.e.(phases := s.e.phases + {PendingRefresh}))))
            && (Drawing in s.e.phases ==>
                  && r.value.1.e == s.e.(phases := s.e.phases + {PendingRefresh})
                  && r.value.1.t == s.t.(queue := s.t.queue + [RefreshAction]))
  {
  }

  /** Refresh requests are not coalesced: two requests while drawing queue
      two refreshes, in order, and touch nothing else. */
  lemma RepeatedRequestsQueueTwice(cfg: Config, s: State)
    requires Destroyed !in s.e.phases && Drawing in s.e.phases && cfg.refreshMultiple
    ensures var r1 := RequestRefresh(cfg, s);
            && r1.Ok?
            && var r2 := RequestRefresh(cfg, r1.value.1);
            && r2.Ok? && r1.value.0 && r2.value.0
            && r2.value.1.t == s.t.(queue := s.t.queue + [RefreshAction, RefreshAction])
            && r2.value.1.e == s.e.(phases := s.e.phases + {PendingRefresh})
  {
    var r1 := RequestRefresh(cfg, s);
    assert r1.value.1.t.queue == s.t.queue + [RefreshAction];
    assert (s.t.queue + [RefreshAction]) + [RefreshAction] == s.t.queue + [RefreshAction, RefreshAction];
  }

  // ---------------------------------------------------------------------------
  // Update
  // ---------------------------------------------------------------------------

  /** `Update`: nothing twice in one frame unless forced; otherwise clear
      `JustRefreshed`, request the first refresh on the very first update, and
      record the frame. Only that first refresh request can throw, and the
      `JustRefreshed` mark is already gone when it does. */
  function Update(cfg: Config, s: State, forceUpdate: bool): (r: Completion<State>)
    ensures s.e.lastUpdateId == Some(s.t.updateId) && !forceUpdate ==> r == Normal(s)
    ensures r.Abrupt? <==> s.e.lastUpdateId.None? && Destroyed in s.e.phases
    ensures r.Abrupt? ==> && r.error == ObjectDisposedException
                          && r.state == s.(e := s.e.(phases := s.e.phases - {JustRefreshed}))
    ensures r.Normal? ==> r.state.e.lastUpdateId == Some(s.t.updateId) && r.state.t.updateId == s.t.updateId
    ensures r.Normal? && s.e.lastUpdateId.Some? && !(s.e.lastUpdateId == Some(s.t.updateId) && !forceUpdate) ==>
              r.state == s.(e := s.e.(phases := s.e.phases - {JustRefreshed}, lastUpdateId := Some(s.t.updateId)))
  {
    if s.e.lastUpdateId == Some(s.t.updateId) && !forceUpdate then Normal(s)
    else
      var s1 := s.(e := s.e.(phases := s.e.phases - {JustRefreshed}));
      var requested := if s1.e.lastUpdateId.None? then RequestRefresh(cfg, s1) else Ok((true, s1));
      match requested
      case Throws(err) => Abrupt(err, s1)
      case Ok((_, s2)) => Normal(s2.(e := s2.e.(lastUpdateId := Some(s.t.updateId))))
  }

  /** Within one frame a second unforced update changes nothing. */
  lemma UpdateOncePerFrame(cfg: Config, s: State)
    requires Update(cfg, s, false).Normal?
    ensures var s1 := Update(cfg, s, false).state;
            Update(cfg, s1, false) == Normal(s1)
  {
  }

  /** The very first update of a live element that is not drawing refreshes
      it: afterwards it has refreshed once and is pending post-processing and
      drawing, and `JustRefreshed` survives until the next frame's update. */
  lemma FirstUpdateRefreshes(cfg: Config, s: State, forceUpdate: bool)
    requires s.e.lastUpdateId.None? && Destroyed !in s.e.phases && Drawing !in s.e.phases
    requires !(s.e.isFirstRefreshed && !cfg.refreshMultiple)
    ensures Update(cfg, s, forceUpdate).Normal?
    ensures var s1 := Update(cfg, s, forceUpdate).state;
            && s1.e.isFirstRefreshed
            && JustRefreshed in s1.e.phases && PendingPostProcess in s1.e.phases && PendingDraw in s1.e.phases
            && PendingRefresh !in s1.e.phases
            && s1.e.lastUpdateId == Some(s.t.updateId)
  {
  }

  /** The next frame's update ends the `JustRefreshed` phase. */
  lemma NextFrameClearsJustRefreshed(cfg: Config, s: State, nextFrame: int)
    requires s.e.lastUpdateId.Some? && s.e.lastUpdateId != Some(nextFrame)
    ensures var s' := s.(t := s.t.(updateId := nextFrame));
            && Update(cfg, s', false).Normal?
            && JustRefreshed !in Update(cfg, s', false).state.e.phases
  {
  }

  // ---------------------------------------------------------------------------
  // Post-processing
  // ---------------------------------------------------------------------------

  /** `PostProcessIfNeeded`: when post-processing is pending, run each entry
      of the post-processor chain once in order (the chain is empty without a
      resolver) and clear the pending mark. `postProcessorCount` is the length
      of the chain the resolver would supply. */
  function PostProcessIfNeeded(s: State, postProcessorCount: nat): (r: Outcome<(bool, State)>)
    ensures PendingPostProcess !in s.e.phases ==> r == Ok((false, s))
    ensures r.Throws? <==> PendingPostProcess in s.e.phases && Destroyed in s.e.phases
    ensures r.Ok? && r.value.0 ==> PendingPostProcess !in r.value.1.e.phases
    ensures r.Ok? ==> (PostProcessing in r.value.1.e.phases ==> PostProcessing in s.e.phases)
  {
    if PendingPostProcess !in s.e.phases then Ok((false, s))
    else if Destroyed in s.e.phases then Throws(ObjectDisposedException)
    else
      var n := if PostProcessorChainResolver in s.e.slots then postProcessorCount else 0;
      var ran := RunPostProcessors(s.t.effects, n);
      var phases := (if n > 0 then s.e.phases - {PostProcessing} else s.e.phases) - {PendingPostProcess};
      Ok((true, State(s.e.(phases := phases), s.t.(effects := ran))))
  }

  /** The `while (chain.MoveNext() …) chain.Current.Process()` loop: one
      effect per entry, in chain order. */
  method RunPostProcessorsLoop(effects: seq<Effect>, n: nat) returns (r: seq<Effect>)
    ensures r == RunPostProcessors(effects, n)
    ensures |r| == |effects| + n && r[..|effects|] == effects
    ensures forall k | 0 <= k < n :: r[|effects| + k] == PostProcessed(k)
  {
    r := effects;
    var k := 0;
    while k < n
      invariant 0 <= k <= n
      invariant |r| == |effects| + k && r[..|effects|] == effects
      invariant forall j | 0 <= j < k :: r[|effects| + j] == PostProcessed(j)
    {
      r := r + [PostProcessed(k)];
      k := k + 1;
    }
    RunPostProcessorsShape(effects, n, r);
  }

  function RunPostProcessors(effects: seq<Effect>, n: nat): seq<Effect> {
    effects + seq(n, k requires 0 <= k < n => PostProcessed(k))
  }

  lemma RunPostProcessorsShape(effects: seq<Effect>, n: nat, r: seq<Effect>)
    requires |r| == |effects| + n && r[..|effects|] == effects
    requires forall k | 0 <= k < n :: r[|effects| + k] == PostProcessed(k)
    ensures r == RunPostProcessors(effects, n)
  {
    assert forall i | 0 <= i < |r| :: r[i] == RunPostProcessors(effects, n)[i] by {
      forall i | 0 <= i < |r|
        ensures r[i] == RunPostProcessors(effects, n)[i]
      {
        if i < |effects| {
          assert r[i] == r[..|effects|][i];
        }
      }
    }
  }

  /** Post-processing happens once per refresh: right after it ran, a second
      call reports that nothing was needed and changes nothing. */
  lemma PostProcessOnce(s: State, n: nat, m: nat)
    requires PostProcessIfNeeded(s, n).Ok? && PostProcessIfNeeded(s, n).value.0
    ensures var s1 := PostProcessIfNeeded(s, n).value.1;
            PostProcessIfNeeded(s1, m) == Ok((false, s1))
  {
  }

  /** With a post-processor resolver, every chain entry ran exactly once, in
      order, after everything logged before. */
  lemma PostProcessRunsEachOnce(s: State, n: nat)
    requires PendingPostProcess in s.e.phases && Destroyed !in s.e.phases
    requires PostProcessorChainResolver in s.e.slots
    ensures var r := PostProcessIfNeeded(s, n);
            && r.Ok? && r.value.0
            && |r.value.1.t.effects| == |s.t.effects| + n
            && r.value.1.t.effects[..|s.t.effects|] == s.t.effects
            && forall k | 0 <= k < n :: r.value.1.t.effects[|s.t.effects| + k] == PostProcessed(k)
  {
  }

  // ---------------------------------------------------------------------------
  // Drawing
  // ---------------------------------------------------------------------------

  /** What the code outside this model answers during one `Draw`: the
      length of the drawer chain, what the head drawer requests of the element
      while it draws, whether the visual builder resolver has a builder,
      whether that builder creates a visual element, and the length of the
      visual processor chain. */
  datatype DrawInputs = DrawInputs(
    drawerCount: nat,
    requestsDuringDraw: seq<Action>,
    builderFound: bool,
    builderCreates: bool,
    processorCount: nat)

  /** Request each action in turn. */
  function RequestAll(cfg: Config, s: State, actions: seq<Action>): State
    decreases |actions|
  {
    if |actions| == 0 then s else RequestAll(cfg, Request(cfg, s, actions[0]).1, actions[1..])
  }

  /** While drawing, requests only queue: the element is untouched and the
      actions join the queue in order. */
  lemma {:induction false} RequestsWhileDrawingQueue(cfg: Config, s: State, actions: seq<Action>)
    requires Drawing in s.e.phases
    ensures RequestAll(cfg, s, actions) == s.(t := s.t.(queue := s.t.queue + actions))
    decreases |actions|
  {
    if |actions| > 0 {
      var s1 := Request(cfg, s, actions[0]).1;
      RequestsWhileDrawingQueue(cfg, s1, actions[1..]);
      assert s1.t.queue + actions[1..] == s.t.queue + actions;
    }
  }

  /** `CreateVisualElement`: the builder resolver field is dereferenced
      without a check, and so is the processor chain resolver field once a
      visual element exists. */
  function CreateVisualElement(s: State, d: DrawInputs): (r: Outcome<(bool, State)>)
    ensures VisualBuilderResolver !in s.e.slots ==> r == Throws(NullReferenceException)
    ensures r.Ok? ==> (r.value.0 <==> d.builderFound && d.builderCreates)
    ensures r.Ok? && !r.value.0 ==> r.value.1 == s
    ensures r.Throws? <==>
              || VisualBuilderResolver !in s.e.slots
              || (d.builderFound && d.builderCreates && VisualProcessorChainResolver !in s.e.slots)
  {
    if VisualBuilderResolver !in s.e.slots then Throws(NullReferenceException)
    else if !d.builderFound || !d.builderCreates then Ok((false, s))
    else if VisualProcessorChainResolver !in s.e.slots then Throws(NullReferenceException)
    else
      var effects := if d.processorCount > 0 then s.t.effects + [HeadVisualProcessorRan] else s.t.effects;
      Ok((true, s.(t := s.t.(effects := effects))))
  }

  /** `Draw`: reject a destroyed element, update it, then draw through the
      backend, and leave nothing pending to draw. IMGUI draws the head of the
      drawer chain (the head hands on to the rest) inside `Drawing`; UIToolkit
      rebuilds the visual element inside `Drawing`, but only when a draw is
      pending. The splice into the owning visual element is not modelled.
      Nothing restores the phases when building the visual element throws:
      the element is then left in `Drawing`, with the draw still pending. */
  function Draw(cfg: Config, s: State, d: DrawInputs): (r: Completion<State>)
    ensures Destroyed in s.e.phases ==> r == Abrupt(ObjectDisposedException, s)
    ensures r.Normal? ==> PendingDraw !in r.state.e.phases
    ensures r.Normal? && Drawing !in s.e.phases ==> Drawing !in r.state.e.phases
    ensures r.Abrupt? && Destroyed !in s.e.phases ==>
              && cfg.backend.UIToolkit? && r.error == NullReferenceException
              && Drawing in r.state.e.phases && PendingDraw in r.state.e.phases
  {
    if Destroyed in s.e.phases then Abrupt(ObjectDisposedException, s)
    else
      match Update(cfg, s, false)
      case Abrupt(err, s1) => Abrupt(err, s1)
      case Normal(s1) =>
        match cfg.backend
        case IMGUI =>
          var drawers := if DrawerChainResolver in s1.e.slots then d.drawerCount else 0;
          if drawers > 0 then
            var s2 := s1.(e := s1.e.(phases := s1.e.phases + {Drawing}));
            var s3 := RequestAll(cfg, s2, d.requestsDuringDraw);
            RequestsWhileDrawingQueue(cfg, s2, d.requestsDuringDraw);
            Normal(s3.(e := s3.e.(phases := s3.e.phases - {Drawing} - {PendingDraw}),
                       t := s3.t.(effects := s3.t.effects + [HeadDrawerDrawn])))
          else
            Normal(s1.(e := s1.e.(phases := s1.e.phases - {PendingDraw})))
        case UIToolkit =>
          if PendingDraw !in s1.e.phases then Normal(s1)
          else
            var s2 := s1.(e := s1.e.(phases := s1.e.phases + {Drawing}));
            match CreateVisualElement(s2, d)
            case Throws(err) => Abrupt(err, s2)
            case Ok((created, s3)) =>
              Normal(s3.(e := s3.e.(phases := s3.e.phases - {Drawing} - {PendingDraw}, hasVisual := created),
                         t := s3.t.(effects := s3.t.effects + [VisualRebuilt(created)])))
  }

  /** In IMGUI, a draw of a live, refreshed element with drawers runs the head
      drawer once, and whatever it requested is queued behind the existing
      queue rather than run. */
  lemma ImguiDrawDefersRequests(cfg: Config, s: State, d: DrawInputs)
    requires cfg.backend.IMGUI? && Destroyed !in s.e.phases && Drawing !in s.e.phases
    requires s.e.lastUpdateId == Some(s.t.updateId)
    requires DrawerChainResolver in s.e.slots && d.drawerCount > 0
    ensures var r := Draw(cfg, s, d);
            && r.Normal?
            && r.state.t.queue == s.t.queue + d.requestsDuringDraw
            && r.state.t.effects == s.t.effects + [HeadDrawerDrawn]
            && r.state.e == s.e.(phases := s.e.phases - {PendingDraw})
  {
    var s2 := s.(e := s.e.(phases := s.e.phases + {Drawing}));
    RequestsWhileDrawingQueue(cfg, s2, d.requestsDuringDraw);
    assert s.e.phases + {Drawing} - {Drawing} - {PendingDraw} == s.e.phases - {PendingDraw};
  }

  /** In UIToolkit, a draw with nothing pending leaves the visual element and
      the effects alone. */
  lemma UiToolkitDrawNeedsPending(cfg: Config, s: State, d: DrawInputs)
    requires cfg.backend.UIToolkit? && Destroyed !in s.e.phases
    requires s.e.lastUpdateId == Some(s.t.updateId) && PendingDraw !in s.e.phases
    ensures Draw(cfg, s, d) == Normal(s)
  {
  }

  /** A UIToolkit element whose visual builder resolver field is null fails
      its pending draw with a null dereference, and is left in `Drawing`: from
      then on every request it receives is queued instead of run. */
  lemma UiToolkitDrawWithoutBuilderResolver(cfg: Config, s: State, d: DrawInputs, a: Action)
    requires cfg.backend.UIToolkit? && Destroyed !in s.e.phases
    requires s.e.lastUpdateId == Some(s.t.updateId) && PendingDraw in s.e.phases
    requires VisualBuilderResolver !in s.e.slots
    ensures var stuck := s.(e := s.e.(phases := s.e.phases + {Drawing}));
            && Draw(cfg, s, d) == Abrupt(NullReferenceException, stuck)
            && Request(cfg, stuck, a).1 == stuck.(t := stuck.t.(queue := stuck.t.queue + [a]))
  {
  }

  // ---------------------------------------------------------------------------
  // Destruction
  // ---------------------------------------------------------------------------

  /** `Destroy`: once only, mark destruction pending and hand the element to
      the element factory. */
  function Destroy(s: State): (r: State)
    ensures (Destroyed in s.e.phases || PendingDestroy in s.e.phases || Destroying in s.e.phases) ==> r == s
    ensures PendingDestroy in r.e.phases || Destroyed in r.e.phases || Destroying in r.e.phases
    ensures |r.t.destroyRequests| <= |s.t.destroyRequests| + 1
  {
    if Destroyed in s.e.phases || PendingDestroy in s.e.phases || Destroying in s.e.phases then s
    else State(s.e.(phases := s.e.phases + {PendingDestroy}), s.t.(destroyRequests := s.t.destroyRequests + [s.e.id]))
  }

  /** However often `Destroy` is called, the factory is asked once. */
  lemma DestroyIdempotent(s: State)
    ensures Destroy(Destroy(s)) == Destroy(s)
    ensures (PendingDestroy !in s.e.phases && Destroyed !in s.e.phases && Destroying !in s.e.phases) ==>
              Destroy(s).t.destroyRequests == s.t.destroyRequests + [s.e.id]
  {
  }

  /** Release the fields of `order` in turn. */
  function ReleaseAll(s: State, order: seq<Capability>): (r: State)
    ensures r.e == s.e.(slots := r.e.slots) && r.t == s.t.(pool := r.t.pool)
    ensures forall c :: c in r.e.slots <==> c in s.e.slots && c !in order
    ensures forall c | c in r.e.slots :: r.e.slots[c] == s.e.slots[c]
    decreases |order|
  {
    if |order| == 0 then s else ReleaseAll(ReleaseSlot(s, order[0]), order[1..])
  }

  /** Releasing a run of fields keeps the bookkeeping sound and gives each
      released resolver back exactly once; no other identity is touched. */
  lemma {:induction false} ReleaseAllSound(s: State, order: seq<Capability>)
    requires SlotsSound(s)
    ensures SlotsSound(ReleaseAll(s, order))
    ensures forall id: nat :: RentCount(ReleaseAll(s, order).t.pool.log, id) == RentCount(s.t.pool.log, id)
    ensures forall c | c in s.e.slots ::
              ReleaseCount(ReleaseAll(s, order).t.pool.log, s.e.slots[c])
              == ReleaseCount(s.t.pool.log, s.e.slots[c]) + (if c in order then 1 else 0)
    decreases |order|
  {
    if |order| > 0 {
      var s1 := ReleaseSlot(s, order[0]);
      ReleaseSlotSound(s, order[0]);
      ReleaseAllSound(s1, order[1..]);
      var r := ReleaseAll(s1, order[1..]);
      assert ReleaseAll(s, order) == r;
      forall c | c in s.e.slots
        ensures ReleaseCount(r.t.pool.log, s.e.slots[c])
                == ReleaseCount(s.t.pool.log, s.e.slots[c]) + (if c in order then 1 else 0)
      {
        if c == order[0] {
          // released now; no remaining field holds the same resolver
          ReleasedStaysReleased(s1, order[1..], s.e.slots[c]);
        } else {
          assert c in s1.e.slots && s1.e.slots[c] == s.e.slots[c];
          assert c in order <==> c in order[1..];
          assert ReleaseCount(s1.t.pool.log, s.e.slots[c]) == ReleaseCount(s.t.pool.log, s.e.slots[c]) by {
            if order[0] in s.e.slots {
              assert s.e.slots[order[0]] != s.e.slots[c];
            }
          }
        }
      }
    }
  }

  /** Releasing fields never touches an identity no field holds. */
  lemma {:induction false} ReleasedStaysReleased(s: State, order: seq<Capability>, id: nat)
    requires SlotsSound(s)
    requires forall c | c in s.e.slots :: s.e.slots[c] != id
    ensures ReleaseCount(ReleaseAll(s, order).t.pool.log, id) == ReleaseCount(s.t.pool.log, id)
    decreases |order|
  {
    if |order| > 0 {
      ReleaseSlotSound(s, order[0]);
      ReleasedStaysReleased(ReleaseSlot(s, order[0]), order[1..], id);
    }
  }

  /** The parent's `Children` getter answers with a list to remove the
      element from: no parent means there is nothing to detach, a destroyed
      parent throws, and a parent without a children list answers null. */
  predicate DetachSucceeds(s: State, parentChildren: Outcome<Option<nat>>) {
    s.e.parent.None? || (parentChildren.Ok? && parentChildren.value.Some?)
  }

  /** `IDisposable.Dispose`: once only; leave `PendingDestroy` for
      `Destroying`, detach from the parent's children, dispose the children
      list, release the five resolver fields in declaration order, and add
      `Destroyed`. `parentChildren` is the answer of the parent's `Children`
      getter, which lives outside this model; it is not consulted without a
      parent. When the detach throws, the element stays `Destroying` with
      every field still bound. `Destroying` is never removed. */
  function Dispose(s: State, parentChildren: Outcome<Option<nat>>): (r: Completion<State>)
    ensures (Destroyed in s.e.phases || Destroying in s.e.phases) ==> r == Normal(s)
    ensures Destroyed in r.state.e.phases || Destroying in r.state.e.phases
    ensures r.Abrupt? <==> !(Destroyed in s.e.phases || Destroying in s.e.phases) && !DetachSucceeds(s, parentChildren)
    ensures r.Abrupt? ==>
              && r.error == (if parentChildren.Throws? then parentChildren.error else NullReferenceException)
              && r.state == s.(e := s.e.(phases := s.e.phases - {PendingDestroy} + {Destroying}))
    ensures r.Normal? && !(Destroyed in s.e.phases || Destroying in s.e.phases) ==>
              && r.state.e.phases == s.e.phases - {PendingDestroy} + {Destroying, Destroyed}
              && (forall c | IsElementSlot(c) :: c !in r.state.e.slots)
              && r.state.e.children == s.e.children && r.state.e.parent == s.e.parent
              && r.state.t.queue == s.t.queue && r.state.t.destroyRequests == s.t.destroyRequests
  {
    if Destroyed in s.e.phases || Destroying in s.e.phases then Normal(s)
    else
      match DisposeBegin(s, parentChildren)
      case Abrupt(error, s0) => Abrupt(error, s0)
      case Normal(s0) =>
        var s1 := ReleaseAll(s0, DisposeOrder);
        Normal(s1.(e := s1.e.(phases := s1.e.phases + {Destroyed})))
  }

  /** The part of `Dispose` before the resolvers go back: enter `Destroying`,
      detach from the parent's children and dispose the children list. A
      destroyed parent's getter throws `ObjectDisposedException`, and
      `TryRemove` on a null list throws `NullReferenceException`; either way
      nothing after the detach runs. */
  function DisposeBegin(s: State, parentChildren: Outcome<Option<nat>>): (r: Completion<State>)
    ensures r.state.e == s.e.(phases := s.e.phases - {PendingDestroy} + {Destroying})
    ensures r.state.t == s.t.(effects := r.state.t.effects)
    ensures r.Abrupt? <==> !DetachSucceeds(s, parentChildren)
    ensures r.Abrupt? ==>
              && r.error == (if parentChildren.Throws? then parentChildren.error else NullReferenceException)
              && r.state.t == s.t
    ensures r.Normal? ==>
              && |s.t.effects| <= |r.state.t.effects|
              && r.state.t.effects[..|s.t.effects|] == s.t.effects
              && (forall p: nat :: DetachedFrom(p) in r.state.t.effects[|s.t.effects|..] <==> s.e.parent == Some(p))
  {
    var e0 := s.e.(phases := s.e.phases - {PendingDestroy} + {Destroying});
    if s.e.parent.Some? && parentChildren.Throws? then Abrupt(parentChildren.error, State(e0, s.t))
    else if s.e.parent.Some? && parentChildren.value.None? then Abrupt(NullReferenceException, State(e0, s.t))
    else
      var added := (if s.e.parent.Some? then [DetachedFrom(s.e.parent.value)] else [])
                   + (if s.e.children.Some? then [ChildrenListDisposed(s.e.children.value)] else []);
      assert (s.t.effects + added)[|s.t.effects|..] == added;
      Normal(State(e0, s.t.(effects := s.t.effects + added)))
  }

  /** Disposing a live element whose detach succeeds gives every bound
      resolver back to the pool exactly once, leaves every field null and the
      bookkeeping sound. */
  lemma DisposeReleasesEachOnce(s: State, parentChildren: Outcome<Option<nat>>)
    requires SlotsSound(s) && Destroyed !in s.e.phases && Destroying !in s.e.phases
    ensures Dispose(s, parentChildren).Normal? <==> DetachSucceeds(s, parentChildren)
    ensures var r := Dispose(s, parentChildren);
            r.Normal? ==>
              && SlotsSound(r.state)
              && r.state.e.slots == map[]
              && forall c | c in s.e.slots ::
                   RentCount(r.state.t.pool.log, s.e.slots[c]) == 1 && ReleaseCount(r.state.t.pool.log, s.e.slots[c]) == 1
  {
    var b := DisposeBegin(s, parentChildren);
    if b.Normal? {
      var s0 := b.state;
      assert s0.e.slots == s.e.slots && s0.t.pool == s.t.pool;
      assert SlotsSound(s0);
      ReleaseAllInDisposeOrder(s0);
      var s1 := ReleaseAll(s0, DisposeOrder);
      var r := s1.(e := s1.e.(phases := s1.e.phases + {Destroyed}));
      assert Dispose(s, parentChildren) == Normal(r);
      assert r.e.slots == s1.e.slots && r.t.pool == s1.t.pool;
    }
  }

  /** A detach that throws leaks the element's resolvers for good: none goes
      back to the pool, the element never becomes `Destroyed`, and every
      later dispose returns at once whatever the parent answers then. */
  lemma FailedDetachLeaksResolvers(s: State, parentChildren: Outcome<Option<nat>>, later: Outcome<Option<nat>>)
    requires SlotsSound(s) && Destroyed !in s.e.phases && Destroying !in s.e.phases
    requires !DetachSucceeds(s, parentChildren)
    ensures var r := Dispose(s, parentChildren);
            && r.Abrupt?
            && Destroyed !in r.state.e.phases
            && r.state.e.slots == s.e.slots
            && (forall c | c in s.e.slots :: Outstanding(r.state.t.pool, r.state.e.slots[c]))
            && Dispose(r.state, later) == Normal(r.state)
            && Children(r.state) == Ok(s.e.children)
  {
  }

  /** Releasing in dispose order returns every bound resolver exactly once
      and leaves no field bound. */
  lemma ReleaseAllInDisposeOrder(s: State)
    requires SlotsSound(s)
    ensures var r := ReleaseAll(s, DisposeOrder);
            && SlotsSound(r)
            && r.e.slots == map[]
            && forall c | c in s.e.slots ::
                 RentCount(r.t.pool.log, s.e.slots[c]) == 1 && ReleaseCount(r.t.pool.log, s.e.slots[c]) == 1
  {
    ReleaseAllSound(s, DisposeOrder);
    DisposeOrderReleasesOnce(s);
    DisposeOrderEmptiesSlots(s);
  }

  lemma DisposeOrderReleasesOnce(s: State)
    requires SlotsSound(s)
    ensures var r := ReleaseAll(s, DisposeOrder);
            forall c | c in s.e.slots ::
              RentCount(r.t.pool.log, s.e.slots[c]) == 1 && ReleaseCount(r.t.pool.log, s.e.slots[c]) == 1
  {
    ReleaseAllSound(s, DisposeOrder);
    var r := ReleaseAll(s, DisposeOrder);
    forall c | c in s.e.slots
      ensures RentCount(r.t.pool.log, s.e.slots[c]) == 1 && ReleaseCount(r.t.pool.log, s.e.slots[c]) == 1
    {
      ElementSlotInDisposeOrder(c);
      var id := s.e.slots[c];
      assert Outstanding(s.t.pool, id);
      assert RentCount(r.t.pool.log, id) == RentCount(s.t.pool.log, id);
      assert ReleaseCount(r.t.pool.log, id) == ReleaseCount(s.t.pool.log, id) + 1;
    }
  }

  lemma DisposeOrderEmptiesSlots(s: State)
    requires forall c | c in s.e.slots :: IsElementSlot(c)
    ensures ReleaseAll(s, DisposeOrder).e.slots == map[]
  {
    var r := ReleaseAll(s, DisposeOrder);
    forall c | c in r.e.slots ensures false {
      ElementSlotInDisposeOrder(c);
    }
    assert r.e.slots == map[];
  }

  /** Every element field is released on disposal. */
  lemma ElementSlotInDisposeOrder(c: Capability)
    requires IsElementSlot(c)
    ensures c in DisposeOrder
  {
  }

  /** A second dispose does nothing, whether the first completed or threw. */
  lemma DisposeIdempotent(s: State, first: Outcome<Option<nat>>, second: Outcome<Option<nat>>)
    ensures var r := Dispose(s, first).state;
            Dispose(r, second) == Normal(r)
  {
  }

  /** After a disposal that completes, the guarded members reject the
      element. */
  lemma DisposedRejects(cfg: Config, s: State, parentChildren: Outcome<Option<nat>>, d: DrawInputs, n: nat)
    ensures var r := Dispose(s, parentChildren).state;
            Destroyed in r.e.phases || Destroying in r.e.phases
    ensures Destroyed in s.e.phases || (Destroying !in s.e.phases && DetachSucceeds(s, parentChildren)) ==>
              var r := Dispose(s, parentChildren).state;
              && Children(r) == Throws(ObjectDisposedException)
              && RequestRefresh(cfg, r) == Throws(ObjectDisposedException)
              && Draw(cfg, r, d) == Abrupt(ObjectDisposedException, r)
              && (PendingPostProcess in r.e.phases ==> PostProcessIfNeeded(r, n) == Throws(ObjectDisposedException))
  {
  }

  /** `Refresh` itself is not guarded: a refresh that runs after disposal
      (one queued earlier, say) binds resolvers to the destroyed element
      again. */
  lemma RefreshAfterDisposeRebinds(cfg: Config, s: State)
    requires Destroyed in s.e.phases && AttributeResolver in cfg.resolverTypes
    ensures AttributeResolver in Refresh(cfg, s).e.slots && Destroyed in Refresh(cfg, s).e.phases
  {
  }
}

=== FILE: event_args_pool.dfy ===
/** `ElementDestroyedEventArgs`: the event data for a destroyed element,
    taken from an object pool and given back on `Dispose`. The editor pool
    itself is not part of this model; here it keeps the released instances
    in a list and hands out the most recently released one first, creating
    a new instance when none is free. */
module EventArgsPool {
  import opened Wrappers

  /** An instance: the element it reports (`None` for null). */
  datatype DestroyedArgs = DestroyedArgs(element: Option<nat>)

  /** The instances by identity, which of them are free, and the identity a
      new instance gets. */
  datatype ArgsPool = ArgsPool(instances: map<nat, DestroyedArgs>, free: seq<nat>, nextInstance: nat)

  /** Every free instance exists, appears once, and reports no element. */
  predicate PoolValid(p: ArgsPool) {
    && (forall i | 0 <= i < |p.free| :: p.free[i] in p.instances && p.instances[p.free[i]].element.None?)
    && (forall i, j | 0 <= i < j < |p.free| :: p.free[i] != p.free[j])
    && (forall id | id in p.instances :: id < p.nextInstance)
  }

  function EmptyArgsPool(): (p: ArgsPool)
    ensures PoolValid(p) && p.free == []
  {
    ArgsPool(map[], [], 0)
  }

  /** `IPoolItem.Rent`: the hook changes nothing. */
  function OnRent(a: DestroyedArgs): DestroyedArgs
  {
    a
  }

  /** `IPoolItem.Release`: the hook clears the element. */
  function OnRelease(a: DestroyedArgs): (r: DestroyedArgs)
    ensures r.element.None?
  {
    a.(element := None)
  }

  /** Renting from the pool: the last free instance, or a new one. */
  function Rent(p: ArgsPool): (r: (nat, ArgsPool))
    requires PoolValid(p)
    ensures r.0 in r.1.instances && r.0 !in r.1.free
    ensures |p.free| > 0 ==> r.0 == p.free[|p.free| - 1] && r.1.free == p.free[..|p.free| - 1]
    ensures |p.free| == 0 ==> r.0 == p.nextInstance && r.1.free == [] && r.0 !in p.instances
    ensures PoolValid(r.1) && r.1.instances[r.0].element.None?
    ensures forall id | id in p.instances && id != r.0 :: id in r.1.instances && r.1.instances[id] == p.instances[id]
  {
    if |p.free| > 0 then
      var id := p.free[|p.free| - 1];
      var p' := p.(free := p.free[..|p.free| - 1], instances := p.instances[id := OnRent(p.instances[id])]);
      (id, p')
    else
      var id := p.nextInstance;
      (id, p.(instances := p.instances[id := OnRent(DestroyedArgs(None))], nextInstance := id + 1))
  }

  /** `Create`: rent an instance and set its element. */
  function Create(p: ArgsPool, element: nat): (r: (nat, ArgsPool))
    requires PoolValid(p)
    ensures r.0 in r.1.instances && r.1.instances[r.0] == DestroyedArgs(Some(element))
    ensures r.0 !in r.1.free
    ensures forall id | id in p.instances && id != r.0 :: id in r.1.instances && r.1.instances[id] == p.instances[id]
  {
    var (id, p') := Rent(p);
    (id, p'.(instances := p'.instances[id := p'.instances[id].(element := Some(element))]))
  }

  /** `Dispose`: give the instance back; the release hook runs on it. */
  function Dispose(p: ArgsPool, id: nat): (r: ArgsPool)
    requires id in p.instances
    ensures r.free == p.free + [id] && id in r.instances && r.instances[id].element.None?
    ensures r.instances.Keys == p.instances.Keys && r.nextInstance == p.nextInstance
    ensures forall other | other in p.instances && other != id :: r.instances[other] == p.instances[other]
  {
    p.(instances := p.instances[id := OnRelease(p.instances[id])], free := p.free + [id])
  }

  /** Disposing keeps the pool valid. */
  lemma DisposeKeepsValid(p: ArgsPool, id: nat)
    requires PoolValid(p) && id in p.instances && id !in p.free
    ensures PoolValid(Dispose(p, id))
  {
    var r := Dispose(p, id);
    forall i, j | 0 <= i < j < |r.free|
      ensures r.free[i] != r.free[j]
    {
      if j == |p.free| {
        assert r.free[i] == p.free[i];
      }
    }
  }

  /** An instance used for one element and given back carries nothing of
      it into its next use: the next `Create` reuses it and reports only the
      new element. */
  lemma NoStaleElement(p: ArgsPool, first: nat, second: nat)
    requires PoolValid(p)
    ensures var (id1, p1) := Create(p, first);
            && PoolValid(p1)
            && var p2 := Dispose(p1, id1);
            && PoolValid(p2)
            && p2.instances[id1].element.None?
            && var (id2, p3) := Create(p2, second);
               id2 == id1 && p3.instances[id2] == DestroyedArgs(Some(second))
  {
    var (id1, p1) := Create(p, first);
    DisposeKeepsValid(p1, id1);
  }
}

=== FILE: group_attributes.dfy ===
/** `InspectorAttributeUtility`: the begin/end pairing of group attributes.
    Each registered scope names a begin-group attribute type and the
    end-group attribute type that closes it; a lookup in either direction
    takes the first scope that matches and remembers its answer in a
    per-direction cache. The assembly scan is replaced by the sequence of
    registered scopes, and the two static caches are threaded through. */
module GroupAttributes {
  import opened Wrappers
  import opened Types

  const BeginGroupAttributeType: Ty := NamedClass("EasyToolkit.Inspector.Attributes.BeginGroupAttribute")
  const EndGroupAttributeType: Ty := NamedClass("EasyToolkit.Inspector.Attributes.EndGroupAttribute")

  /** A `RegisterGroupAttributeScopeAttribute`. */
  datatype Scope = Scope(begin: Ty, end: Ty)

  /** The two caches: begin type to end type, and end type to begin type. */
  datatype GroupCaches = GroupCaches(endOf: map<Ty, Ty>, beginOf: map<Ty, Ty>)

  const EmptyCaches: GroupCaches := GroupCaches(map[], map[])

  /** Which attribute type of a scope a lookup matches on. */
  datatype Side = BeginSide | EndSide

  function TypeOn(s: Scope, side: Side): Ty {
    match side
    case BeginSide => s.begin
    case EndSide => s.end
  }

  /** `FirstOrDefault` over the scopes: the first scope whose type on `side`
      is `t`. */
  function FirstScope(scopes: seq<Scope>, side: Side, t: Ty): (r: Option<nat>)
    ensures r.None? <==> forall i | 0 <= i < |scopes| :: TypeOn(scopes[i], side) != t
    ensures r.Some? ==> r.value < |scopes| && TypeOn(scopes[r.value], side) == t
                        && forall i | 0 <= i < r.value :: TypeOn(scopes[i], side) != t
    decreases |scopes|
  {
    if |scopes| == 0 then None
    else if TypeOn(scopes[0], side) == t then Some(0)
    else
      match FirstScope(scopes[1..], side, t)
      case None => None
      case Some(k) => Some(k + 1)
  }

  /** `GetCorrespondEndGroupAttributeType`: a cached answer is returned as
      is; otherwise the first scope opened by `begin` gives the end type,
      which is then cached, and no such scope is an invalid operation. */
  function EndTypeFor(scopes: seq<Scope>, caches: GroupCaches, begin: Ty): (r: (Outcome<Ty>, GroupCaches))
    ensures begin in caches.endOf ==> r == (Ok(caches.endOf[begin]), caches)
    ensures begin !in caches.endOf ==>
              && (r.0.Throws? <==> forall i | 0 <= i < |scopes| :: scopes[i].begin != begin)
              && (r.0.Throws? ==> r.0.error.InvalidOperationException? && r.1 == caches)
              && (r.0.Ok? ==> exists i | 0 <= i < |scopes| ::
                                && scopes[i].begin == begin && r.0.value == scopes[i].end
                                && forall j | 0 <= j < i :: scopes[j].begin != begin)
              && (r.0.Ok? ==> r.1 == caches.(endOf := caches.endOf[begin := r.0.value]))
  {
    if begin in caches.endOf then (Ok(caches.endOf[begin]), caches)
    else
      match FirstScope(scopes, BeginSide, begin)
      case None => (Throws(InvalidOperationException("Invalid begin group attribute type: " + begin.name)), caches)
      case Some(i) => (Ok(scopes[i].end), caches.(endOf := caches.endOf[begin := scopes[i].end]))
  }

  /** `GetCorrespondStartGroupAttributeType`: the same lookup in the other
      direction, through the other cache. */
  function BeginTypeFor(scopes: seq<Scope>, caches: GroupCaches, end: Ty): (r: (Outcome<Ty>, GroupCaches))
    ensures end in caches.beginOf ==> r == (Ok(caches.beginOf[end]), caches)
    ensures end !in caches.beginOf ==>
              && (r.0.Throws? <==> forall i | 0 <= i < |scopes| :: scopes[i].end != end)
              && (r.0.Throws? ==> r.0.error.InvalidOperationException? && r.1 == caches)
              && (r.0.Ok? ==> exists i | 0 <= i < |scopes| ::
                                && scopes[i].end == end && r.0.value == scopes[i].begin
                                && forall j | 0 <= j < i :: scopes[j].end != end)
              && (r.0.Ok? ==> r.1 == caches.(beginOf := caches.beginOf[end := r.0.value]))
  {
    if end in caches.beginOf then (Ok(caches.beginOf[end]), caches)
    else
      match FirstScope(scopes, EndSide, end)
      case None => (Throws(InvalidOperationException("Invalid end group attribute type: " + end.name)), caches)
      case Some(i) => (Ok(scopes[i].begin), caches.(beginOf := caches.beginOf[end := scopes[i].begin]))
  }

  /** `GetCorrespondGroupAttributeType`: null is rejected; a begin-group type
      (checked first) gives its end type, an end-group type its begin type,
      and anything else is an invalid argument. */
  function GetCorrespondGroupAttributeType(scopes: seq<Scope>, caches: GroupCaches, groupAttributeType: Option<Ty>)
    : (r: (Outcome<Ty>, GroupCaches))
    ensures groupAttributeType.None? ==> r == (Throws(ArgumentNullException("groupAttributeType")), caches)
    ensures groupAttributeType.Some? && !DerivesFrom(groupAttributeType.value, BeginGroupAttributeType)
              && !DerivesFrom(groupAttributeType.value, EndGroupAttributeType)
            ==> r == (Throws(ArgumentException("Invalid group attribute type: " + groupAttributeType.value.name)), caches)
    ensures r.0.Throws? ==> r.1 == caches
  {
    match groupAttributeType
    case None => (Throws(ArgumentNullException("groupAttributeType")), caches)
    case Some(t) =>
      if DerivesFrom(t, BeginGroupAttributeType) then EndTypeFor(scopes, caches, t)
      else if DerivesFrom(t, EndGroupAttributeType) then BeginTypeFor(scopes, caches, t)
      else (Throws(ArgumentException("Invalid group attribute type: " + t.name)), caches)
  }

  /** The answer the scopes alone give, without any cache. */
  function Uncached(scopes: seq<Scope>, t: Ty): (r: Outcome<Ty>)
  {
    if DerivesFrom(t, BeginGroupAttributeType) then
      match FirstScope(scopes, BeginSide, t)
      case None => Throws(InvalidOperationException("Invalid begin group attribute type: " + t.name))
      case Some(i) => Ok(scopes[i].end)
    else if DerivesFrom(t, EndGroupAttributeType) then
      match FirstScope(scopes, EndSide, t)
      case None => Throws(InvalidOperationException("Invalid end group attribute type: " + t.name))
      case Some(i) => Ok(scopes[i].begin)
    else Throws(ArgumentException("Invalid group attribute type: " + t.name))
  }

  /** The caches hold only what the scopes themselves answer. */
  ghost predicate CachesFaithful(scopes: seq<Scope>, caches: GroupCaches) {
    && (forall b | b in caches.endOf ::
          FirstScope(scopes, BeginSide, b).Some? && caches.endOf[b] == scopes[FirstScope(scopes, BeginSide, b).value].end)
    && (forall e | e in caches.beginOf ::
          FirstScope(scopes, EndSide, e).Some? && caches.beginOf[e] == scopes[FirstScope(scopes, EndSide, e).value].begin)
  }

  /** Caching is invisible: from faithful caches the lookup answers what the
      scopes answer, and leaves the caches faithful. */
  lemma CacheIsTransparent(scopes: seq<Scope>, caches: GroupCaches, t: Ty)
    requires CachesFaithful(scopes, caches)
    ensures GetCorrespondGroupAttributeType(scopes, caches, Some(t)).0 == Uncached(scopes, t)
    ensures CachesFaithful(scopes, GetCorrespondGroupAttributeType(scopes, caches, Some(t)).1)
  {
  }

  /** Asking twice gives the same answer, and the second time changes no
      cache. */
  lemma LookupIsStable(scopes: seq<Scope>, caches: GroupCaches, t: Ty)
    ensures var (r1, c1) := GetCorrespondGroupAttributeType(scopes, caches, Some(t));
            GetCorrespondGroupAttributeType(scopes, c1, Some(t)) == (r1, c1)
  {
  }

  /** Begin and end types pair up one to one: no two scopes share a begin
      type or an end type. */
  predicate OneToOne(scopes: seq<Scope>) {
    forall i, j | 0 <= i < j < |scopes| :: scopes[i].begin != scopes[j].begin && scopes[i].end != scopes[j].end
  }

  /** Going from a registered begin type to its end type and back gives the
      begin type again, provided the scopes pair one to one and neither type
      also derives from the other kind of group attribute. */
  lemma BeginEndRoundTrip(scopes: seq<Scope>, k: nat)
    requires OneToOne(scopes) && k < |scopes|
    requires DerivesFrom(scopes[k].begin, BeginGroupAttributeType)
    requires DerivesFrom(scopes[k].end, EndGroupAttributeType) && !DerivesFrom(scopes[k].end, BeginGroupAttributeType)
    ensures Uncached(scopes, scopes[k].begin) == Ok(scopes[k].end)
    ensures Uncached(scopes, scopes[k].end) == Ok(scopes[k].begin)
  {
  }

  /** From empty caches, a round trip through the cached lookup agrees with
      the scopes too. */
  lemma CachedRoundTrip(scopes: seq<Scope>, k: nat)
    requires OneToOne(scopes) && k < |scopes|
    requires DerivesFrom(scopes[k].begin, BeginGroupAttributeType)
    requires DerivesFrom(scopes[k].end, EndGroupAttributeType) && !DerivesFrom(scopes[k].end, BeginGroupAttributeType)
    ensures var (r1, c1) := GetCorrespondGroupAttributeType(scopes, EmptyCaches, Some(scopes[k].begin));
            && r1 == Ok(scopes[k].end)
            && GetCorrespondGroupAttributeType(scopes, c1, Some(r1.value)).0 == Ok(scopes[k].begin)
  {
    var (r1, c1) := GetCorrespondGroupAttributeType(scopes, EmptyCaches, Some(scopes[k].begin));
    CacheIsTransparent(scopes, EmptyCaches, scopes[k].begin);
    BeginEndRoundTrip(scopes, k);
    CacheIsTransparent(scopes, c1, scopes[k].end);
  }
}

=== FILE: handler_bases.dfy ===
/** The handler base classes and what they accept: `VisualProcessor`,
    `VisualBuilder` and their attribute, value, group and method refinements,
    plus `EasyMethodAttributeDrawer`. Each refinement narrows `CanHandle` to an
    element kind and then defers to an overridable hook that defaults to
    `true`; the value refinements also demand the exact value type. */
module HandlerBases {
  import opened Wrappers
  import opened Types

  /** What the `CanHandle` checks read from an element: which element
      interfaces it implements, and its value type when it is an
      `IValueElement`. */
  datatype ElementView = ElementView(isLogical: bool, isGroup: bool, isMethod: bool, valueType: Option<Ty>)

  /** The base class a handler derives from, with the closed type argument the
      check compares against where there is one. */
  datatype HandlerBase =
    | PlainProcessor                      // VisualProcessor
    | PlainBuilder                        // VisualBuilder
    | AttributeBuilder                    // VisualAttributeBuilder<TAttribute>
    | AttributeValueBuilder(tvalue: Ty)   // VisualAttributeBuilder<TAttribute, TValue>
    | ValueProcessor(tvalue: Ty)          // VisualValueProcessor<TValue>
    | GroupProcessor                      // VisualGroupProcessor<TAttribute>
    | GroupBuilder                        // VisualGroupBuilder<TAttribute>
    | MethodProcessor                     // VisualMethodProcessor<TAttribute>
    | MethodBuilder                       // VisualMethodBuilder<TAttribute>
    | MethodAttributeDrawer               // EasyMethodAttributeDrawer<TAttribute>

  /** The virtual hooks a concrete handler may override: the element hook
      (`CanProcess` / `CanBuild` on the plain bases, `Can…Element` on the
      refinements) and the value-type hook (`Can…ValueType`). */
  datatype Hooks = Hooks(elementHook: ElementView -> bool, valueTypeHook: Ty -> bool)

  /** Hooks nobody overrode: both answer `true`. */
  const DefaultHooks: Hooks := Hooks(_ => true, _ => true)

  /** `IHandler.CanHandle` of a handler deriving from `b`. */
  function CanHandle(b: HandlerBase, hooks: Hooks, e: ElementView): (r: bool)
    ensures r ==> KindMatches(b, e) && hooks.elementHook(e)
    ensures (b.PlainProcessor? || b.PlainBuilder?) ==> (r <==> hooks.elementHook(e))
  {
    match b
    case PlainProcessor => hooks.elementHook(e)
    case PlainBuilder => hooks.elementHook(e)
    case AttributeBuilder => e.isLogical && hooks.elementHook(e)
    case AttributeValueBuilder(tvalue) =>
      e.valueType.Some? && e.valueType.value == tvalue && hooks.valueTypeHook(tvalue) && hooks.elementHook(e)
    case ValueProcessor(tvalue) =>
      e.valueType.Some? && e.valueType.value == tvalue && hooks.valueTypeHook(tvalue) && hooks.elementHook(e)
    case GroupProcessor => e.isGroup && hooks.elementHook(e)
    case GroupBuilder => e.isGroup && hooks.elementHook(e)
    case MethodProcessor => e.isMethod && hooks.elementHook(e)
    case MethodBuilder => e.isMethod && hooks.elementHook(e)
    case MethodAttributeDrawer => e.isMethod && hooks.elementHook(e)
  }

  /** The element kind a base class requires, stated per interface. */
  predicate KindMatches(b: HandlerBase, e: ElementView) {
    && (b.AttributeBuilder? ==> e.isLogical)
    && ((b.AttributeValueBuilder? || b.ValueProcessor?) ==> e.valueType == Some(b.tvalue))
    && ((b.GroupProcessor? || b.GroupBuilder?) ==> e.isGroup)
    && ((b.MethodProcessor? || b.MethodBuilder? || b.MethodAttributeDrawer?) ==> e.isMethod)
  }

  /** With no overridden hook, a handler accepts exactly the elements of its
      kind. */
  lemma DefaultHooksAcceptKind(b: HandlerBase, e: ElementView)
    ensures CanHandle(b, DefaultHooks, e) <==> KindMatches(b, e)
  {
  }

  /** Hooks only narrow: whatever a handler accepts, its kind matches and both
      hooks agreed. */
  lemma HooksOnlyNarrow(b: HandlerBase, hooks: Hooks, e: ElementView)
    ensures CanHandle(b, hooks, e) <==>
              && KindMatches(b, e)
              && hooks.elementHook(e)
              && ((b.AttributeValueBuilder? || b.ValueProcessor?) ==> hooks.valueTypeHook(b.tvalue))
  {
  }

  /** The value check is type equality, not assignability: an element whose
      value type merely derives from `TValue` is rejected. */
  lemma ValueCheckIsExact(b: HandlerBase, hooks: Hooks, e: ElementView)
    requires b.AttributeValueBuilder? || b.ValueProcessor?
    requires e.valueType.Some? && e.valueType.value != b.tvalue
    ensures !CanHandle(b, hooks, e)
  {
  }

  /** A method builder overrides the attribute builder's check: a method
      element is accepted whether or not it is a logical element. */
  lemma MethodBuilderIgnoresLogical(hooks: Hooks, e: ElementView)
    requires forall x: ElementView :: hooks.elementHook(x)
    ensures CanHandle(MethodBuilder, hooks, e) == e.isMethod
    ensures CanHandle(MethodBuilder, hooks, e.(isLogical := false)) == CanHandle(MethodBuilder, hooks, e.(isLogical := true))
  {
  }

  // ---------------------------------------------------------------------------
  // Memoised accessors
  // ---------------------------------------------------------------------------

  /** A lazily filled field (`_attribute`, `_valueEntry`): `None` while unset.
      The getter computes when the field is null and stores the result, so a
      null result is computed again on the next read. */
  function ReadLazy<T>(field: Option<T>, computed: Option<T>): (r: (Option<T>, Option<T>))
    ensures r.0 == r.1
    ensures field.Some? ==> r.0 == field
    ensures field.None? ==> r.0 == computed
  {
    if field.Some? then (field, field) else (computed, computed)
  }

  /** Once a read produced a value, every later read returns it, whatever the
      lookup would now compute. */
  lemma LazyIsStable<T>(field: Option<T>, first: Option<T>, later: Option<T>)
    requires ReadLazy(field, first).0.Some?
    ensures var (v1, f1) := ReadLazy(field, first);
            ReadLazy(f1, later) == (v1, f1)
  {
  }

  /** A null result is not memoised: the next read asks again. */
  lemma LazyRetriesNull<T>(first: Option<T>, later: Option<T>)
    requires first.None?
    ensures ReadLazy(ReadLazy(None, first).1, later).0 == later
  {
  }

  // ---------------------------------------------------------------------------
  // Initialise-once handlers
  // ---------------------------------------------------------------------------

  /** A processor or builder instance: the element and chain it is bound to
      (element and chain identities), its `_isInitialized` flag, and how often
      its `Initialize` and work hooks (`Process`, `CreateVisualElement`) ran. */
  datatype HandlerInstance = HandlerInstance(
    handlerType: Ty,
    element: Option<nat>,
    chain: Option<nat>,
    isInitialized: bool,
    initializeCalls: nat,
    workCalls: nat)

  /** `GetUninitializedObject` / pool rent: nothing bound, nothing run. */
  function FreshInstance(handlerType: Ty): (h: HandlerInstance)
    ensures h.handlerType == handlerType && !h.isInitialized
    ensures h.element.None? && h.chain.None? && h.initializeCalls == 0 && h.workCalls == 0
  {
    HandlerInstance(handlerType, None, None, false, 0, 0)
  }

  /** `EnsureInitialize`. */
  function EnsureInitialize(h: HandlerInstance): (r: HandlerInstance)
    ensures r.isInitialized
    ensures r.initializeCalls == h.initializeCalls + (if h.isInitialized then 0 else 1)
    ensures r == h.(isInitialized := true, initializeCalls := r.initializeCalls)
  {
    if h.isInitialized then h else h.(isInitialized := true, initializeCalls := h.initializeCalls + 1)
  }

  /** `IVisualProcessor.Process` and `IVisualBuilder.CreateVisualElement`:
      initialise if needed, then do the work. */
  function Work(h: HandlerInstance): (r: HandlerInstance)
    ensures r.isInitialized && r.workCalls == h.workCalls + 1
    ensures r.handlerType == h.handlerType && r.element == h.element && r.chain == h.chain
  {
    var i := EnsureInitialize(h);
    i.(workCalls := i.workCalls + 1)
  }

  function WorkTimes(h: HandlerInstance, n: nat): HandlerInstance
    decreases n
  {
    if n == 0 then h else WorkTimes(Work(h), n - 1)
  }

  /** However often a fresh handler works, it initialises exactly once, before
      the first piece of work. */
  lemma {:induction false} InitializeRunsOnce(h: HandlerInstance, n: nat)
    requires n >= 1
    requires h.initializeCalls <= 1 && (h.isInitialized <==> h.initializeCalls == 1)
    ensures WorkTimes(h, n).isInitialized && WorkTimes(h, n).initializeCalls == 1
    ensures WorkTimes(h, n).workCalls == h.workCalls + n
    decreases n
  {
    if n > 1 {
      InitializeRunsOnce(Work(h), n - 1);
    }
  }

  /** The `IHandler.Element` and `IVisualProcessor.Chain` setters, as the
      chain calls them together: the handler is bound to the element and the
      chain, and nothing else about it changes. */
  function BindToChain(h: HandlerInstance, element: nat, chain: nat): (r: HandlerInstance)
    ensures r.element == Some(element) && r.chain == Some(chain)
    ensures r.(element := h.element, chain := h.chain) == h
  {
    h.(element := Some(element), chain := Some(chain))
  }
}

=== FILE: handler_priority.dfy ===
/** Handler priorities: the standard priority levels, the fallback functions
    that infer a priority from a handler's generic base class, and the
    three-step choice `HandlerUtility.GetHandlerPriority` makes. An
    `OrderPriority` is modelled by its numeric value; a higher value is matched
    and executed earlier. */
module HandlerPriority {
  import opened Wrappers
  import opened Types

  // VisualProcessorPriorityLevel
  const VisualProcessorLowest: int := -100000
  const VisualProcessorValue: int := 100000
  const VisualProcessorAttribute: int := 200000
  const VisualProcessorSuper: int := 300000

  // VisualBuilderPriorityLevel
  const VisualBuilderLowest: int := -100000
  const VisualBuilderValue: int := 100000
  const VisualBuilderAttribute: int := 200000
  const VisualBuilderSuper: int := 300000

  /** One check of a fallback function: "if the type implements the generic
      definition, answer this priority". */
  datatype FallbackRule = FallbackRule(genericDefinition: string, priority: int)

  /** A registered fallback: its rules are tried in order; no rule applying is
      the function's `null`. */
  type Fallback = seq<FallbackRule>

  function ApplyFallback(f: Fallback, t: Ty): Option<int>
  {
    if |f| == 0 then None
    else if ImplementsGenericDefinition(t, f[0].genericDefinition) then Some(f[0].priority)
    else ApplyFallback(f[1..], t)
  }

  /** The first rule that applies decides; no applying rule gives no priority. */
  lemma {:induction false} ApplyFallbackFirstRule(f: Fallback, t: Ty, i: nat)
    requires i < |f| && ImplementsGenericDefinition(t, f[i].genericDefinition)
    requires forall j | 0 <= j < i :: !ImplementsGenericDefinition(t, f[j].genericDefinition)
    ensures ApplyFallback(f, t) == Some(f[i].priority)
  {
    if i > 0 {
      ApplyFallbackFirstRule(f[1..], t, i - 1);
    }
  }

  lemma {:induction false} ApplyFallbackNoRule(f: Fallback, t: Ty)
    requires forall j | 0 <= j < |f| :: !ImplementsGenericDefinition(t, f[j].genericDefinition)
    ensures ApplyFallback(f, t) == None
  {
    if |f| > 0 {
      ApplyFallbackNoRule(f[1..], t);
    }
  }

  /** The fallback VisualProcessorUtility registers: attribute and group
      processors rank at the Attribute level, value processors at the Value
      level, checked in that order. */
  const VisualProcessorFallback: Fallback := [
    FallbackRule("VisualAttributeProcessor`1", VisualProcessorAttribute),
    FallbackRule("VisualGroupProcessor`1", VisualProcessorAttribute),
    FallbackRule("VisualValueProcessor`1", VisualProcessorValue)
  ]

  /** The fallback InspectorDrawerUtility registers. The drawer levels live in a
      file outside this model, so they are parameters. Whatever type it is
      asked about, it answers one of the two drawer levels or nothing. */
  function DrawerFallback(attributePriority: int, valuePriority: int): (f: Fallback)
    ensures forall t :: ApplyFallback(f, t).Some? ==>
                          ApplyFallback(f, t).value == attributePriority || ApplyFallback(f, t).value == valuePriority
  {
    var f := [
      FallbackRule("EasyAttributeDrawer`1", attributePriority),
      FallbackRule("EasyGroupAttributeDrawer`1", attributePriority),
      FallbackRule("EasyValueDrawer`1", valuePriority)
    ];
    assert forall t :: ApplyFallback(f, t).Some? ==>
                         ApplyFallback(f, t).value == attributePriority || ApplyFallback(f, t).value == valuePriority by {
      forall t
        ensures ApplyFallback(f, t).Some? ==>
                  ApplyFallback(f, t).value == attributePriority || ApplyFallback(f, t).value == valuePriority
      {
        ThreeRuleFallback(f, t);
      }
    }
    f
  }

  lemma VisualProcessorFallbackLevels(t: Ty)
    ensures (ImplementsGenericDefinition(t, "VisualAttributeProcessor`1")
             || ImplementsGenericDefinition(t, "VisualGroupProcessor`1"))
            ==> ApplyFallback(VisualProcessorFallback, t) == Some(VisualProcessorAttribute)
    ensures (!ImplementsGenericDefinition(t, "VisualAttributeProcessor`1")
             && !ImplementsGenericDefinition(t, "VisualGroupProcessor`1")
             && ImplementsGenericDefinition(t, "VisualValueProcessor`1"))
            ==> ApplyFallback(VisualProcessorFallback, t) == Some(VisualProcessorValue)
    ensures ApplyFallback(VisualProcessorFallback, t).None?
            <==> (!ImplementsGenericDefinition(t, "VisualAttributeProcessor`1")
                  && !ImplementsGenericDefinition(t, "VisualGroupProcessor`1")
                  && !ImplementsGenericDefinition(t, "VisualValueProcessor`1"))
  {
    ThreeRuleFallback(VisualProcessorFallback, t);
  }

  lemma DrawerFallbackLevels(attributePriority: int, valuePriority: int, t: Ty)
    ensures (ImplementsGenericDefinition(t, "EasyAttributeDrawer`1")
             || ImplementsGenericDefinition(t, "EasyGroupAttributeDrawer`1"))
            ==> ApplyFallback(DrawerFallback(attributePriority, valuePriority), t) == Some(attributePriority)
    ensures (!ImplementsGenericDefinition(t, "EasyAttributeDrawer`1")
             && !ImplementsGenericDefinition(t, "EasyGroupAttributeDrawer`1")
             && ImplementsGenericDefinition(t, "EasyValueDrawer`1"))
            ==> ApplyFallback(DrawerFallback(attributePriority, valuePriority), t) == Some(valuePriority)
    ensures ApplyFallback(DrawerFallback(attributePriority, valuePriority), t).None?
            <==> (!ImplementsGenericDefinition(t, "EasyAttributeDrawer`1")
                  && !ImplementsGenericDefinition(t, "EasyGroupAttributeDrawer`1")
                  && !ImplementsGenericDefinition(t, "EasyValueDrawer`1"))
  {
    ThreeRuleFallback(DrawerFallback(attributePriority, valuePriority), t);
  }

  /** A three-rule fallback, unfolded. */
  lemma ThreeRuleFallback(f: Fallback, t: Ty)
    requires |f| == 3
    ensures ApplyFallback(f, t)
            == if ImplementsGenericDefinition(t, f[0].genericDefinition) then Some(f[0].priority)
               else if ImplementsGenericDefinition(t, f[1].genericDefinition) then Some(f[1].priority)
               else if ImplementsGenericDefinition(t, f[2].genericDefinition) then Some(f[2].priority)
               else None
  {
    var f1 := f[1..];
    var f2 := f1[1..];
    assert f1[0] == f[1] && f2[0] == f[2] && |f2[1..]| == 0;
    assert ApplyFallback(f2[1..], t) == None;
    assert ApplyFallback(f2, t) == if ImplementsGenericDefinition(t, f[2].genericDefinition) then Some(f[2].priority) else None;
    assert ApplyFallback(f1, t)
           == if ImplementsGenericDefinition(t, f[1].genericDefinition) then Some(f[1].priority) else ApplyFallback(f2, t);
  }

  /** The first `IPriorityAccessor` attribute's priority, if any. */
  function MarkerPriority(attributes: seq<TypeAttribute>): (r: Option<int>)
    ensures r.Some? <==> exists k | 0 <= k < |attributes| :: attributes[k].PriorityMarker?
    ensures r.Some? ==> exists k | 0 <= k < |attributes| ::
                          && attributes[k] == PriorityMarker(r.value)
                          && forall j | 0 <= j < k :: !attributes[j].PriorityMarker?
  {
    if |attributes| == 0 then None
    else if attributes[0].PriorityMarker? then Some(attributes[0].priority)
    else
      var r := MarkerPriority(attributes[1..]);
      assert forall k | 1 <= k < |attributes| :: attributes[k] == attributes[1..][k - 1];
      r
  }

  /** The first non-null answer of the fallbacks, in registration order. */
  function FirstFallbackPriority(fallbacks: seq<Fallback>, t: Ty): (r: Option<int>)
    ensures r.Some? <==> exists i | 0 <= i < |fallbacks| :: ApplyFallback(fallbacks[i], t).Some?
    ensures r.Some? ==> exists i | 0 <= i < |fallbacks| ::
                          && ApplyFallback(fallbacks[i], t) == r
                          && forall j | 0 <= j < i :: ApplyFallback(fallbacks[j], t).None?
  {
    if |fallbacks| == 0 then None
    else if ApplyFallback(fallbacks[0], t).Some? then ApplyFallback(fallbacks[0], t)
    else
      var r := FirstFallbackPriority(fallbacks[1..], t);
      assert forall i | 1 <= i < |fallbacks| :: fallbacks[i] == fallbacks[1..][i - 1];
      r
  }

  /** `GetHandlerPriority`: an explicit marker wins, then the fallbacks in
      registration order, then the default. */
  function GetHandlerPriority(t: Ty, fallbacks: seq<Fallback>, defaultPriority: int): (p: int)
    ensures MarkerPriority(InheritedAttributes(t)).Some? ==> p == MarkerPriority(InheritedAttributes(t)).value
    ensures (MarkerPriority(InheritedAttributes(t)).None? && FirstFallbackPriority(fallbacks, t).Some?)
            ==> p == FirstFallbackPriority(fallbacks, t).value
    ensures (MarkerPriority(InheritedAttributes(t)).None? && FirstFallbackPriority(fallbacks, t).None?)
            ==> p == defaultPriority
  {
    match MarkerPriority(InheritedAttributes(t))
    case Some(m) => m
    case None =>
      match FirstFallbackPriority(fallbacks, t)
      case Some(f) => f
      case None => defaultPriority
  }

  /** Registering a fallback later never changes the priority of a type an
      earlier source already decides. */
  lemma AppendedFallbackKeepsDecided(t: Ty, fallbacks: seq<Fallback>, f: Fallback, defaultPriority: int)
    requires MarkerPriority(InheritedAttributes(t)).Some? || FirstFallbackPriority(fallbacks, t).Some?
    ensures GetHandlerPriority(t, fallbacks + [f], defaultPriority) == GetHandlerPriority(t, fallbacks, defaultPriority)
  {
    if MarkerPriority(InheritedAttributes(t)).None? {
      FirstFallbackPrefix(fallbacks, f, t);
    }
  }

  /** A type no earlier source decides gets the new fallback's answer, or the
      default when it has none either. */
  lemma AppendedFallbackDecidesRest(t: Ty, fallbacks: seq<Fallback>, f: Fallback, defaultPriority: int)
    requires MarkerPriority(InheritedAttributes(t)).None? && FirstFallbackPriority(fallbacks, t).None?
    ensures GetHandlerPriority(t, fallbacks + [f], defaultPriority) == ApplyFallback(f, t).GetOr(defaultPriority)
  {
    var fs := fallbacks + [f];
    assert fs[|fallbacks|] == f;
    assert forall j | 0 <= j < |fallbacks| :: fs[j] == fallbacks[j];
    if ApplyFallback(f, t).None? {
      assert forall j | 0 <= j < |fs| :: ApplyFallback(fs[j], t).None?;
    }
  }

  lemma {:induction false} FirstFallbackPrefix(fallbacks: seq<Fallback>, f: Fallback, t: Ty)
    requires FirstFallbackPriority(fallbacks, t).Some?
    ensures FirstFallbackPriority(fallbacks + [f], t) == FirstFallbackPriority(fallbacks, t)
  {
    var fs := fallbacks + [f];
    assert fs[0] == fallbacks[0];
    if ApplyFallback(fallbacks[0], t).None? {
      assert fs[1..] == fallbacks[1..] + [f];
      FirstFallbackPrefix(fallbacks[1..], f, t);
    }
  }
}

=== FILE: handler_query.dfy ===
/** Handler lookup for one element (`HandlerUtility.GetHandlerTypes`,
    `GetFirstElementType`, `GetHandlerTypeResults`) and the per-capability
    utilities that build the query vectors from an element's attributes
    (`VisualProcessorUtility`, `VisualBuilderUtility`, `EasyDrawerUtility`).

    The type matcher's own matching and merging live outside this model: they
    are the function values of `MatcherOps`. Instantiating a handler and asking
    `CanHandle` is the function value `canHandle`. */
module HandlerQuery {
  import opened Wrappers
  import opened Types

  /** What handler lookup reads from an element: its value type when it is an
      `IValueElement`, and the types of its attributes in enumeration order. */
  datatype ElementQuery = ElementQuery(valueType: Option<Ty>, attributeTypes: seq<Ty>)

  /** `GetMatches` for one query vector, and `GetMergedResults` over the
      per-vector results; only the matched types are kept. */
  datatype MatcherOps = MatcherOps(getMatches: seq<Ty> -> seq<Ty>, merge: seq<seq<Ty>> -> seq<Ty>)

  // ---------------------------------------------------------------------------
  // Query vectors
  // ---------------------------------------------------------------------------

  /** The vectors `GetHandlerTypeResults` queries: the empty vector, then the
      value type for value elements, then the caller's additional vectors. */
  function QueryVectors(q: ElementQuery, additional: Option<seq<seq<Ty>>>): (vs: seq<seq<Ty>>)
    ensures |vs| >= 1 && vs[0] == []
    ensures q.valueType.Some? ==> |vs| >= 2 && vs[1] == [q.valueType.value]
    ensures var offset := if q.valueType.Some? then 2 else 1;
            var extra := additional.GetOr([]);
            && |vs| == offset + |extra|
            && forall k | 0 <= k < |extra| :: vs[offset + k] == extra[k]
  {
    [[]] + (if q.valueType.Some? then [[q.valueType.value]] else []) + additional.GetOr([])
  }

  /** The merged matcher results for an element: the matches of the empty
      vector, then of the value type for a value element, then of each
      additional vector, handed to the merge in that order. */
  function GetHandlerTypeResults(ops: MatcherOps, q: ElementQuery, additional: Option<seq<seq<Ty>>>): (r: seq<Ty>)
    ensures r == ops.merge(MatchLists(ops, q, additional))
    ensures additional.None? && q.valueType.None? ==> r == ops.merge([ops.getMatches([])])
    ensures additional.None? && q.valueType.Some? ==>
              r == ops.merge([ops.getMatches([]), ops.getMatches([q.valueType.value])])
  {
    var vs := QueryVectors(q, additional);
    var lists := seq(|vs|, k requires 0 <= k < |vs| => ops.getMatches(vs[k]));
    MatchListsLayout(ops, q, additional);
    ops.merge(lists)
  }

  /** The per-vector match lists, stated without the vectors. */
  function MatchLists(ops: MatcherOps, q: ElementQuery, additional: Option<seq<seq<Ty>>>): seq<seq<Ty>>
  {
    var extra := additional.GetOr([]);
    [ops.getMatches([])]
    + (if q.valueType.Some? then [ops.getMatches([q.valueType.value])] else [])
    + seq(|extra|, k requires 0 <= k < |extra| => ops.getMatches(extra[k]))
  }

  /** Matching each query vector in turn gives the match lists in the order
      the vectors are built. */
  lemma MatchListsLayout(ops: MatcherOps, q: ElementQuery, additional: Option<seq<seq<Ty>>>)
    ensures var vs := QueryVectors(q, additional);
            seq(|vs|, k requires 0 <= k < |vs| => ops.getMatches(vs[k])) == MatchLists(ops, q, additional)
    ensures additional.None? && q.valueType.None? ==> MatchLists(ops, q, additional) == [ops.getMatches([])]
    ensures additional.None? && q.valueType.Some? ==>
              MatchLists(ops, q, additional) == [ops.getMatches([]), ops.getMatches([q.valueType.value])]
  {
    var extra := additional.GetOr([]);
    var tail := seq(|extra|, k requires 0 <= k < |extra| => ops.getMatches(extra[k]));
    var head := [ops.getMatches([])] + (if q.valueType.Some? then [ops.getMatches([q.valueType.value])] else []);
    assert MatchLists(ops, q, additional) == head + tail;
    if additional.None? {
      assert tail == [];
      assert head + tail == head;
    }
    if q.valueType.None? {
      assert head == [ops.getMatches([])];
    } else {
      assert head == [ops.getMatches([]), ops.getMatches([q.valueType.value])];
    }
  }

  /** The additional vectors the capability utilities build: `[attr]` for each
      attribute and, for a value element, `[attr, valueType]` right after it. */
  function AttributeVectors(q: ElementQuery): (vs: seq<seq<Ty>>)
    ensures q.valueType.None? ==> |vs| == |q.attributeTypes|
    ensures q.valueType.Some? ==> |vs| == 2 * |q.attributeTypes|
    decreases |q.attributeTypes|
  {
    if |q.attributeTypes| == 0 then []
    else
      var a := q.attributeTypes[0];
      var these := if q.valueType.Some? then [[a], [a, q.valueType.value]] else [[a]];
      these + AttributeVectors(q.(attributeTypes := q.attributeTypes[1..]))
  }

  /** The vector layout by index: attribute `i` owns the vector at `i`, or the
      pair at `2i` and `2i + 1` for a value element. */
  lemma {:induction false} AttributeVectorsLayout(q: ElementQuery, i: nat)
    requires i < |q.attributeTypes|
    ensures q.valueType.None? ==> AttributeVectors(q)[i] == [q.attributeTypes[i]]
    ensures q.valueType.Some? ==> AttributeVectors(q)[2 * i] == [q.attributeTypes[i]]
    ensures q.valueType.Some? ==> AttributeVectors(q)[2 * i + 1] == [q.attributeTypes[i], q.valueType.value]
    decreases i
  {
    var rest := q.(attributeTypes := q.attributeTypes[1..]);
    var a := q.attributeTypes[0];
    var tail := AttributeVectors(rest);
    if q.valueType.Some? {
      var these := [[a], [a, q.valueType.value]];
      assert AttributeVectors(q) == these + tail;
      if i > 0 {
        AttributeVectorsLayout(rest, i - 1);
        assert rest.attributeTypes[i - 1] == q.attributeTypes[i];
        assert (these + tail)[2 * i] == tail[2 * (i - 1)];
        assert (these + tail)[2 * i + 1] == tail[2 * (i - 1) + 1];
      }
    } else {
      assert AttributeVectors(q) == [[a]] + tail;
      if i > 0 {
        AttributeVectorsLayout(rest, i - 1);
        assert rest.attributeTypes[i - 1] == q.attributeTypes[i];
        assert ([[a]] + tail)[i] == tail[i - 1];
      }
    }
  }

  // ---------------------------------------------------------------------------
  // Filtering the merged results
  // ---------------------------------------------------------------------------

  /** Whether a matched type passes the optional type filter and `CanHandle`. */
  predicate Accepts(filter: Option<Ty -> bool>, canHandle: Ty -> bool, t: Ty) {
    (filter.None? || filter.value(t)) && canHandle(t)
  }

  /** The accepted types of `results`, each once, in order of first
      appearance: the reference for `GetHandlerTypes`. */
  function AcceptedTypes(results: seq<Ty>, filter: Option<Ty -> bool>, canHandle: Ty -> bool): (r: seq<Ty>)
    ensures forall t :: t in r <==> t in results && Accepts(filter, canHandle, t)
    ensures forall i, j | 0 <= i < j < |r| :: r[i] != r[j]
    decreases |results|
  {
    if |results| == 0 then []
    else
      var init := results[..|results| - 1];
      var last := results[|results| - 1];
      var r := AcceptedTypes(init, filter, canHandle);
      assert results == init + [last];
      if last !in r && Accepts(filter, canHandle, last) then r + [last] else r
  }

  /** Results keep the order in which the matcher ranked them: an earlier
      accepted type first appears earlier in the merged results. */
  lemma {:induction false} AcceptedTypesOrder(results: seq<Ty>, filter: Option<Ty -> bool>, canHandle: Ty -> bool,
                                              i: nat, j: nat)
    requires i < j < |AcceptedTypes(results, filter, canHandle)|
    ensures var r := AcceptedTypes(results, filter, canHandle);
            exists a, b | 0 <= a < b < |results| ::
              && results[a] == r[i] && results[b] == r[j]
              && r[j] !in results[..b]
    decreases |results|
  {
    var r := AcceptedTypes(results, filter, canHandle);
    var init := results[..|results| - 1];
    var last := results[|results| - 1];
    var r0 := AcceptedTypes(init, filter, canHandle);
    assert results == init + [last];
    if j < |r0| {
      assert r[i] == r0[i] && r[j] == r0[j];
      AcceptedTypesOrder(init, filter, canHandle, i, j);
      var a, b :| 0 <= a < b < |init| && init[a] == r0[i] && init[b] == r0[j] && r0[j] !in init[..b];
      assert results[a] == init[a] && results[b] == init[b] && results[..b] == init[..b];
    } else {
      assert r == r0 + [last] && r[j] == last && last !in r0;
      assert r[i] == r0[i] && r0[i] in init;
      var a :| 0 <= a < |init| && init[a] == r0[i];
      assert results[a] == r[i];
      assert results[..|results| - 1] == init;
      assert |results| - 1 > a;
    }
  }

  /** The first accepted type of `results`, if any: the reference for
      `GetFirstElementType`. */
  function FirstAcceptedType(results: seq<Ty>, filter: Option<Ty -> bool>, canHandle: Ty -> bool): (r: Option<Ty>)
    ensures r.None? <==> forall k | 0 <= k < |results| :: !Accepts(filter, canHandle, results[k])
    ensures r.Some? ==> exists k | 0 <= k < |results| ::
                          && results[k] == r.value
                          && Accepts(filter, canHandle, r.value)
                          && forall j | 0 <= j < k :: !Accepts(filter, canHandle, results[j])
    decreases |results|
  {
    if |results| == 0 then None
    else if Accepts(filter, canHandle, results[0]) then
      Some(results[0])
    else
      var r := FirstAcceptedType(results[1..], filter, canHandle);
      assert forall k | 1 <= k < |results| :: results[k] == results[1..][k - 1];
      r
  }

  /** The first handler is the head of the handler list. */
  lemma {:induction false} FirstIsHeadOfAll(results: seq<Ty>, filter: Option<Ty -> bool>, canHandle: Ty -> bool)
    ensures var all := AcceptedTypes(results, filter, canHandle);
            FirstAcceptedType(results, filter, canHandle) == if |all| == 0 then None else Some(all[0])
    decreases |results|
  {
    if |results| > 0 {
      var init := results[..|results| - 1];
      var last := results[|results| - 1];
      var all := AcceptedTypes(results, filter, canHandle);
      var r0 := AcceptedTypes(init, filter, canHandle);
      assert results == init + [last];
      assert all == if last !in r0 && Accepts(filter, canHandle, last) then r0 + [last] else r0;
      FirstIsHeadOfAll(init, filter, canHandle);
      if FirstAcceptedType(init, filter, canHandle).Some? {
        FirstKeptByExtension(results, filter, canHandle);
        assert all[0] == r0[0];
      } else {
        FirstAfterNoneAccepted(results, filter, canHandle);
      }
    }
  }

  /** Appending a result does not change an existing first accepted type. */
  lemma FirstKeptByExtension(results: seq<Ty>, filter: Option<Ty -> bool>, canHandle: Ty -> bool)
    requires |results| > 0 && FirstAcceptedType(results[..|results| - 1], filter, canHandle).Some?
    ensures FirstAcceptedType(results, filter, canHandle) == FirstAcceptedType(results[..|results| - 1], filter, canHandle)
  {
    var init := results[..|results| - 1];
    var v := FirstAcceptedType(init, filter, canHandle).value;
    var k :| 0 <= k < |init| && init[k] == v && Accepts(filter, canHandle, v)
             && forall j | 0 <= j < k :: !Accepts(filter, canHandle, init[j]);
    assert forall j | 0 <= j <= k :: results[j] == init[j];
    FirstAcceptedAt(results, filter, canHandle, k);
  }

  /** When nothing before the last result is accepted, the last result decides. */
  lemma FirstAfterNoneAccepted(results: seq<Ty>, filter: Option<Ty -> bool>, canHandle: Ty -> bool)
    requires |results| > 0 && FirstAcceptedType(results[..|results| - 1], filter, canHandle).None?
    ensures var last := results[|results| - 1];
            FirstAcceptedType(results, filter, canHandle)
            == if Accepts(filter, canHandle, last) then Some(last) else None
  {
    var init := results[..|results| - 1];
    var last := results[|results| - 1];
    assert forall j | 0 <= j < |init| :: !Accepts(filter, canHandle, init[j]);
    assert forall j | 0 <= j < |init| :: results[j] == init[j];
    if Accepts(filter, canHandle, last) {
      FirstAcceptedAt(results, filter, canHandle, |results| - 1);
    } else {
      assert forall j | 0 <= j < |results| :: !Accepts(filter, canHandle, results[j]);
    }
  }

  lemma {:induction false} FirstAcceptedAt(results: seq<Ty>, filter: Option<Ty -> bool>, canHandle: Ty -> bool, k: nat)
    requires k < |results| && Accepts(filter, canHandle, results[k])
    requires forall j | 0 <= j < k :: !Accepts(filter, canHandle, results[j])
    ensures FirstAcceptedType(results, filter, canHandle) == Some(results[k])
    decreases k
  {
    if k > 0 {
      assert forall j | 0 <= j < k - 1 :: results[1..][j] == results[j + 1];
      FirstAcceptedAt(results[1..], filter, canHandle, k - 1);
    }
  }

  // ---------------------------------------------------------------------------
  // The lookups
  // ---------------------------------------------------------------------------

  /** `GetHandlerTypes`: walks the merged results once, skipping types already
      yielded, types the filter rejects and types that cannot handle the
      element. */
  method GetHandlerTypes(ops: MatcherOps, q: ElementQuery, filter: Option<Ty -> bool>, canHandle: Ty -> bool,
                         additional: Option<seq<seq<Ty>>>)
    returns (handlers: seq<Ty>)
    ensures handlers == AcceptedTypes(GetHandlerTypeResults(ops, q, additional), filter, canHandle)
    ensures forall t :: t in handlers <==> t in GetHandlerTypeResults(ops, q, additional) && Accepts(filter, canHandle, t)
    ensures forall i, j | 0 <= i < j < |handlers| :: handlers[i] != handlers[j]
  {
    var results := GetHandlerTypeResults(ops, q, additional);
    var yielded: set<Ty> := {};
    handlers := [];
    var i := 0;
    while i < |results|
      invariant 0 <= i <= |results|
      invariant handlers == AcceptedTypes(results[..i], filter, canHandle)
      invariant yielded == set t | t in handlers
    {
      var t := results[i];
      assert results[..i + 1] == results[..i] + [t];
      assert results[..i + 1][..i] == results[..i];
      if t !in yielded {
        if filter.None? || filter.value(t) {
          if canHandle(t) {
            yielded := yielded + {t};
            handlers := handlers + [t];
          }
        }
      }
      i := i + 1;
    }
    assert results[..i] == results;
  }

  /** `GetFirstElementType`: the first merged result that passes the filter and
      can handle the element, or `null`. */
  method GetFirstElementType(ops: MatcherOps, q: ElementQuery, filter: Option<Ty -> bool>, canHandle: Ty -> bool,
                             additional: Option<seq<seq<Ty>>>)
    returns (first: Option<Ty>)
    ensures first == FirstAcceptedType(GetHandlerTypeResults(ops, q, additional), filter, canHandle)
  {
    var results := GetHandlerTypeResults(ops, q, additional);
    var i := 0;
    while i < |results|
      invariant 0 <= i <= |results|
      invariant forall j | 0 <= j < i :: !Accepts(filter, canHandle, results[j])
    {
      var t := results[i];
      if (filter.None? || filter.value(t)) && canHandle(t) {
        FirstAcceptedAt(results, filter, canHandle, i);
        return Some(t);
      }
      i := i + 1;
    }
    return None;
  }

  // ---------------------------------------------------------------------------
  // Capability utilities
  // ---------------------------------------------------------------------------

  const IVisualProcessorType: Ty := NamedInterface("EasyToolkit.Inspector.Editor.IVisualProcessor")
  const IVisualBuilderType: Ty := NamedInterface("EasyToolkit.Inspector.Editor.IVisualBuilder")
  const IEasyDrawerType: Ty := NamedInterface("EasyToolkit.Inspector.Editor.IEasyDrawer")

  /** The type filter of a capability utility: "derives from the capability
      interface". */
  function CapabilityFilter(capability: Ty): (f: Option<Ty -> bool>)
    ensures f.Some? && forall t :: f.value(t) == DerivesFrom(t, capability)
  {
    Some(t => DerivesFrom(t, capability))
  }

  /** `VisualProcessorUtility.GetVisualProcessorTypes`: the processors in the
      matcher's merged order, which is the order the chain runs them in. */
  method GetVisualProcessorTypes(ops: MatcherOps, q: ElementQuery, canHandle: Ty -> bool) returns (handlers: seq<Ty>)
    ensures forall t :: t in handlers <==>
              && t in GetHandlerTypeResults(ops, q, Some(AttributeVectors(q)))
              && DerivesFrom(t, IVisualProcessorType) && canHandle(t)
    ensures forall i, j | 0 <= i < j < |handlers| :: handlers[i] != handlers[j]
    ensures handlers == AcceptedTypes(GetHandlerTypeResults(ops, q, Some(AttributeVectors(q))),
                                      CapabilityFilter(IVisualProcessorType), canHandle)
  {
    handlers := GetHandlerTypes(ops, q, CapabilityFilter(IVisualProcessorType), canHandle, Some(AttributeVectors(q)));
  }

  /** `EasyDrawerUtility.GetDrawerTypes`: the drawers in the matcher's merged
      order. */
  method GetDrawerTypes(ops: MatcherOps, q: ElementQuery, canHandle: Ty -> bool) returns (handlers: seq<Ty>)
    ensures forall t :: t in handlers <==>
              && t in GetHandlerTypeResults(ops, q, Some(AttributeVectors(q)))
              && DerivesFrom(t, IEasyDrawerType) && canHandle(t)
    ensures forall i, j | 0 <= i < j < |handlers| :: handlers[i] != handlers[j]
    ensures handlers == AcceptedTypes(GetHandlerTypeResults(ops, q, Some(AttributeVectors(q))),
                                      CapabilityFilter(IEasyDrawerType), canHandle)
  {
    handlers := GetHandlerTypes(ops, q, CapabilityFilter(IEasyDrawerType), canHandle, Some(AttributeVectors(q)));
  }

  /** `VisualBuilderUtility.GetVisualBuilderType`: the first builder in the
      matcher's merged order, and only that one. */
  method GetVisualBuilderType(ops: MatcherOps, q: ElementQuery, canHandle: Ty -> bool) returns (builder: Option<Ty>)
    ensures builder.Some? ==>
              && builder.value in GetHandlerTypeResults(ops, q, Some(AttributeVectors(q)))
              && DerivesFrom(builder.value, IVisualBuilderType) && canHandle(builder.value)
    ensures builder.None? <==>
              forall t | t in GetHandlerTypeResults(ops, q, Some(AttributeVectors(q))) ::
                !(DerivesFrom(t, IVisualBuilderType) && canHandle(t))
    ensures builder == FirstAcceptedType(GetHandlerTypeResults(ops, q, Some(AttributeVectors(q))),
                                         CapabilityFilter(IVisualBuilderType), canHandle)
  {
    builder := GetFirstElementType(ops, q, CapabilityFilter(IVisualBuilderType), canHandle, Some(AttributeVectors(q)));
  }

  // ---------------------------------------------------------------------------
  // Handler keys
  // ---------------------------------------------------------------------------

  /** `GetKey` of a processor or drawer is the handler's type name and the
      element's key, joined. Such a key names one handler on one element as
      long as type names carry no `+`: the type name ends at the first `+`. */
  lemma HandlerKeyInjective(name1: string, key1: string, name2: string, key2: string)
    requires '+' !in name1 && '+' !in name2
    requires JoinedKey(name1, key1) == JoinedKey(name2, key2)
    ensures name1 == name2 && key1 == key2
  {
    var k := JoinedKey(name1, key1);
    assert name1 == k[..|name1|] && name2 == k[..|name2|];
  }
}

=== FILE: handler_registry.dfy ===
/** The process-wide handler registry of `HandlerUtility`: discovery of the
    concrete `IHandler` classes, their stable ordering by priority, the match
    candidates handed to the type matcher (rank and constraint arguments), and
    the lazily initialised matcher that registering a fallback invalidates. */
module HandlerRegistry {
  import opened Wrappers
  import opened Types
  import opened HandlerPriority

  /** The `IHandler` interface every handler implements. */
  const IHandlerType: Ty := NamedInterface("EasyToolkit.Inspector.Editor.IHandler")

  // ---------------------------------------------------------------------------
  // Discovery
  // ---------------------------------------------------------------------------

  predicate IsHandlerCandidate(t: Ty) {
    t.IsConcreteClass() && DerivesFrom(t, IHandlerType)
  }

  /** The scanned types that are concrete classes implementing `IHandler`, in
      scan order. */
  function DiscoverHandlerTypes(scanned: seq<Ty>): (found: seq<Ty>)
    ensures forall t :: t in found <==> t in scanned && IsHandlerCandidate(t)
    ensures |found| <= |scanned|
  {
    if |scanned| == 0 then []
    else
      var rest := DiscoverHandlerTypes(scanned[1..]);
      assert forall t :: t in scanned <==> t == scanned[0] || t in scanned[1..];
      if IsHandlerCandidate(scanned[0]) then [scanned[0]] + rest else rest
  }

  /** Discovery keeps scan order: scanning two batches finds the first
      batch's handlers, then the second's. */
  lemma {:induction false} DiscoverKeepsOrder(first: seq<Ty>, second: seq<Ty>)
    ensures DiscoverHandlerTypes(first + second) == DiscoverHandlerTypes(first) + DiscoverHandlerTypes(second)
  {
    if |first| > 0 {
      var both := first + second;
      assert both[0] == first[0];
      assert both[1..] == first[1..] + second;
      DiscoverKeepsOrder(first[1..], second);
      var head := if IsHandlerCandidate(first[0]) then [first[0]] else [];
      var restFirst := DiscoverHandlerTypes(first[1..]);
      var restSecond := DiscoverHandlerTypes(second);
      calc {
        DiscoverHandlerTypes(both);
        head + DiscoverHandlerTypes(both[1..]);
        head + (restFirst + restSecond);
        { SeqAppendAssoc(head, restFirst, restSecond); }
        (head + restFirst) + restSecond;
        DiscoverHandlerTypes(first) + restSecond;
      }
    } else {
      assert first + second == second;
    }
  }

  /** Concatenation of sequences is associative. */
  lemma SeqAppendAssoc<T>(a: seq<T>, b: seq<T>, c: seq<T>)
    ensures a + (b + c) == (a + b) + c
  {
  }

  // ---------------------------------------------------------------------------
  // Stable ordering by priority
  // ---------------------------------------------------------------------------

  /** A handler type with its priority and its discovery position. */
  datatype Keyed = Keyed(ty: Ty, priority: int, index: nat)

  /** `OrderByDescending` is stable: higher priority first, and among equal
      priorities the earlier-discovered type first. */
  predicate Before(a: Keyed, b: Keyed) {
    a.priority > b.priority || (a.priority == b.priority && a.index < b.index)
  }

  predicate SortedByPriority(s: seq<Keyed>) {
    forall i, j | 0 <= i < j < |s| :: Before(s[i], s[j])
  }

  predicate DistinctIndices(s: seq<Keyed>) {
    forall i, j | 0 <= i < j < |s| :: s[i].index != s[j].index
  }

  function InsertByPriority(x: Keyed, s: seq<Keyed>): (r: seq<Keyed>)
    ensures multiset(r) == multiset(s) + multiset{x}
    ensures |r| == |s| + 1
  {
    if |s| == 0 || Before(x, s[0]) then [x] + s
    else
      assert s == [s[0]] + s[1..];
      [s[0]] + InsertByPriority(x, s[1..])
  }

  lemma {:induction false} InsertKeepsSorted(x: Keyed, s: seq<Keyed>)
    requires SortedByPriority(s)
    requires forall k | 0 <= k < |s| :: s[k].index != x.index
    ensures SortedByPriority(InsertByPriority(x, s))
  {
    if |s| == 0 || Before(x, s[0]) {
      var r := [x] + s;
      forall i, j | 0 <= i < j < |r| ensures Before(r[i], r[j]) {
        if i == 0 {
          assert r[j] == s[j - 1];
          if j > 1 {
            assert Before(s[0], s[j - 1]);
          }
        } else {
          assert r[i] == s[i - 1] && r[j] == s[j - 1];
        }
      }
    } else {
      InsertKeepsSorted(x, s[1..]);
      var tail := InsertByPriority(x, s[1..]);
      var r := [s[0]] + tail;
      forall i, j | 0 <= i < j < |r| ensures Before(r[i], r[j]) {
        if i == 0 {
          assert r[j] == tail[j - 1];
          assert r[j] in multiset(tail);
          assert r[j] in multiset(s[1..]) + multiset{x};
          if r[j] != x {
            var k :| 0 <= k < |s[1..]| && s[1..][k] == r[j];
            assert s[k + 1] == r[j];
          }
        } else {
          assert r[i] == tail[i - 1] && r[j] == tail[j - 1];
        }
      }
    }
  }

  function SortByPriority(s: seq<Keyed>): (r: seq<Keyed>)
    ensures multiset(r) == multiset(s)
    ensures |r| == |s|
  {
    if |s| == 0 then []
    else
      assert s == [s[0]] + s[1..];
      InsertByPriority(s[0], SortByPriority(s[1..]))
  }

  lemma {:induction false} SortIsSorted(s: seq<Keyed>)
    requires DistinctIndices(s)
    ensures SortedByPriority(SortByPriority(s))
  {
    if |s| > 0 {
      var tail := s[1..];
      assert DistinctIndices(tail) by {
        forall i, j | 0 <= i < j < |tail| ensures tail[i].index != tail[j].index {
          assert tail[i] == s[i + 1] && tail[j] == s[j + 1];
        }
      }
      SortIsSorted(tail);
      var sorted := SortByPriority(tail);
      forall k | 0 <= k < |sorted| ensures sorted[k].index != s[0].index {
        assert sorted[k] in multiset(tail);
        var m :| 0 <= m < |tail| && tail[m] == sorted[k];
        assert tail[m] == s[m + 1];
      }
      InsertKeepsSorted(s[0], sorted);
    }
  }

  /** Each discovered type keyed by its priority and its discovery position. */
  function KeyedTypes(types: seq<Ty>, fallbacks: seq<Fallback>, defaultPriority: int): (keyed: seq<Keyed>)
    ensures |keyed| == |types|
    ensures DistinctIndices(keyed)
  {
    seq(|types|, i requires 0 <= i < |types| => Keyed(types[i], GetHandlerPriority(types[i], fallbacks, defaultPriority), i))
  }

  // ---------------------------------------------------------------------------
  // Match candidates
  // ---------------------------------------------------------------------------

  /** `TypeMatchCandidate`: a handler type, its rank (higher is preferred) and
      the constraint arguments the matcher compares against a query; `None` is
      an unconstrained handler. */
  datatype Candidate = Candidate(handlerType: Ty, rank: int, constraints: Option<seq<Ty>>)

  /** `r` is the first type of the chain `c` that carries the
      `HandlerConstraints` marker, or `None` when no type on it does. */
  predicate IsNearestMarked(c: seq<Ty>, r: Option<Ty>) {
    && (r.Some? <==> exists k | 0 <= k < |c| :: c[k].HasConstraintsMarker())
    && (r.Some? ==> exists k | 0 <= k < |c| ::
                      && c[k] == r.value && r.value.HasConstraintsMarker()
                      && forall j | 0 <= j < k :: !c[j].HasConstraintsMarker())
  }

  /** The nearest type on the base chain of `t`, `t` included, that carries the
      `HandlerConstraints` marker. */
  function NearestConstraintsMarked(t: Ty): (r: Option<Ty>)
    ensures IsNearestMarked(BaseChain(t), r)
    decreases t
  {
    if t.HasConstraintsMarker() then
      assert BaseChain(t)[0] == t;
      assert IsNearestMarked(BaseChain(t), Some(t));
      Some(t)
    else if t.baseType.None? then
      assert BaseChain(t) == [t];
      None
    else
      var r := NearestConstraintsMarked(t.baseType.value);
      NearestMarkedStep(t, r);
      r
  }

  /** One step down the base chain: the nearest marked type of an unmarked
      type is that of its base class. */
  lemma NearestMarkedStep(t: Ty, r: Option<Ty>)
    requires t.baseType.Some? && !t.HasConstraintsMarker()
    requires IsNearestMarked(BaseChain(t.baseType.value), r)
    ensures IsNearestMarked(BaseChain(t), r)
  {
    var b := t.baseType.value;
    assert BaseChain(t) == [t] + BaseChain(b);
    assert BaseChain(t)[0] == t;
    assert forall k | 1 <= k < |BaseChain(t)| :: BaseChain(t)[k] == BaseChain(b)[k - 1];
    if r.Some? {
      var k :| 0 <= k < |BaseChain(b)| && BaseChain(b)[k] == r.value && r.value.HasConstraintsMarker()
               && forall j | 0 <= j < k :: !BaseChain(b)[j].HasConstraintsMarker();
      assert BaseChain(t)[k + 1] == BaseChain(b)[k];
      assert exists k' | 0 <= k' < |BaseChain(t)| :: BaseChain(t)[k'].HasConstraintsMarker();
      assert exists k' | 0 <= k' < |BaseChain(t)| ::
               && BaseChain(t)[k'] == r.value
               && r.value.HasConstraintsMarker()
               && forall j | 0 <= j < k' :: !BaseChain(t)[j].HasConstraintsMarker();
    } else {
      assert forall k | 0 <= k < |BaseChain(t)| :: !BaseChain(t)[k].HasConstraintsMarker();
    }
  }

  /** `GetConstraints`: the generic arguments of the nearest marked type on the
      base chain; failing that, the arguments of a generic base class; failing
      that, unconstrained. */
  function GetConstraints(t: Ty): (r: Option<seq<Ty>>)
    ensures (exists k | 0 <= k < |BaseChain(t)| :: BaseChain(t)[k].HasConstraintsMarker())
            ==> exists k | 0 <= k < |BaseChain(t)| ::
                  && BaseChain(t)[k].HasConstraintsMarker()
                  && (forall j | 0 <= j < k :: !BaseChain(t)[j].HasConstraintsMarker())
                  && r == Some(BaseChain(t)[k].genericArguments)
    ensures (forall k | 0 <= k < |BaseChain(t)| :: !BaseChain(t)[k].HasConstraintsMarker())
            ==> r == (if t.baseType.None? || !t.baseType.value.IsGenericType() then None
                      else Some(t.baseType.value.genericArguments))
  {
    match NearestConstraintsMarked(t)
    case Some(m) => Some(m.genericArguments)
    case None =>
      if t.baseType.None? || !t.baseType.value.IsGenericType() then None
      else Some(t.baseType.value.genericArguments)
  }

  /** The candidates handed to the matcher: handler types in priority order,
      ranked from `|types|` down to 1. */
  function BuildCandidates(types: seq<Ty>, fallbacks: seq<Fallback>, defaultPriority: int): (cs: seq<Candidate>)
    ensures |cs| == |types|
  {
    var sorted := SortByPriority(KeyedTypes(types, fallbacks, defaultPriority));
    seq(|sorted|, i requires 0 <= i < |sorted| =>
      Candidate(sorted[i].ty, |types| - i, GetConstraints(sorted[i].ty)))
  }

  /** Ranks are `N - i`: strictly decreasing, from `N` down to 1. */
  lemma CandidateRanks(types: seq<Ty>, fallbacks: seq<Fallback>, defaultPriority: int)
    ensures var cs := BuildCandidates(types, fallbacks, defaultPriority);
            && (forall i | 0 <= i < |cs| :: 1 <= cs[i].rank <= |types|)
            && (forall i, j | 0 <= i < j < |cs| :: cs[i].rank > cs[j].rank)
  {
  }

  /** Every discovered type becomes exactly one candidate, with the constraints
      `GetConstraints` gives it. */
  lemma {:induction false} CandidatesArePermutation(types: seq<Ty>, fallbacks: seq<Fallback>, defaultPriority: int)
    ensures var cs := BuildCandidates(types, fallbacks, defaultPriority);
            multiset(seq(|cs|, i requires 0 <= i < |cs| => cs[i].handlerType)) == multiset(types)
    ensures var cs := BuildCandidates(types, fallbacks, defaultPriority);
            forall i | 0 <= i < |cs| :: cs[i].constraints == GetConstraints(cs[i].handlerType)
  {
    var keyed := KeyedTypes(types, fallbacks, defaultPriority);
    var sorted := SortByPriority(keyed);
    var cs := BuildCandidates(types, fallbacks, defaultPriority);
    var ts := seq(|cs|, i requires 0 <= i < |cs| => cs[i].handlerType);
    assert ts == ProjectTypes(sorted);
    assert types == ProjectTypes(keyed);
    SortKeepsTypes(keyed);
  }

  function ProjectTypes(s: seq<Keyed>): (ts: seq<Ty>)
    ensures |ts| == |s| && forall i | 0 <= i < |s| :: ts[i] == s[i].ty
  {
    seq(|s|, i requires 0 <= i < |s| => s[i].ty)
  }

  lemma {:induction false} InsertKeepsTypes(x: Keyed, s: seq<Keyed>)
    ensures multiset(ProjectTypes(InsertByPriority(x, s))) == multiset(ProjectTypes(s)) + multiset{x.ty}
  {
    if |s| == 0 || Before(x, s[0]) {
      assert InsertByPriority(x, s) == [x] + s;
      ProjectCons(x, s);
      assert multiset([x.ty] + ProjectTypes(s)) == multiset{x.ty} + multiset(ProjectTypes(s));
    } else {
      var tail := InsertByPriority(x, s[1..]);
      InsertKeepsTypes(x, s[1..]);
      assert InsertByPriority(x, s) == [s[0]] + tail;
      ProjectCons(s[0], tail);
      assert s == [s[0]] + s[1..];
      ProjectCons(s[0], s[1..]);
      var pt := ProjectTypes(tail);
      var pr := ProjectTypes(s[1..]);
      assert multiset([s[0].ty] + pt) == multiset{s[0].ty} + multiset(pt);
      assert multiset([s[0].ty] + pr) == multiset{s[0].ty} + multiset(pr);
    }
  }

  /** Projecting the types commutes with putting an entry in front. */
  lemma ProjectCons(a: Keyed, s: seq<Keyed>)
    ensures ProjectTypes([a] + s) == [a.ty] + ProjectTypes(s)
  {
    var l := ProjectTypes([a] + s);
    var r := [a.ty] + ProjectTypes(s);
    assert |l| == |r|;
    forall k | 0 <= k < |l| ensures l[k] == r[k] {
      if k > 0 {
        assert ([a] + s)[k] == s[k - 1];
      }
    }
  }

  lemma {:induction false} SortKeepsTypes(s: seq<Keyed>)
    ensures multiset(ProjectTypes(SortByPriority(s))) == multiset(ProjectTypes(s))
  {
    if |s| > 0 {
      var sortedRest := SortByPriority(s[1..]);
      var pr := ProjectTypes(s[1..]);
      assert s == [s[0]] + s[1..];
      calc {
        multiset(ProjectTypes(SortByPriority(s)));
        multiset(ProjectTypes(InsertByPriority(s[0], sortedRest)));
        { InsertKeepsTypes(s[0], sortedRest); }
        multiset(ProjectTypes(sortedRest)) + multiset{s[0].ty};
        { SortKeepsTypes(s[1..]); }
        multiset(pr) + multiset{s[0].ty};
        multiset([s[0].ty] + pr);
        { ProjectCons(s[0], s[1..]); }
        multiset(ProjectTypes([s[0]] + s[1..]));
        multiset(ProjectTypes(s));
      }
    }
  }

  /** The first index at which `t` occurs. */
  function IndexIn(types: seq<Ty>, t: Ty): (k: nat)
    requires t in types
    ensures k < |types| && types[k] == t && forall j | 0 <= j < k :: types[j] != t
  {
    if types[0] == t then 0 else 1 + IndexIn(types[1..], t)
  }

  predicate DistinctTypes(types: seq<Ty>) {
    forall i, j | 0 <= i < j < |types| :: types[i] != types[j]
  }

  /** Candidates come in descending priority, and equal priorities keep the
      discovery order (the stable sort). */
  lemma CandidateOrder(types: seq<Ty>, fallbacks: seq<Fallback>, defaultPriority: int, i: nat, j: nat)
    requires DistinctTypes(types)
    requires i < j < |types|
    ensures var cs := BuildCandidates(types, fallbacks, defaultPriority);
            var pi := GetHandlerPriority(cs[i].handlerType, fallbacks, defaultPriority);
            var pj := GetHandlerPriority(cs[j].handlerType, fallbacks, defaultPriority);
            && cs[i].handlerType in types && cs[j].handlerType in types
            && (pi > pj || (pi == pj && IndexIn(types, cs[i].handlerType) < IndexIn(types, cs[j].handlerType)))
  {
    var keyed := KeyedTypes(types, fallbacks, defaultPriority);
    var sorted := SortByPriority(keyed);
    SortIsSorted(keyed);
    assert Before(sorted[i], sorted[j]);
    KeyedEntryShape(types, fallbacks, defaultPriority, sorted[i]);
    KeyedEntryShape(types, fallbacks, defaultPriority, sorted[j]);
  }

  lemma KeyedEntryShape(types: seq<Ty>, fallbacks: seq<Fallback>, defaultPriority: int, x: Keyed)
    requires DistinctTypes(types)
    requires x in multiset(KeyedTypes(types, fallbacks, defaultPriority))
    ensures x.index < |types| && x.ty == types[x.index] && IndexIn(types, x.ty) == x.index
    ensures x.priority == GetHandlerPriority(x.ty, fallbacks, defaultPriority)
  {
    var keyed := KeyedTypes(types, fallbacks, defaultPriority);
    var m :| 0 <= m < |keyed| && keyed[m] == x;
  }

  // ---------------------------------------------------------------------------
  // The registry
  // ---------------------------------------------------------------------------

  /** The static state of `HandlerUtility`: the discovered handler types (kept
      once scanned), the registered fallbacks, and the matcher's candidates
      (`None` while the matcher is not initialised). `defaultPriority` is
      `OrderPriority.Default`, defined outside this model. */
  datatype Registry = Registry(
    discovered: Option<seq<Ty>>,
    fallbacks: seq<Fallback>,
    candidates: Option<seq<Candidate>>,
    defaultPriority: int)

  function EmptyRegistry(defaultPriority: int): (r: Registry)
    ensures r.discovered.None? && r.candidates.None? && r.fallbacks == []
  {
    Registry(None, [], None, defaultPriority)
  }

  /** `AddNullPriorityFallback`: append the fallback and drop the matcher. */
  function AddNullPriorityFallback(reg: Registry, f: Fallback): (r: Registry)
    ensures r.fallbacks == reg.fallbacks + [f] && r.fallbacks[|reg.fallbacks|] == f
    ensures r.candidates.None?
    ensures r.discovered == reg.discovered && r.defaultPriority == reg.defaultPriority
  {
    reg.(fallbacks := reg.fallbacks + [f], candidates := None)
  }

  /** `InitializeTypeMatcher`: scan once (`scanned` is what the assembly scan
      would return), then rebuild the candidates under the current fallbacks. */
  function InitializeTypeMatcher(reg: Registry, scanned: seq<Ty>): (r: Registry)
    ensures r.discovered.Some? && r.candidates.Some?
    ensures reg.discovered.Some? ==> r.discovered == reg.discovered
    ensures reg.discovered.None? ==> r.discovered == Some(DiscoverHandlerTypes(scanned))
    ensures r.candidates.value == BuildCandidates(r.discovered.value, reg.fallbacks, reg.defaultPriority)
    ensures r.fallbacks == reg.fallbacks && r.defaultPriority == reg.defaultPriority
  {
    var types := if reg.discovered.Some? then reg.discovered.value else DiscoverHandlerTypes(scanned);
    reg.(discovered := Some(types), candidates := Some(BuildCandidates(types, reg.fallbacks, reg.defaultPriority)))
  }

  /** `EnsureTypeMatcherInitialized`: initialise only when not yet initialised. */
  function EnsureTypeMatcherInitialized(reg: Registry, scanned: seq<Ty>): (r: Registry)
    ensures r.candidates.Some?
    ensures reg.candidates.Some? ==> r == reg
    ensures reg.candidates.None? ==> r == InitializeTypeMatcher(reg, scanned)
  {
    if reg.candidates.Some? then reg else InitializeTypeMatcher(reg, scanned)
  }

  /** The `TypeMatcher` property: the registry after initialisation and the
      candidates the matcher holds. */
  function TypeMatcher(reg: Registry, scanned: seq<Ty>): (r: (Registry, seq<Candidate>))
    ensures r.0.candidates == Some(r.1)
  {
    var reg' := EnsureTypeMatcherInitialized(reg, scanned);
    (reg', reg'.candidates.value)
  }

  /** A registry whose candidates reflect its discovered types and fallbacks. */
  predicate Coherent(reg: Registry) {
    reg.candidates.Some? ==>
      reg.discovered.Some?
      && reg.candidates.value == BuildCandidates(reg.discovered.value, reg.fallbacks, reg.defaultPriority)
  }

  /** Every registry operation keeps the matcher coherent with the fallbacks. */
  lemma OperationsKeepCoherent(reg: Registry, f: Fallback, scanned: seq<Ty>)
    requires Coherent(reg)
    ensures Coherent(AddNullPriorityFallback(reg, f))
    ensures Coherent(EnsureTypeMatcherInitialized(reg, scanned))
    ensures Coherent(TypeMatcher(reg, scanned).0)
  {
  }

  /** Reading the matcher twice scans nothing new and yields the same candidates. */
  lemma TypeMatcherIsCached(reg: Registry, scanned: seq<Ty>, scannedLater: seq<Ty>)
    ensures var (reg1, c1) := TypeMatcher(reg, scanned);
            TypeMatcher(reg1, scannedLater) == (reg1, c1)
  {
  }

  /** The assembly scan happens at most once: after a fallback is added, the
      next read ranks the same discovered types under all fallbacks so far,
      whatever a fresh scan would return. */
  lemma RescanNotNeededAfterFallback(reg: Registry, f: Fallback, scanned: seq<Ty>)
    requires reg.discovered.Some?
    ensures TypeMatcher(AddNullPriorityFallback(reg, f), scanned).1
            == BuildCandidates(reg.discovered.value, reg.fallbacks + [f], reg.defaultPriority)
  {
  }

  /** A fallback registered late re-ranks a handler no attribute or earlier
      fallback decides, ahead of one ranked by an explicit attribute below it. */
  lemma LateFallbackPromotes(reg: Registry, f: Fallback, scanned: seq<Ty>, promoted: Ty, marked: Ty)
    requires reg.discovered.Some? && DistinctTypes(reg.discovered.value)
    requires promoted in reg.discovered.value && marked in reg.discovered.value
    requires MarkerPriority(InheritedAttributes(promoted)).None?
    requires FirstFallbackPriority(reg.fallbacks, promoted).None?
    requires MarkerPriority(InheritedAttributes(marked)).Some?
    requires ApplyFallback(f, promoted).Some?
    requires ApplyFallback(f, promoted).value > MarkerPriority(InheritedAttributes(marked)).value
    ensures var cs := TypeMatcher(AddNullPriorityFallback(reg, f), scanned).1;
            exists i, j | 0 <= i < j < |cs| :: cs[i].handlerType == promoted && cs[j].handlerType == marked
  {
    var types := reg.discovered.value;
    var fs := reg.fallbacks + [f];
    var d := reg.defaultPriority;
    var cs := BuildCandidates(types, fs, d);
    assert TypeMatcher(AddNullPriorityFallback(reg, f), scanned).1 == cs;
    var pp := GetHandlerPriority(promoted, fs, d);
    var pm := GetHandlerPriority(marked, fs, d);
    AppendedFallbackDecidesRest(promoted, reg.fallbacks, f, d);
    assert pp == ApplyFallback(f, promoted).value;
    assert pm == MarkerPriority(InheritedAttributes(marked)).value;
    assert promoted != marked;
    var i, j := CandidatePositions(types, fs, d, promoted, marked);
    assert i != j;
    assert |cs| == |types| by { CandidatesArePermutation(types, fs, d); }
    if j < i {
      CandidateOrder(types, fs, d, j, i);
      assert false;
    }
    assert 0 <= i < j < |cs| && cs[i].handlerType == promoted && cs[j].handlerType == marked;
  }

  /** A discovered type with the strictly higher priority is handed to the
      matcher before the other, wherever each was discovered. */
  lemma HigherPriorityRanksFirst(types: seq<Ty>, fallbacks: seq<Fallback>, defaultPriority: int, hi: Ty, lo: Ty)
    returns (i: nat, j: nat)
    requires DistinctTypes(types) && hi in types && lo in types
    requires GetHandlerPriority(hi, fallbacks, defaultPriority) > GetHandlerPriority(lo, fallbacks, defaultPriority)
    ensures var cs := BuildCandidates(types, fallbacks, defaultPriority);
            i < j < |cs| && cs[i].handlerType == hi && cs[j].handlerType == lo
  {
    var cs := BuildCandidates(types, fallbacks, defaultPriority);
    i, j := CandidatePositions(types, fallbacks, defaultPriority, hi, lo);
    assert i != j;
    if j < i {
      CandidateOrder(types, fallbacks, defaultPriority, j, i);
      assert false;
    }
  }

  /** With the visual processor fallback registered first, an unmarked
      attribute or group processor is matched before an unmarked value
      processor: the Attribute level lies above the Value level. */
  lemma AttributeProcessorOutranksValueProcessor(types: seq<Ty>, fallbacks: seq<Fallback>, defaultPriority: int,
                                                 attr: Ty, value: Ty)
    requires DistinctTypes(types) && attr in types && value in types
    requires |fallbacks| > 0 && fallbacks[0] == VisualProcessorFallback
    requires MarkerPriority(InheritedAttributes(attr)).None? && MarkerPriority(InheritedAttributes(value)).None?
    requires ImplementsGenericDefinition(attr, "VisualAttributeProcessor`1")
             || ImplementsGenericDefinition(attr, "VisualGroupProcessor`1")
    requires !ImplementsGenericDefinition(value, "VisualAttributeProcessor`1")
             && !ImplementsGenericDefinition(value, "VisualGroupProcessor`1")
             && ImplementsGenericDefinition(value, "VisualValueProcessor`1")
    ensures var cs := BuildCandidates(types, fallbacks, defaultPriority);
            exists i, j | 0 <= i < j < |cs| :: cs[i].handlerType == attr && cs[j].handlerType == value
  {
    VisualProcessorFallbackLevels(attr);
    VisualProcessorFallbackLevels(value);
    assert GetHandlerPriority(attr, fallbacks, defaultPriority) == VisualProcessorAttribute;
    assert GetHandlerPriority(value, fallbacks, defaultPriority) == VisualProcessorValue;
    var i, j := HigherPriorityRanksFirst(types, fallbacks, defaultPriority, attr, value);
  }

  /** A builder marked one below the Attribute level, as the root builder is,
      is matched after every Attribute-level builder and before every
      Value-level one. */
  lemma RootBuilderBetweenLevels(types: seq<Ty>, fallbacks: seq<Fallback>, defaultPriority: int,
                                 attr: Ty, root: Ty, value: Ty)
    requires DistinctTypes(types) && attr in types && root in types && value in types
    requires MarkerPriority(InheritedAttributes(attr)) == Some(VisualBuilderAttribute)
    requires MarkerPriority(InheritedAttributes(root)) == Some(VisualBuilderAttribute - 1)
    requires MarkerPriority(InheritedAttributes(value)) == Some(VisualBuilderValue)
    ensures var cs := BuildCandidates(types, fallbacks, defaultPriority);
            exists i, j, k | 0 <= i < j < k < |cs| ::
              cs[i].handlerType == attr && cs[j].handlerType == root && cs[k].handlerType == value
  {
    var i, j := HigherPriorityRanksFirst(types, fallbacks, defaultPriority, attr, root);
    var j', k := HigherPriorityRanksFirst(types, fallbacks, defaultPriority, root, value);
    var cs := BuildCandidates(types, fallbacks, defaultPriority);
    if j < j' {
      CandidateOrder(types, fallbacks, defaultPriority, j, j');
      assert false;
    } else if j' < j {
      CandidateOrder(types, fallbacks, defaultPriority, j', j);
      assert false;
    }
    assert 0 <= i < j < k < |cs| && cs[i].handlerType == attr && cs[j].handlerType == root && cs[k].handlerType == value;
  }

  /** Where two discovered types sit among the candidates. */
  lemma CandidatePositions(types: seq<Ty>, fallbacks: seq<Fallback>, defaultPriority: int, a: Ty, b: Ty)
    returns (i: nat, j: nat)
    requires a in types && b in types
    ensures var cs := BuildCandidates(types, fallbacks, defaultPriority);
            i < |cs| && j < |cs| && cs[i].handlerType == a && cs[j].handlerType == b
  {
    var cs := BuildCandidates(types, fallbacks, defaultPriority);
    CandidatesArePermutation(types, fallbacks, defaultPriority);
    var ts := seq(|cs|, k requires 0 <= k < |cs| => cs[k].handlerType);
    assert a in multiset(ts) && b in multiset(ts);
    i :| 0 <= i < |cs| && ts[i] == a;
    j :| 0 <= j < |cs| && ts[j] == b;
  }
}

=== FILE: inspector_attribute.dfy ===
/** `InspectorAttribute`: attributes compare by value. Each attribute has an
    Id made of its type's full name, a `+`, and the Base64 text of its
    serialized form; two attributes are equal when they have the same
    runtime type and the same Id, and hash by their Id. The serializer is
    not part of this model: an attribute carries the bytes it serializes
    to. */
module InspectorAttribute {
  import opened Wrappers
  import opened Types
  import Base64

  /** An attribute: its runtime type (whose `name` is the full name), its
      serialized bytes, and the memoised `_id`. */
  datatype AttributeObject = AttributeObject(runtimeType: Ty, serialized: seq<bv8>, cachedId: Option<string>)

  /** The Id as computed from scratch. */
  function ComputeId(a: AttributeObject): (id: string)
    ensures |id| > |a.runtimeType.name| && id[..|a.runtimeType.name|] == a.runtimeType.name
    ensures id[|a.runtimeType.name|] == '+'
    ensures id[|a.runtimeType.name| + 1..] == Base64.Encode(a.serialized)
    ensures Base64.Decode(id[|a.runtimeType.name| + 1..]) == Some(a.serialized)
  {
    Base64.DecodeEncode(a.serialized);
    a.runtimeType.name + "+" + Base64.Encode(a.serialized)
  }

  /** The `Id` property: computed on first read and memoised. */
  function ReadId(a: AttributeObject): (r: (string, AttributeObject))
    ensures a.cachedId.Some? ==> r == (a.cachedId.value, a)
    ensures a.cachedId.None? ==> r.0 == ComputeId(a) && r.1 == a.(cachedId := Some(r.0))
  {
    match a.cachedId
    case Some(id) => (id, a)
    case None =>
      var id := ComputeId(a);
      (id, a.(cachedId := Some(id)))
  }

  /** The memo agrees with what would be computed now. */
  predicate IdConsistent(a: AttributeObject) {
    a.cachedId.None? || a.cachedId == Some(ComputeId(a))
  }

  /** Reading the Id keeps the memo consistent and answers the same on every
      later read. */
  lemma ReadIdIsStable(a: AttributeObject)
    requires IdConsistent(a)
    ensures var (id, a') := ReadId(a);
            && id == ComputeId(a) && IdConsistent(a')
            && ReadId(a') == (id, a')
  {
  }

  /** `Equals(object)`: `None` is a null argument; an object of another
      runtime type, attribute or not, is never equal. */
  predicate AttributeEquals(a: AttributeObject, obj: Option<AttributeObject>) {
    && obj.Some?
    && obj.value.runtimeType == a.runtimeType
    && ReadId(a).0 == ReadId(obj.value).0
  }

  /** Equality, stated without the Id: null is never equal, and otherwise
      attributes are equal exactly when they have the same runtime type and
      serialize to the same bytes. */
  lemma EqualsMeansSameContent(a: AttributeObject, obj: Option<AttributeObject>)
    requires obj.Some? ==> IdConsistent(a) && IdConsistent(obj.value)
    ensures obj.None? ==> !AttributeEquals(a, obj)
    ensures obj.Some? ==>
              (AttributeEquals(a, obj) <==>
                 a.runtimeType == obj.value.runtimeType && a.serialized == obj.value.serialized)
  {
    if obj.Some? && AttributeEquals(a, obj) {
      var b := obj.value;
      var n := |a.runtimeType.name| + 1;
      assert ComputeId(a)[n..] == Base64.Encode(a.serialized);
      assert ComputeId(b)[n..] == Base64.Encode(b.serialized);
      Base64.EncodeInjective(a.serialized, b.serialized);
    }
  }

  /** Equality is an equivalence on attributes whose memo is consistent. */
  lemma EqualsIsEquivalence(a: AttributeObject, b: AttributeObject, c: AttributeObject)
    requires IdConsistent(a) && IdConsistent(b) && IdConsistent(c)
    ensures AttributeEquals(a, Some(a))
    ensures AttributeEquals(a, Some(b)) ==> AttributeEquals(b, Some(a))
    ensures AttributeEquals(a, Some(b)) && AttributeEquals(b, Some(c)) ==> AttributeEquals(a, Some(c))
  {
  }

  /** `GetHashCode`: the hash of the Id, `stringHash` being the string hash
      function. */
  function AttributeHash(a: AttributeObject, stringHash: string -> int): int {
    stringHash(ReadId(a).0)
  }

  /** Equal attributes hash alike. */
  lemma EqualAttributesHashAlike(a: AttributeObject, b: AttributeObject, stringHash: string -> int)
    requires AttributeEquals(a, Some(b))
    ensures AttributeHash(a, stringHash) == AttributeHash(b, stringHash)
  {
  }
}

=== FILE: persistent_context.dfy ===
/** `PersistentContextCache`: the editor-wide store of persistent contexts,
    keyed by string. A context is typed by its value type; asking for a key
    that holds a context of another value type replaces it. The store loads
    itself from a cache file the first time it is used and saves itself back
    to disk on domain unload and play-mode changes. Editor callbacks, clocks
    and logging are not modelled; the file system is a map from paths to
    entries and the serializer a pair of functions. */
module PersistentContext {
  import opened Wrappers
  import opened Types

  /** A `GlobalPersistentContext<TValue>`: its value type and an identity
      telling apart contexts created at different times. */
  datatype Context = Context(valueType: Ty, id: nat)

  /** The `PersistentContextDirectory`. */
  type ContextDirectory = map<string, Context>

  /** The cache: the directory, the once-flag, how many times it has loaded
      from disk, and the identity the next new context gets. */
  datatype Cache = Cache(entries: ContextDirectory, initialized: bool, loads: nat, nextId: nat)

  /** The private constructor: an empty directory, not yet initialised. */
  function NewCache(): (c: Cache)
    ensures c.entries == map[] && !c.initialized && c.loads == 0
  {
    Cache(map[], false, 0, 0)
  }

  /** The directory after `LoadCache` given what the load produced: the
      deserialised directory, an empty one when deserialisation gave null,
      and the directory as it was when the load threw (the exception is
      logged and swallowed). */
  function LoadedEntries(c: Cache, load: Outcome<Option<ContextDirectory>>): (entries: ContextDirectory)
    ensures load == Ok(None) ==> entries == map[]
    ensures load.Throws? ==> entries == c.entries
    ensures load.Ok? && load.value.Some? ==> entries == load.value.value
  {
    match load
    case Throws(_) => c.entries
    case Ok(None) => map[]
    case Ok(Some(loaded)) => loaded
  }

  /** `EnsureInitialize`: the first call sets the flag and loads; later
      calls do nothing. */
  function EnsureInitialize(c: Cache, load: Outcome<Option<ContextDirectory>>): (r: Cache)
    ensures r.initialized && r.nextId == c.nextId
    ensures c.initialized ==> r == c
    ensures !c.initialized ==> r.loads == c.loads + 1 && r.entries == LoadedEntries(c, load)
  {
    if c.initialized then c
    else c.(initialized := true, loads := c.loads + 1, entries := LoadedEntries(c, load))
  }

  /** `GetContext<TValue>`: the context under `key` when it has the
      requested value type; otherwise a new one, stored under `key`. `load`
      is what loading would produce, used only on the first call. */
  function GetContext(c: Cache, key: string, valueType: Ty, load: Outcome<Option<ContextDirectory>>)
    : (r: (Context, bool, Cache))
    ensures var c1 := EnsureInitialize(c, load);
            var (ctx, isNew, after) := r;
            && after.initialized
            && (key in c1.entries && c1.entries[key].valueType == valueType ==>
                  !isNew && ctx == c1.entries[key] && after == c1)
            && (!(key in c1.entries && c1.entries[key].valueType == valueType) ==>
                  && isNew && ctx.valueType == valueType && ctx.id == c1.nextId
                  && after.entries == c1.entries[key := ctx] && after.nextId == c1.nextId + 1)
            && after.loads == c1.loads
    ensures r.2.entries.Keys == EnsureInitialize(c, load).entries.Keys + {key}
    ensures forall k | k in r.2.entries && k != key :: r.2.entries[k] == EnsureInitialize(c, load).entries[k]
    ensures key in r.2.entries && r.2.entries[key] == r.0 && r.0.valueType == valueType
  {
    var c1 := EnsureInitialize(c, load);
    if key in c1.entries && c1.entries[key].valueType == valueType then (c1.entries[key], false, c1)
    else
      var ctx := Context(valueType, c1.nextId);
      (ctx, true, c1.(entries := c1.entries[key := ctx], nextId := c1.nextId + 1))
  }

  /** Asking twice for the same key and type answers the same context, new
      at most the first time. */
  lemma GetContextIsStable(c: Cache, key: string, valueType: Ty,
                           load1: Outcome<Option<ContextDirectory>>, load2: Outcome<Option<ContextDirectory>>)
    ensures var (ctx1, _, c1) := GetContext(c, key, valueType, load1);
            var (ctx2, isNew2, c2) := GetContext(c1, key, valueType, load2);
            ctx2 == ctx1 && !isNew2 && c2 == c1
  {
  }

  /** Every stored context was created by this cache, before `nextId`. */
  predicate IdsIssued(c: Cache) {
    forall k | k in c.entries :: c.entries[k].id < c.nextId
  }

  /** Once initialised, serving requests keeps every identity issued. */
  lemma GetContextKeepsIdsIssued(c: Cache, key: string, valueType: Ty, load: Outcome<Option<ContextDirectory>>)
    requires c.initialized && IdsIssued(c)
    ensures IdsIssued(GetContext(c, key, valueType, load).2)
  {
  }

  /** A context asked for under another value type is replaced, and the old
      one is gone: asking again for the first type makes yet another new
      context. */
  lemma RetypingReplaces(c: Cache, key: string, t1: Ty, t2: Ty, load: Outcome<Option<ContextDirectory>>)
    requires t1 != t2
    requires c.initialized && IdsIssued(c)
    ensures var (ctx1, _, c1) := GetContext(c, key, t1, load);
            var (ctx2, isNew2, c2) := GetContext(c1, key, t2, load);
            var (ctx3, isNew3, c3) := GetContext(c2, key, t1, load);
            isNew2 && isNew3 && ctx3 != ctx1 && ctx3.valueType == t1
  {
  }

  /** One request to the cache: a key, a value type and what loading would
      produce at that moment. */
  datatype Request = Request(key: string, valueType: Ty, load: Outcome<Option<ContextDirectory>>)

  function ServeAll(c: Cache, requests: seq<Request>): Cache
    decreases |requests|
  {
    if |requests| == 0 then c
    else
      var rq := requests[0];
      ServeAll(GetContext(c, rq.key, rq.valueType, rq.load).2, requests[1..])
  }

  /** However many contexts are asked for, the cache loads from disk at most
      once, and not at all once initialised. */
  lemma {:induction false} LoadsAtMostOnce(c: Cache, requests: seq<Request>)
    ensures ServeAll(c, requests).loads <= c.loads + 1
    ensures c.initialized ==> ServeAll(c, requests).loads == c.loads
    ensures |requests| > 0 ==> ServeAll(c, requests).initialized
    decreases |requests|
  {
    if |requests| > 0 {
      var rq := requests[0];
      var c1 := GetContext(c, rq.key, rq.valueType, rq.load).2;
      LoadsAtMostOnce(c1, requests[1..]);
    }
  }

  // ---------------------------------------------------------------------------
  // Loading and saving the cache file
  // ---------------------------------------------------------------------------

  /** A file-system entry: a directory, or a file with its bytes. */
  datatype FsEntry = DirectoryEntry | FileEntry(bytes: seq<bv8>)
  type FileSystem = map<string, FsEntry>

  /** The serializer's binary encoding of a directory, and its decoding
      (`None` for a null result). */
  datatype Serializer = Serializer(encode: ContextDirectory -> seq<bv8>, decode: seq<bv8> -> Option<ContextDirectory>)

  ghost predicate RoundTrips(ser: Serializer) {
    forall m: ContextDirectory :: ser.decode(ser.encode(m)) == Some(m)
  }

  const CacheFileName: string := "PersistentContextCache.bytes"

  /** `CacheFilePath`, under the module's temporary directory `dir`. */
  function CacheFilePath(dir: string): (path: string)
    ensures |path| > |dir| && path[..|dir|] == dir && path != dir
  {
    dir + "/" + CacheFileName
  }

  /** `Directory.Exists` followed by `Directory.CreateDirectory` when it
      does not: a file in the way makes the creation throw. */
  function EnsureDirectory(fs: FileSystem, dir: string): (r: Outcome<FileSystem>)
    ensures r.Ok? ==> dir in r.value && r.value[dir] == DirectoryEntry
    ensures r.Ok? ==> forall p | p != dir :: (p in r.value <==> p in fs) && (p in fs ==> r.value[p] == fs[p])
    ensures r.Throws? <==> dir in fs && fs[dir].FileEntry?
  {
    if dir in fs && fs[dir].FileEntry? then Throws(IOException)
    else Ok(fs[dir := DirectoryEntry])
  }

  /** `File.WriteAllBytes`: writing to a path that is a directory throws. */
  function WriteAllBytes(fs: FileSystem, path: string, bytes: seq<bv8>): (r: Outcome<FileSystem>)
    ensures r.Throws? <==> path in fs && fs[path].DirectoryEntry?
    ensures r.Ok? ==> r.value == fs[path := FileEntry(bytes)]
  {
    if path in fs && fs[path].DirectoryEntry? then Throws(UnauthorizedAccessException)
    else Ok(fs[path := FileEntry(bytes)])
  }

  /** `LoadCache`: make sure the directory and the (possibly empty) cache
      file exist, read the file and deserialise it. */
  function LoadCache(fs: FileSystem, dir: string, ser: Serializer): (r: (Outcome<Option<ContextDirectory>>, FileSystem))
    ensures var path := CacheFilePath(dir);
            r.0.Throws? <==> (dir in fs && fs[dir].FileEntry?) || (path in fs && fs[path].DirectoryEntry?)
    ensures var path := CacheFilePath(dir);
            r.0.Ok? ==> && dir in r.1 && r.1[dir] == DirectoryEntry
                        && path in r.1 && r.1[path].FileEntry?
                        && r.0.value == ser.decode(r.1[path].bytes)
                        && forall p | p != dir && p != path :: (p in r.1 <==> p in fs) && (p in fs ==> r.1[p] == fs[p])
    ensures var path := CacheFilePath(dir);
            path in fs && fs[path].FileEntry? && !(dir in fs && fs[dir].FileEntry?) ==>
              r.0 == Ok(ser.decode(fs[path].bytes)) && r.1[path] == fs[path]
    ensures var path := CacheFilePath(dir);
            path !in fs && !(dir in fs && fs[dir].FileEntry?) ==>
              r.0 == Ok(ser.decode([])) && r.1[path] == FileEntry([])
  {
    match EnsureDirectory(fs, dir)
    case Throws(err) => (Throws(err), fs)
    case Ok(fs1) =>
      var path := CacheFilePath(dir);
      if path in fs1 && fs1[path].DirectoryEntry? then (Throws(UnauthorizedAccessException), fs1)
      else
        var fs2 := if path in fs1 then fs1 else fs1[path := FileEntry([])];
        (Ok(ser.decode(fs2[path].bytes)), fs2)
  }

  /** `SaveCache` as the source writes it: an empty cache deletes the file;
      otherwise the bytes go to `CacheDirectory` itself, not to the cache
      file. Every exception is logged and swallowed. */
  function SaveCacheAsWritten(c: Cache, fs: FileSystem, dir: string, ser: Serializer): (r: (Cache, FileSystem))
    ensures |c.entries| == 0 ==> r == SaveCache(c, fs, dir, ser)
    ensures var path := CacheFilePath(dir);
            |c.entries| > 0 ==> && r.0 == c
                                && (path in r.1 <==> path in fs) && (path in fs ==> r.1[path] == fs[path])
  {
    SaveCacheTo(c, fs, dir, dir, ser)
  }

  /** `SaveCache` writing to the cache file, as `LoadCache` reads it. */
  function SaveCache(c: Cache, fs: FileSystem, dir: string, ser: Serializer): (r: (Cache, FileSystem))
    ensures var path := CacheFilePath(dir);
            |c.entries| == 0 ==> && r.0.entries == map[]
                                 && !(path in r.1 && r.1[path].FileEntry?)
                                 && forall p | p != path :: (p in r.1 <==> p in fs) && (p in fs ==> r.1[p] == fs[p])
    ensures var path := CacheFilePath(dir);
            && |c.entries| > 0 && !(dir in fs && fs[dir].FileEntry?) && !(path in fs && fs[path].DirectoryEntry?)
            ==> r.0 == c && r.1 == fs[dir := DirectoryEntry][path := FileEntry(ser.encode(c.entries))]
    ensures |c.entries| > 0 ==> r.0 == c
  {
    SaveCacheTo(c, fs, dir, CacheFilePath(dir), ser)
  }

  /** The shared body of both: `target` is the path the bytes are written
      to. */
  function SaveCacheTo(c: Cache, fs: FileSystem, dir: string, target: string, ser: Serializer): (r: (Cache, FileSystem))
    ensures |c.entries| == 0 ==> r.0.entries == map[]
    ensures |c.entries| > 0 ==> r.0 == c
  {
    var path := CacheFilePath(dir);
    if |c.entries| == 0 then
      if !(path in fs && fs[path].FileEntry?) then (c, fs)
      else (c.(entries := map[]), fs - {path})
    else
      match EnsureDirectory(fs, dir)
      case Throws(_) => (c, fs)
      case Ok(fs1) =>
        match WriteAllBytes(fs1, target, ser.encode(c.entries))
        case Throws(_) => (c, fs1)
        case Ok(fs2) => (c, fs2)
  }

  /** As written, saving a non-empty cache never touches the cache file:
      the write to the directory path always throws, because the line
      before made sure that path is a directory. */
  lemma SaveAsWrittenLeavesFile(c: Cache, fs: FileSystem, dir: string, ser: Serializer)
    requires |c.entries| > 0
    ensures var fs' := SaveCacheAsWritten(c, fs, dir, ser).1;
            var path := CacheFilePath(dir);
            (path in fs' <==> path in fs) && (path in fs ==> fs'[path] == fs[path])
  {
  }

  /** Hence what the next session loads does not depend on what was saved:
      two different non-empty caches saved over the same disk load back the
      same directory, so at most one of them can survive a restart. */
  lemma SavedCacheIsLost(c1: Cache, c2: Cache, fs: FileSystem, dir: string, ser: Serializer)
    requires |c1.entries| > 0 && |c2.entries| > 0
    ensures LoadCache(SaveCacheAsWritten(c1, fs, dir, ser).1, dir, ser).0
            == LoadCache(SaveCacheAsWritten(c2, fs, dir, ser).1, dir, ser).0
  {
    var fa := SaveCacheAsWritten(c1, fs, dir, ser).1;
    var fb := SaveCacheAsWritten(c2, fs, dir, ser).1;
    assert EnsureDirectory(fs, dir).Ok? ==> fa == fb == EnsureDirectory(fs, dir).value;
  }

  /** Written to the cache file, a saved cache is what the next session
      loads, provided nothing on disk is in the way and the serializer
      round-trips. */
  lemma SaveThenLoadRoundTrips(c: Cache, fs: FileSystem, dir: string, ser: Serializer)
    requires RoundTrips(ser) && |c.entries| > 0
    requires !(dir in fs && fs[dir].FileEntry?)
    requires !(CacheFilePath(dir) in fs && fs[CacheFilePath(dir)].DirectoryEntry?)
    ensures LoadCache(SaveCache(c, fs, dir, ser).1, dir, ser).0 == Ok(Some(c.entries))
  {
    var fs1 := EnsureDirectory(fs, dir).value;
    var path := CacheFilePath(dir);
    assert path != dir;
    var fs2 := SaveCache(c, fs, dir, ser).1;
    assert fs2 == fs1[path := FileEntry(ser.encode(c.entries))];
    assert ser.decode(ser.encode(c.entries)) == Some(c.entries);
  }
}

=== FILE: processor_chain.dfy ===
/** `VisualProcessorChain`: a snapshot of processors walked by an explicit
    cursor. Reading `Current` binds the processor under the cursor to the
    chain and its element; `MoveNext` advances the cursor; each processor
    hands control on with `CallNextProcessor`. */
module ProcessorChain {
  import opened Wrappers
  import opened HandlerBases

  /** A chain: its identity, the element it serves, the processors (copied
      at construction) and the cursor `_index`. */
  datatype Chain = Chain(id: nat, element: nat, processors: seq<HandlerInstance>, index: int)

  /** The constructor: the cursor starts before the first processor. */
  function NewChain(id: nat, element: nat, processors: seq<HandlerInstance>): (c: Chain)
    ensures c.index == -1 && c.processors == processors && c.element == element && c.id == id
  {
    Chain(id, element, processors, -1)
  }

  /** The processor under the cursor, bound to this chain and element, or
      `null` outside the processors. */
  function Current(c: Chain): (r: (Option<HandlerInstance>, Chain))
    ensures r.0.Some? <==> 0 <= c.index < |c.processors|
    ensures r.1.id == c.id && r.1.element == c.element && r.1.index == c.index
    ensures |r.1.processors| == |c.processors|
    ensures r.0.Some? ==>
              && r.0.value == r.1.processors[c.index]
              && r.0.value == c.processors[c.index].(element := Some(c.element), chain := Some(c.id))
    ensures forall k | 0 <= k < |c.processors| && k != c.index :: r.1.processors[k] == c.processors[k]
    ensures r.0.None? ==> r.1 == c
  {
    if 0 <= c.index < |c.processors| then
      var bound := BindToChain(c.processors[c.index], c.element, c.id);
      (Some(bound), c.(processors := c.processors[c.index := bound]))
    else
      (None, c)
  }

  /** `MoveNext`: advance, then report whether a processor is under the cursor. */
  function MoveNext(c: Chain): (r: (bool, Chain))
    ensures r.1.index == c.index + 1 && r.1.id == c.id && r.1.element == c.element
    ensures |r.1.processors| == |c.processors|
    ensures r.0 <==> 0 <= c.index + 1 < |c.processors|
  {
    var (cur, c') := Current(c.(index := c.index + 1));
    (cur.Some?, c')
  }

  /** `Reset` (and `IDisposable.Dispose`, which only resets). */
  function Reset(c: Chain): (r: Chain)
    ensures r.index == -1 && r.processors == c.processors && r.id == c.id && r.element == c.element
  {
    c.(index := -1)
  }

  /** `k` calls of `MoveNext`. */
  function Advance(c: Chain, k: nat): (r: Chain)
    ensures r.index == c.index + k && |r.processors| == |c.processors| && r.id == c.id && r.element == c.element
    decreases k
  {
    if k == 0 then c else Advance(MoveNext(c).1, k - 1)
  }

  /** After `Reset`, the `k`-th `MoveNext` succeeds exactly for the first
      `|processors|` calls: every processor is visited, none is skipped. */
  lemma MoveNextAfterReset(c: Chain, k: nat)
    requires k >= 1
    ensures MoveNext(Advance(Reset(c), k - 1)).0 <==> k <= |c.processors|
  {
  }

  /** Once the cursor has run off the end, `MoveNext` keeps failing. */
  lemma ExhaustedStaysExhausted(c: Chain)
    requires c.index >= -1 && !MoveNext(c).0
    ensures !MoveNext(MoveNext(c).1).0
  {
  }

  /** `VisualProcessor.CallNextProcessor`: advance the chain and, when a
      processor is there, run its `Process` (initialising it first). */
  function CallNextProcessor(c: Chain): (r: (bool, Chain))
    ensures r.1.index == c.index + 1 && r.1.id == c.id && r.1.element == c.element
    ensures |r.1.processors| == |c.processors|
    ensures r.0 <==> 0 <= c.index + 1 < |c.processors|
    ensures r.0 ==> r.1.processors[c.index + 1]
                     == Work(c.processors[c.index + 1].(element := Some(c.element), chain := Some(c.id)))
    ensures forall k | 0 <= k < |c.processors| && k != c.index + 1 :: r.1.processors[k] == c.processors[k]
  {
    var (moved, c1) := MoveNext(c);
    if moved then
      var (cur, c2) := Current(c1);
      var worked := Work(cur.value);
      (true, c2.(processors := c2.processors[c2.index := worked]))
    else
      (false, c1)
  }

  /** `k` processors each handing on to the next. */
  function RunChain(c: Chain, k: nat): (r: Chain)
    ensures r.index == c.index + k && |r.processors| == |c.processors| && r.id == c.id && r.element == c.element
    decreases k
  {
    if k == 0 then c else RunChain(CallNextProcessor(c).1, k - 1)
  }

  /** Starting from a reset chain, `k` hand-offs run exactly the first `k`
      processors once each, in order, each bound to the chain and its
      element, and leave the rest untouched. */
  lemma {:induction false} RunChainVisitsPrefix(c: Chain, k: nat)
    requires c.index == -1 && k <= |c.processors|
    ensures var r := RunChain(c, k);
            && r.index == k - 1
            && (forall i | 0 <= i < k ::
                  && r.processors[i].workCalls == c.processors[i].workCalls + 1
                  && r.processors[i].isInitialized
                  && r.processors[i].element == Some(c.element)
                  && r.processors[i].chain == Some(c.id))
            && (forall i | k <= i < |c.processors| :: r.processors[i] == c.processors[i])
    decreases k
  {
    if k > 0 {
      RunChainVisitsPrefix(c, k - 1);
      RunChainLast(c, k - 1);
    }
  }

  /** Splitting off the last hand-off of a run. */
  predicate RunChainStep(c: Chain, k: nat) {
    RunChain(c, k + 1) == CallNextProcessor(RunChain(c, k)).1
  }

  lemma {:induction false} RunChainLast(c: Chain, k: nat)
    ensures RunChainStep(c, k)
    decreases k
  {
    if k > 0 {
      RunChainLast(CallNextProcessor(c).1, k - 1);
    }
  }
}

=== FILE: resolver_pool.dfy ===
/** Pooled resolvers and the default resolver factories. `ResolverUtility`
    (which picks a resolver type for an element and keeps the pool) is not
    part of this model: the chosen type is a parameter, and the pool is a log
    of rent and release events with a fresh identity per rent. */
module ResolverPool {
  import opened Wrappers
  import opened Types

  /** The resolver capabilities an element asks factories for. */
  datatype Capability =
    | AttributeResolver
    | DrawerChainResolver
    | PostProcessorChainResolver
    | VisualBuilderResolver
    | VisualProcessorChainResolver
    | StructureResolver
    | ValueOperationResolver

  datatype PoolEvent = Rented(id: nat, resolverType: Ty, capability: Capability) | Released(id: nat)

  /** The pool: the next fresh identity and every rent and release so far. */
  datatype Pool = Pool(nextId: nat, log: seq<PoolEvent>)

  function EmptyPool(): (p: Pool)
    ensures p.nextId == 0 && p.log == []
  {
    Pool(0, [])
  }

  function RentCount(log: seq<PoolEvent>, id: nat): nat
    decreases |log|
  {
    if |log| == 0 then 0
    else RentCount(log[..|log| - 1], id) + (if log[|log| - 1].Rented? && log[|log| - 1].id == id then 1 else 0)
  }

  function ReleaseCount(log: seq<PoolEvent>, id: nat): nat
    decreases |log|
  {
    if |log| == 0 then 0
    else ReleaseCount(log[..|log| - 1], id) + (if log[|log| - 1].Released? && log[|log| - 1].id == id then 1 else 0)
  }

  /** Rented and not yet given back. */
  predicate Outstanding(p: Pool, id: nat) {
    RentCount(p.log, id) == 1 && ReleaseCount(p.log, id) == 0
  }

  /** The pool's bookkeeping is sound: identities at or beyond `nextId` were
      never handed out, each identity was rented at most once, and nothing
      was released more often than rented. */
  ghost predicate WellFormed(p: Pool) {
    && (forall id: nat | id >= p.nextId :: RentCount(p.log, id) == 0)
    && (forall id: nat :: RentCount(p.log, id) <= 1 && ReleaseCount(p.log, id) <= RentCount(p.log, id))
  }

  lemma EmptyPoolWellFormed()
    ensures WellFormed(EmptyPool())
  {
  }

  /** `ResolverUtility.RentResolver`: a fresh resolver of the given type. */
  function Rent(p: Pool, resolverType: Ty, capability: Capability): (r: (nat, Pool))
    ensures r.0 == p.nextId && r.1.nextId == p.nextId + 1
    ensures r.1.log == p.log + [Rented(r.0, resolverType, capability)]
  {
    (p.nextId, Pool(p.nextId + 1, p.log + [Rented(p.nextId, resolverType, capability)]))
  }

  /** `ResolverUtility.ReleaseResolver`. */
  function Release(p: Pool, id: nat): (r: Pool)
    ensures r.nextId == p.nextId && r.log == p.log + [Released(id)]
  {
    Pool(p.nextId, p.log + [Released(id)])
  }

  lemma CountsAfterRent(p: Pool, resolverType: Ty, capability: Capability, id: nat)
    ensures var (newId, q) := Rent(p, resolverType, capability);
            && RentCount(q.log, id) == RentCount(p.log, id) + (if id == newId then 1 else 0)
            && ReleaseCount(q.log, id) == ReleaseCount(p.log, id)
  {
    var q := Rent(p, resolverType, capability).1;
    assert q.log[..|q.log| - 1] == p.log;
  }

  lemma CountsAfterRelease(p: Pool, released: nat, id: nat)
    ensures RentCount(Release(p, released).log, id) == RentCount(p.log, id)
    ensures ReleaseCount(Release(p, released).log, id) == ReleaseCount(p.log, id) + (if id == released then 1 else 0)
  {
    var q := Release(p, released);
    assert q.log[..|q.log| - 1] == p.log;
  }

  /** Renting keeps the pool sound and makes exactly the new identity
      outstanding. */
  lemma RentKeepsWellFormed(p: Pool, resolverType: Ty, capability: Capability)
    requires WellFormed(p)
    ensures var (newId, q) := Rent(p, resolverType, capability);
            && WellFormed(q)
            && Outstanding(q, newId) && !Outstanding(p, newId)
            && forall id: nat | id != newId :: Outstanding(q, id) == Outstanding(p, id)
  {
    var (newId, q) := Rent(p, resolverType, capability);
    forall id: nat
      ensures RentCount(q.log, id) == RentCount(p.log, id) + (if id == newId then 1 else 0)
      ensures ReleaseCount(q.log, id) == ReleaseCount(p.log, id)
    {
      CountsAfterRent(p, resolverType, capability, id);
    }
  }

  /** Releasing an outstanding resolver keeps the pool sound and gives back
      exactly that identity. */
  lemma ReleaseKeepsWellFormed(p: Pool, released: nat)
    requires WellFormed(p) && Outstanding(p, released)
    ensures var q := Release(p, released);
            && WellFormed(q)
            && !Outstanding(q, released)
            && RentCount(q.log, released) == 1 && ReleaseCount(q.log, released) == 1
            && forall id: nat | id != released :: Outstanding(q, id) == Outstanding(p, id)
  {
    var q := Release(p, released);
    forall id: nat
      ensures RentCount(q.log, id) == RentCount(p.log, id)
      ensures ReleaseCount(q.log, id) == ReleaseCount(p.log, id) + (if id == released then 1 else 0)
    {
      CountsAfterRelease(p, released, id);
    }
  }

  /** The log only grows, so neither count ever goes down. */
  lemma {:induction false} CountsGrow(log1: seq<PoolEvent>, log2: seq<PoolEvent>, id: nat)
    requires log1 <= log2
    ensures RentCount(log1, id) <= RentCount(log2, id)
    ensures ReleaseCount(log1, id) <= ReleaseCount(log2, id)
    decreases |log2|
  {
    if |log1| < |log2| {
      assert log1 <= log2[..|log2| - 1];
      CountsGrow(log1, log2[..|log2| - 1], id);
    } else {
      assert log1 == log2;
    }
  }

  // ---------------------------------------------------------------------------
  // Factories
  // ---------------------------------------------------------------------------

  /** A resolver handed to an element: its pool identity, its type, and the
      element it is bound to. */
  datatype ResolverHandle = ResolverHandle(id: nat, resolverType: Ty, capability: Capability, element: nat)

  /** Every `Default…ResolverFactory.CreateResolver`: ask for the resolver type;
      none gives `null` and leaves the pool alone; otherwise rent one and bind
      it to the element. `resolverType` is what `ResolverUtility.GetResolverType`
      answers for this element and capability. */
  function CreateResolver(capability: Capability, resolverType: Option<Ty>, element: nat, p: Pool)
    : (r: (Option<ResolverHandle>, Pool))
    ensures resolverType.None? ==> r == (None, p)
    ensures resolverType.Some? ==>
              && r.0 == Some(ResolverHandle(p.nextId, resolverType.value, capability, element))
              && r.1 == Rent(p, resolverType.value, capability).1
  {
    match resolverType
    case None => (None, p)
    case Some(ty) =>
      var (id, p') := Rent(p, ty, capability);
      (Some(ResolverHandle(id, ty, capability, element)), p')
  }

  /** A created resolver is outstanding in a sound pool, bound to the
      requesting element, of the requested capability. */
  lemma CreatedResolverIsOutstanding(capability: Capability, resolverType: Option<Ty>, element: nat, p: Pool)
    requires WellFormed(p)
    ensures var (h, q) := CreateResolver(capability, resolverType, element, p);
            && WellFormed(q)
            && (h.Some? ==>
                  && Outstanding(q, h.value.id) && !Outstanding(p, h.value.id)
                  && h.value.element == element && h.value.capability == capability)
  {
    if resolverType.Some? {
      RentKeepsWellFormed(p, resolverType.value, capability);
    }
  }
}

=== FILE: tree_factory.dfy ===
/** `ElementTreeFactory`: building an element tree from inspected targets,
    after checking that the targets and the serialized object agree. A
    target is an object reference (`None` for null) with its runtime type;
    the tree is given back as the four values its constructor receives. */
module TreeFactory {
  import opened Wrappers
  import opened Types
  import ElementLifecycle

  const UnityObjectType: Ty := NamedClass("UnityEngine.Object")

  /** An object reference: its identity and its runtime type. */
  datatype Ref = Ref(id: nat, runtimeType: Ty)

  /** A target slot: a reference, or null. */
  type Target = Option<Ref>

  /** A `SerializedObject` over its target objects. */
  datatype SerializedObject = SerializedObject(targetObjects: seq<Target>)

  /** What `new ElementTree(...)` receives. */
  datatype TreeSpec = TreeSpec(
    targets: seq<Target>,
    serializedObject: Option<SerializedObject>,
    backendMode: ElementLifecycle.Backend,
    rootVisualElement: Option<nat>)

  /** `object.ReferenceEquals`: two nulls are equal, a null and a reference
      are not, two references are equal when they are the same object. */
  predicate ReferenceEquals(a: Target, b: Target) {
    a == b
  }

  /** The loop over the serialized object's targets: same length, and the
      same reference at every position. */
  method SerializedObjectMatches(targets: seq<Target>, so: SerializedObject) returns (valid: bool)
    ensures valid <==> targets == so.targetObjects
  {
    var targetObjects := so.targetObjects;
    if |targets| != |targetObjects| {
      return false;
    }
    valid := true;
    var i := 0;
    while i < |targets|
      invariant 0 <= i <= |targets|
      invariant valid <==> targets[..i] == targetObjects[..i]
      invariant !valid ==> targets != targetObjects
      decreases |targets| - i, valid
    {
      if !ReferenceEquals(targets[i], targetObjects[i]) {
        valid := false;
        break;
      }
      assert targets[..i + 1] == targets[..i] + [targets[i]];
      assert targetObjects[..i + 1] == targetObjects[..i] + [targetObjects[i]];
      i := i + 1;
    }
    if valid {
      assert targets == targets[..i] && targetObjects == targetObjects[..i];
    }
  }

  /** `targets.All(t => t.GetType() == first)`, in order: the first null
      target throws, unless a target before it already had another type. */
  function AllOfType(targets: seq<Target>, first: Ty): (r: Outcome<bool>)
    ensures r == Ok(true) <==> forall i | 0 <= i < |targets| :: targets[i].Some? && targets[i].value.runtimeType == first
    ensures r.Throws? ==> r.error == NullReferenceException
    decreases |targets|
  {
    if |targets| == 0 then Ok(true)
    else if targets[0].None? then Throws(NullReferenceException)
    else if targets[0].value.runtimeType != first then Ok(false)
    else AllOfType(targets[1..], first)
  }

  /** All targets are non-null references of one runtime type. */
  predicate Homogeneous(targets: seq<Target>) {
    || |targets| == 0
    || (&& targets[0].Some?
        && forall i | 0 <= i < |targets| :: targets[i].Some? && targets[i].value.runtimeType == targets[0].value.runtimeType)
  }

  /** `CreateTree(object[], SerializedObject, ...)`. */
  method CreateTree(targets: Option<seq<Target>>, serializedObject: Option<SerializedObject>,
                    backendMode: ElementLifecycle.Backend, rootVisualElement: Option<nat>)
    returns (r: Outcome<TreeSpec>)
    ensures targets.None? ==> r == Throws(ArgumentNullException("targets"))
    ensures targets.Some? && serializedObject.Some? ==>
              if targets.value == serializedObject.value.targetObjects
              then r == Ok(TreeSpec(targets.value, serializedObject, backendMode, rootVisualElement))
              else r == Throws(ArgumentException("SerializedObject is not valid for targets."))
    ensures targets.Some? && serializedObject.None? ==>
              (r.Ok? <==> Homogeneous(targets.value))
    ensures targets.Some? && serializedObject.None? && r.Ok? ==>
              && r.value.targets == targets.value
              && r.value.backendMode == backendMode && r.value.rootVisualElement == rootVisualElement
              && (r.value.serializedObject.Some? <==>
                    |targets.value| > 0 && DerivesFrom(targets.value[0].value.runtimeType, UnityObjectType))
              && (r.value.serializedObject.Some? ==> r.value.serializedObject.value.targetObjects == targets.value)
    ensures targets.Some? && serializedObject.None? && |targets.value| > 0 && targets.value[0].None? ==>
              r == Throws(NullReferenceException)
  {
    if targets.None? {
      return Throws(ArgumentNullException("targets"));
    }
    var ts := targets.value;
    var so := serializedObject;
    if so.Some? {
      var valid := SerializedObjectMatches(ts, so.value);
      if !valid {
        return Throws(ArgumentException("SerializedObject is not valid for targets."));
      }
    } else if |ts| > 0 {
      if ts[0].None? {
        return Throws(NullReferenceException);
      }
      var firstTargetType := ts[0].value.runtimeType;
      match AllOfType(ts, firstTargetType)
      case Throws(err) => return Throws(err);
      case Ok(allSameType) =>
        if !allSameType {
          return Throws(ArgumentException("All targets must have the same type."));
        }
      if DerivesFrom(firstTargetType, UnityObjectType) {
        so := Some(SerializedObject(ts));
      }
    }
    return Ok(TreeSpec(ts, so, backendMode, rootVisualElement));
  }

  /** `CreateTree(SerializedObject, ...)`: the serialized object's own
      targets are forwarded with it, so a non-null serialized object always
      gives a tree over exactly its targets. */
  method CreateTreeFromSerializedObject(serializedObject: Option<SerializedObject>,
                                        backendMode: ElementLifecycle.Backend, rootVisualElement: Option<nat>)
    returns (r: Outcome<TreeSpec>)
    ensures serializedObject.None? ==> r == Throws(ArgumentNullException("serializedObject"))
    ensures serializedObject.Some? ==>
              r == Ok(TreeSpec(serializedObject.value.targetObjects, serializedObject, backendMode, rootVisualElement))
  {
    if serializedObject.None? {
      return Throws(ArgumentNullException("serializedObject"));
    }
    r := CreateTree(Some(serializedObject.value.targetObjects), serializedObject, backendMode, rootVisualElement);
  }

  /** The type check rejects every list holding a null. With `k` the first
      null, it throws exactly when no earlier target has another type, and
      reports a mismatch otherwise. */
  lemma {:induction false} NullTargetIsRejected(targets: seq<Target>, first: Ty, k: nat)
    requires k < |targets| && targets[k].None?
    requires forall i | 0 <= i < k :: targets[i].Some?
    ensures AllOfType(targets, first) != Ok(true)
    ensures AllOfType(targets, first) == Throws(NullReferenceException) <==>
              forall i | 0 <= i < k :: targets[i].Some? && targets[i].value.runtimeType == first
    decreases |targets|
  {
    if k > 0 && targets[0].Some? && targets[0].value.runtimeType == first {
      NullTargetIsRejected(targets[1..], first, k - 1);
      forall i | 0 <= i < k ensures targets[i].Some? && targets[i].value.runtimeType == first
                                <==> (i == 0 || (targets[1..][i - 1].Some? && targets[1..][i - 1].value.runtimeType == first)) {
      }
    }
  }
}

=== FILE: types.dfy ===
/** The slice of .NET reflection the inspector engine relies on: a type with
    its base class, implemented interfaces, generic shape and declared custom
    attributes, and the subtype relation derived from them. */
module Types {
  import opened Wrappers

  datatype TypeKind = ClassKind | InterfaceKind | StructKind

  /** A custom attribute declared on a type, as far as handler discovery reads it:
      an `IPriorityAccessor` marker carrying a priority, the `HandlerConstraints`
      marker, or anything else. */
  datatype TypeAttribute =
    | PriorityMarker(priority: int)
    | ConstraintsMarker
    | OtherAttribute(name: string)

  /** A runtime type. `genericDefinition` names the open generic definition of a
      constructed generic type (`EasyValueDrawer<>` for `EasyValueDrawer<int>`)
      and `genericArguments` are its type arguments. */
  datatype Ty = Ty(
    name: string,
    kind: TypeKind,
    isAbstract: bool,
    genericDefinition: Option<string>,
    genericArguments: seq<Ty>,
    attributes: seq<TypeAttribute>,
    baseType: Option<Ty>,
    interfaces: seq<Ty>)
  {
    predicate IsGenericType() {
      genericDefinition.Some?
    }

    predicate IsConcreteClass() {
      kind == ClassKind && !isAbstract
    }

    predicate HasConstraintsMarker() {
      ConstraintsMarker in attributes
    }
  }

  /** A non-generic class that matters only by identity (framework base types). */
  function NamedClass(name: string): (t: Ty)
    ensures t.name == name && t.kind == ClassKind && !t.IsGenericType()
  {
    Ty(name, ClassKind, false, None, [], [], None, [])
  }

  /** A non-generic interface that matters only by identity (capability interfaces). */
  function NamedInterface(name: string): (t: Ty)
    ensures t.name == name && t.kind == InterfaceKind && !t.IsGenericType()
  {
    Ty(name, InterfaceKind, false, None, [], [], None, [])
  }

  /** `t.IsDerivedFrom(u)` / `u.IsAssignableFrom(t)`: `u` is `t` itself, one of
      its base classes, or an interface it implements. */
  predicate DerivesFrom(t: Ty, u: Ty)
    decreases t
  {
    || t == u
    || (t.baseType.Some? && DerivesFrom(t.baseType.value, u))
    || (exists i | i in t.interfaces :: DerivesFrom(i, u))
  }

  /** `type.IsImplementsGenericDefinition(typeof(G<>))`: some type in the
      inheritance graph of `t`, `t` included, is a constructed `G<...>`. */
  predicate ImplementsGenericDefinition(t: Ty, definition: string)
    decreases t
  {
    || t.genericDefinition == Some(definition)
    || (t.baseType.Some? && ImplementsGenericDefinition(t.baseType.value, definition))
    || (exists i | i in t.interfaces :: ImplementsGenericDefinition(i, definition))
  }

  /** The base-class chain starting with `t` itself, nearest first. */
  function BaseChain(t: Ty): (chain: seq<Ty>)
    ensures |chain| >= 1 && chain[0] == t
    decreases t
  {
    [t] + (if t.baseType.Some? then BaseChain(t.baseType.value) else [])
  }

  /** `GetCustomAttributes(inherit: true)`: the type's own attributes, then those
      of its base classes, nearest first. */
  function InheritedAttributes(t: Ty): seq<TypeAttribute>
    decreases t
  {
    t.attributes + (if t.baseType.Some? then InheritedAttributes(t.baseType.value) else [])
  }

  /** Every type on the base chain of `t` is a supertype of `t`. */
  lemma {:induction false} BaseChainAreSupertypes(t: Ty, k: nat)
    requires k < |BaseChain(t)|
    ensures DerivesFrom(t, BaseChain(t)[k])
    decreases t
  {
    if k > 0 {
      var b := t.baseType.value;
      assert BaseChain(t)[k] == BaseChain(b)[k - 1];
      BaseChainAreSupertypes(b, k - 1);
    }
  }

  /** The subtype relation is transitive. */
  lemma {:induction false} DerivesFromTransitive(a: Ty, b: Ty, c: Ty)
    requires DerivesFrom(a, b) && DerivesFrom(b, c)
    ensures DerivesFrom(a, c)
    decreases a
  {
    if a == b {
    } else if a.baseType.Some? && DerivesFrom(a.baseType.value, b) {
      DerivesFromTransitive(a.baseType.value, b, c);
    } else {
      var i :| i in a.interfaces && DerivesFrom(i, b);
      DerivesFromTransitive(i, b, c);
    }
  }

  /** The keys the editor builds from two strings (a handler's type name and
      an element's key; an element's key and a caller's key): the two joined
      by `+`, each recoverable by position. */
  function JoinedKey(first: string, second: string): (key: string)
    ensures |key| == |first| + 1 + |second|
    ensures key[..|first|] == first && key[|first|] == '+' && key[|first| + 1..] == second
  {
    first + "+" + second
  }
}

=== FILE: value_operations.dfy ===
/** Value operations: how a value element reads and writes its value.
    `ListElementOperation` reads and writes one fixed position of a list;
    `GenericValueOperation` and `MemberValueOperation` go through a getter
    and an optional setter, and are read-only exactly when there is no
    setter. Owners are passed by reference in the source (a struct owner is
    copied, changed and written back); here an accessor takes the owner and
    gives back the owner as it is afterwards. */
module ValueOperations {
  import opened Wrappers

  // ---------------------------------------------------------------------------
  // ListElementOperation
  // ---------------------------------------------------------------------------

  /** The operation for the item at `elementIndex`, fixed when it is
      constructed. The collection is indexed through `IList<TValue>`, whose
      indexer throws `ArgumentOutOfRangeException` outside the valid range,
      arrays included. */
  datatype ListElementOperation = ListElementOperation(elementIndex: int)

  /** `GetElementValue`. */
  function GetElementValue<V>(op: ListElementOperation, collection: seq<V>): (r: Outcome<V>)
    ensures r.Ok? <==> 0 <= op.elementIndex < |collection|
    ensures r.Ok? ==> r.value == collection[op.elementIndex]
    ensures r.Throws? ==> r.error == ArgumentOutOfRangeException
  {
    if 0 <= op.elementIndex < |collection| then Ok(collection[op.elementIndex])
    else Throws(ArgumentOutOfRangeException)
  }

  /** `SetElementValue`: the collection comes back with exactly one position
      replaced. */
  function SetElementValue<V>(op: ListElementOperation, collection: seq<V>, value: V): (r: Outcome<seq<V>>)
    ensures r.Ok? <==> 0 <= op.elementIndex < |collection|
    ensures r.Ok? ==> |r.value| == |collection| && r.value[op.elementIndex] == value
    ensures r.Ok? ==> forall i | 0 <= i < |collection| && i != op.elementIndex :: r.value[i] == collection[i]
    ensures r.Throws? ==> r.error == ArgumentOutOfRangeException
  {
    if 0 <= op.elementIndex < |collection| then Ok(collection[op.elementIndex := value])
    else Throws(ArgumentOutOfRangeException)
  }

  /** A write is read back, and a second write of the same value changes
      nothing more. */
  lemma SetThenGet<V>(op: ListElementOperation, collection: seq<V>, value: V)
    requires 0 <= op.elementIndex < |collection|
    ensures SetElementValue(op, collection, value).Ok?
    ensures GetElementValue(op, SetElementValue(op, collection, value).value) == Ok(value)
    ensures SetElementValue(op, SetElementValue(op, collection, value).value, value)
            == SetElementValue(op, collection, value)
  {
    var i := op.elementIndex;
    assert collection[i := value][i := value] == collection[i := value];
  }

  /** Writing back what was read leaves the collection as it was. */
  lemma GetThenSet<V>(op: ListElementOperation, collection: seq<V>)
    requires GetElementValue(op, collection).Ok?
    ensures SetElementValue(op, collection, GetElementValue(op, collection).value) == Ok(collection)
  {
    var i := op.elementIndex;
    assert collection[i := collection[i]] == collection;
  }

  /** Operations for two different positions do not interfere: a write
      through one leaves what the other reads unchanged. */
  lemma DistinctPositionsIndependent<V>(a: ListElementOperation, b: ListElementOperation, collection: seq<V>, value: V)
    requires a.elementIndex != b.elementIndex
    requires SetElementValue(a, collection, value).Ok?
    ensures GetElementValue(b, SetElementValue(a, collection, value).value) == GetElementValue(b, collection)
  {
  }

  // ---------------------------------------------------------------------------
  // Getter/setter operations
  // ---------------------------------------------------------------------------

  /** A getter reads the value and may change the owner it was given by
      reference; a setter writes the value and gives the owner back. */
  type Getter<!O, V> = O -> (V, O)
  type Setter<!O, !V> = (O, V) -> O

  /** The message `GenericValueOperation.SetValue` throws with. */
  const PropertyReadOnlyMessage: string := "Property is read-only"

  datatype GenericValueOperation<!O, !V> = GenericValueOperation(getter: Getter<O, V>, setter: Option<Setter<O, V>>)

  /** `IsReadOnly`. */
  predicate GenericIsReadOnly<O, V>(op: GenericValueOperation<O, V>) {
    op.setter.None?
  }

  /** `GetValue`: the getter's value and the owner as the getter left it. */
  function GenericGetValue<O, V>(op: GenericValueOperation<O, V>, owner: O): (V, O)
  {
    op.getter(owner)
  }

  /** `SetValue`: without a setter it throws and the owner stays as it was;
      with one it is called once on the owner and the value. */
  function GenericSetValue<O, V>(op: GenericValueOperation<O, V>, owner: O, value: V): (r: Outcome<O>)
    ensures r.Throws? <==> GenericIsReadOnly(op)
    ensures r.Throws? ==> r.error == NotSupportedException(PropertyReadOnlyMessage)
    ensures r.Ok? ==> r.value == op.setter.value(owner, value)
  {
    match op.setter
    case None => Throws(NotSupportedException(PropertyReadOnlyMessage))
    case Some(setter) => Ok(setter(owner, value))
  }

  /** Reading never consults the setter: a read-only operation reads exactly
      as a writable one with the same getter does. */
  lemma GenericReadIgnoresSetter<O, V>(op: GenericValueOperation<O, V>, owner: O, setter: Option<Setter<O, V>>)
    ensures GenericGetValue(op.(setter := setter), owner) == GenericGetValue(op, owner)
    ensures GenericIsReadOnly(op.(setter := None)) && GenericGetValue(op.(setter := None), owner) == GenericGetValue(op, owner)
  {
  }

  /** A getter and setter that agree: what is set is read back, and reading
      does not change the owner. */
  ghost predicate AccessorsAgree<O(!new), V(!new)>(getter: Getter<O, V>, setter: Setter<O, V>) {
    forall o: O, v: V :: getter(setter(o, v)) == (v, setter(o, v))
  }

  /** On a writable operation with agreeing accessors, a value set is the
      value read back. */
  lemma GenericSetThenGet<O(!new), V(!new)>(op: GenericValueOperation<O, V>, owner: O, value: V)
    requires !GenericIsReadOnly(op) && AccessorsAgree(op.getter, op.setter.value)
    ensures GenericSetValue(op, owner, value).Ok?
    ensures GenericGetValue(op, GenericSetValue(op, owner, value).value).0 == value
  {
  }

  // ---------------------------------------------------------------------------
  // MemberValueOperation
  // ---------------------------------------------------------------------------

  /** An owner as the operation receives it: either an instance of the
      operation's owner type, or an object of some other type. */
  datatype BoxedOwner<O> = OwnerInstance(owner: O) | ForeignObject

  datatype MemberValueOperation<!O, !V> = MemberValueOperation(
    memberName: string,
    getter: Getter<O, V>,
    setter: Option<Setter<O, V>>)

  /** The constructor: the getter is always built; a setter that fails to
      build makes the member read-only instead of failing. */
  function NewMemberValueOperation<O, V>(memberName: string, getter: Getter<O, V>, builtSetter: Outcome<Setter<O, V>>)
    : (op: MemberValueOperation<O, V>)
    ensures op.memberName == memberName && op.getter == getter
    ensures op.setter.None? <==> builtSetter.Throws?
    ensures builtSetter.Ok? ==> op.setter == Some(builtSetter.value)
  {
    MemberValueOperation(memberName, getter, if builtSetter.Ok? then Some(builtSetter.value) else None)
  }

  /** `IsReadOnly`. */
  predicate MemberIsReadOnly<O, V>(op: MemberValueOperation<O, V>) {
    op.setter.None?
  }

  /** The message naming a read-only member. */
  function MemberReadOnlyMessage(memberName: string): (m: string)
    ensures |m| == |"Member '"| + |memberName| + |"' is read-only."|
    ensures m[..|"Member '"|] == "Member '"
    ensures m[|"Member '"|..|"Member '"| + |memberName|] == memberName
    ensures m[|"Member '"| + |memberName|..] == "' is read-only."
  {
    "Member '" + memberName + "' is read-only."
  }

  /** Casting the boxed owner to the owner type. */
  function CastOwner<O>(boxed: BoxedOwner<O>): (r: Outcome<O>)
    ensures r.Ok? <==> boxed.OwnerInstance?
    ensures r.Ok? ==> r.value == boxed.owner
    ensures r.Throws? ==> r.error == InvalidCastException
  {
    match boxed
    case OwnerInstance(o) => Ok(o)
    case ForeignObject => Throws(InvalidCastException)
  }

  /** `GetValue`: cast, read, and write the (possibly copied) owner back. */
  function MemberGetValue<O, V>(op: MemberValueOperation<O, V>, boxed: BoxedOwner<O>): (r: Outcome<(V, BoxedOwner<O>)>)
    ensures r.Ok? <==> boxed.OwnerInstance?
    ensures r.Ok? ==> r.value == (op.getter(boxed.owner).0, OwnerInstance(op.getter(boxed.owner).1))
  {
    match CastOwner(boxed)
    case Throws(err) => Throws(err)
    case Ok(o) =>
      var (v, o') := op.getter(o);
      Ok((v, OwnerInstance(o')))
  }

  /** `SetValue`: a read-only member throws before the owner is even cast;
      otherwise cast, write, and write the owner back. */
  function MemberSetValue<O, V>(op: MemberValueOperation<O, V>, boxed: BoxedOwner<O>, value: V)
    : (r: Outcome<BoxedOwner<O>>)
    ensures MemberIsReadOnly(op) ==> r == Throws(NotSupportedException(MemberReadOnlyMessage(op.memberName)))
    ensures !MemberIsReadOnly(op) && boxed.ForeignObject? ==> r == Throws(InvalidCastException)
    ensures r.Ok? ==> && !MemberIsReadOnly(op) && boxed.OwnerInstance?
                      && r.value == OwnerInstance(op.setter.value(boxed.owner, value))
  {
    match op.setter
    case None => Throws(NotSupportedException(MemberReadOnlyMessage(op.memberName)))
    case Some(setter) =>
      match CastOwner(boxed)
      case Throws(err) => Throws(err)
      case Ok(o) => Ok(OwnerInstance(setter(o, value)))
  }

  /** A member whose setter could not be built is read-only, and every write
      to it fails with the message naming it, whatever the owner. */
  lemma FailedSetterMeansReadOnly<O, V>(memberName: string, getter: Getter<O, V>, err: Exception,
                                        boxed: BoxedOwner<O>, value: V)
    ensures var op := NewMemberValueOperation(memberName, getter, Throws(err));
            && MemberIsReadOnly(op)
            && MemberSetValue(op, boxed, value) == Throws(NotSupportedException(MemberReadOnlyMessage(memberName)))
  {
  }

  /** On a writable member with agreeing accessors, a value set through a
      proper owner is read back, and the owner stays a proper owner. */
  lemma MemberSetThenGet<O(!new), V(!new)>(op: MemberValueOperation<O, V>, owner: O, value: V)
    requires !MemberIsReadOnly(op) && AccessorsAgree(op.getter, op.setter.value)
    ensures MemberSetValue(op, OwnerInstance(owner), value).Ok?
    ensures var boxed := MemberSetValue(op, OwnerInstance(owner), value).value;
            MemberGetValue(op, boxed).Ok? && MemberGetValue(op, boxed).value.0 == value
  {
  }

  /** The two read-only messages differ in kind: a generic operation never
      names a member. */
  lemma ReadOnlyMessagesDiffer(memberName: string)
    ensures MemberReadOnlyMessage(memberName) != PropertyReadOnlyMessage
  {
    assert MemberReadOnlyMessage(memberName)[0] == 'M' != PropertyReadOnlyMessage[0];
  }
}

=== FILE: visual_collection_builder.dfy ===
/** `VisualCollectionBuilder`: the UIToolkit visual of a collection element.
    The draggable list works on a copy of the collection; edits made in the
    list are written back to the collection's first target, and changes of
    the collection come back to the list through callbacks queued on the
    tree. The ordered collection entry itself is not part of this model: its
    target-0 collection is a `seq` that behaves as `List<T>` does
    (`RemoveAt`, `Insert` and the indexer throw outside the valid range,
    `Remove` takes out the first equal item). */
module VisualCollectionBuilder {
  import opened Wrappers
  import opened CollectionStructure
  import opened DraggableList

  /** `CanBuildElement`: the builder takes exactly the elements the
      collection structure resolver takes. */
  predicate CanBuildElement(roles: set<Role>) {
    CollectionRole in roles
  }

  /** Builder and structure resolver agree on which elements are
      collections. */
  lemma BuilderMatchesStructureResolver(roles: set<Role>)
    ensures CanBuildElement(roles) <==> CanResolveElement(roles)
    ensures CanBuildElement(roles) <==> CollectionRole in roles
  {
  }

  /** A change of the collection as `CollectionChangedEventArgs` reports it:
      its kind, the item and the index, when one is given. */
  datatype ChangeKind = Add | Remove | Insert | RemoveAt | Clear
  datatype ChangeEvent<T> = ChangeEvent(kind: ChangeKind, item: T, index: Option<int>)

  /** The builder's state: the collection of the first target, the list
      view, and the callbacks queued on the tree and not yet run. */
  datatype BuilderState<T> = BuilderState(entry: seq<T>, view: ListState<T>, queued: seq<ChangeEvent<T>>)

  /** `CreateVisualElement`: the list view over a copy of the collection. */
  function CreateVisualElement<T>(entry: seq<T>): (b: BuilderState<T>)
    ensures b.view.items == entry && b.entry == entry && b.queued == []
    ensures b.view.countLabel == CountLabel(|entry|) && TryGetSelectedItem(b.view).None?
  {
    BuilderState(entry, NewListView(entry), [])
  }

  // ---------------------------------------------------------------------------
  // The collection, as List<T>
  // ---------------------------------------------------------------------------

  /** `RemoveAt` on the collection. */
  function EntryRemoveAt<T>(entry: seq<T>, i: int): (r: Outcome<seq<T>>)
    ensures r.Ok? <==> 0 <= i < |entry|
    ensures r.Throws? ==> r.error == ArgumentOutOfRangeException
    ensures r.Ok? ==> |r.value| == |entry| - 1 && entry == r.value[..i] + [entry[i]] + r.value[i..]
  {
    if 0 <= i < |entry| then Ok(entry[..i] + entry[i + 1..]) else Throws(ArgumentOutOfRangeException)
  }

  /** The collection after a change with the given report: what the entry
      did for the event to be raised. */
  function ApplyToEntry<T(==)>(entry: seq<T>, e: ChangeEvent<T>): (r: Outcome<seq<T>>)
    ensures e.kind == Add ==> r == Ok(entry + [e.item])
    ensures e.kind == Clear ==> r == Ok([])
  {
    match e.kind
    case Add => Ok(entry + [e.item])
    case Remove =>
      var i := IndexOf(entry, e.item);
      if i < 0 then Ok(entry) else EntryRemoveAt(entry, i)
    case Insert => InsertAt(entry, e.index.GetOr(-1), e.item)
    case RemoveAt => EntryRemoveAt(entry, e.index.GetOr(-1))
    case Clear => Ok([])
  }

  // ---------------------------------------------------------------------------
  // Edits made in the list, written back to the collection
  // ---------------------------------------------------------------------------

  /** `OnDraggableListItemIndexChanged`: read the item at the old index,
      remove it there and insert it at the new index. Nothing undoes the
      removal when the insert throws: the item is then lost. */
  function MoveItem<T>(entry: seq<T>, oldIndex: int, newIndex: int): (r: Completion<seq<T>>)
    ensures r.Normal? <==> 0 <= oldIndex < |entry| && 0 <= newIndex < |entry|
    ensures r.Abrupt? ==> r.error == ArgumentOutOfRangeException
    ensures !(0 <= oldIndex < |entry|) ==> r == Abrupt(ArgumentOutOfRangeException, entry)
    ensures 0 <= oldIndex < |entry| && !(0 <= newIndex < |entry|) ==>
              r == Abrupt(ArgumentOutOfRangeException, entry[..oldIndex] + entry[oldIndex + 1..])
    ensures r.Normal? ==> |r.state| == |entry| && r.state[newIndex] == entry[oldIndex]
  {
    if !(0 <= oldIndex < |entry|) then Abrupt(ArgumentOutOfRangeException, entry)
    else
      var value := entry[oldIndex];
      match EntryRemoveAt(entry, oldIndex)
      case Throws(err) => Abrupt(err, entry)
      case Ok(rest) =>
        match InsertAt(rest, newIndex, value)
        case Throws(err) => Abrupt(err, rest)
        case Ok(moved) => Normal(moved)
  }

  /** A move only reorders: the collection keeps the same items with the
      same multiplicities. */
  lemma MoveIsPermutation<T>(entry: seq<T>, oldIndex: int, newIndex: int)
    requires MoveItem(entry, oldIndex, newIndex).Normal?
    ensures multiset(MoveItem(entry, oldIndex, newIndex).state) == multiset(entry)
  {
    var x := entry[oldIndex];
    var rest := entry[..oldIndex] + entry[oldIndex + 1..];
    var moved := MoveItem(entry, oldIndex, newIndex).state;
    assert entry == entry[..oldIndex] + [x] + entry[oldIndex + 1..];
    assert multiset(entry) == multiset(entry[..oldIndex]) + multiset{x} + multiset(entry[oldIndex + 1..]);
    assert moved == rest[..newIndex] + [x] + rest[newIndex..];
    assert multiset(moved) == multiset(rest[..newIndex]) + multiset{x} + multiset(rest[newIndex..]);
    assert rest == rest[..newIndex] + rest[newIndex..];
    assert multiset(rest) == multiset(rest[..newIndex]) + multiset(rest[newIndex..]);
    assert multiset(rest) == multiset(entry[..oldIndex]) + multiset(entry[oldIndex + 1..]);
    assert multiset(moved) == multiset(rest) + multiset{x};
  }

  /** Moving an item back to where it came from restores the collection. */
  lemma MoveBackRestores<T>(entry: seq<T>, oldIndex: int, newIndex: int)
    requires MoveItem(entry, oldIndex, newIndex).Normal?
    ensures MoveItem(MoveItem(entry, oldIndex, newIndex).state, newIndex, oldIndex) == Normal(entry)
  {
    var x := entry[oldIndex];
    var rest := entry[..oldIndex] + entry[oldIndex + 1..];
    var moved := MoveItem(entry, oldIndex, newIndex).state;
    assert moved == rest[..newIndex] + [x] + rest[newIndex..];
    assert moved[..newIndex] + moved[newIndex + 1..] == rest;
    assert rest[..oldIndex] + [x] + rest[oldIndex..] == entry;
  }

  /** `OnAddDraggableItem`: append the value deserialised from no bytes,
      which is `defaultValue` here. */
  function AddRequested<T>(entry: seq<T>, defaultValue: T): (r: seq<T>)
    ensures |r| == |entry| + 1 && r[..|entry|] == entry && r[|entry|] == defaultValue
  {
    entry + [defaultValue]
  }

  /** `OnRemoveDraggableItem` removes the requested index from the
      collection (`EntryRemoveAt`). A removal the list's remove button asks
      for always names an index of the collection when list and collection
      agree, so it cannot throw, and it removes the selected item. */
  lemma RemoveButtonRequestIsValid<T>(b: BuilderState<T>)
    requires b.view.items == b.entry
    requires RemoveClicked(b.view).Some?
    ensures var i := RemoveClicked(b.view).value;
            && EntryRemoveAt(b.entry, i).Ok?
            && EntryRemoveAt(b.entry, i).value == RemoveItemAt(b.view, i).1.items
            && TryGetSelectedItem(b.view) == Some(b.entry[i])
  {
  }

  // ---------------------------------------------------------------------------
  // Changes of the collection, mirrored into the list
  // ---------------------------------------------------------------------------

  /** `OnCollectionChanged`: the change is only queued on the tree; neither
      the list nor the collection changes yet. */
  function OnCollectionChanged<T>(b: BuilderState<T>, e: ChangeEvent<T>): (r: BuilderState<T>)
    ensures r.view == b.view && r.entry == b.entry
    ensures |r.queued| == |b.queued| + 1 && r.queued[..|b.queued|] == b.queued && r.queued[|b.queued|] == e
  {
    b.(queued := b.queued + [e])
  }

  /** The queued callback: replay the change on the list. A missing index
      reads as −1, so an `Insert` without one throws and a `RemoveAt`
      without one does nothing. */
  function MirrorChange<T(==)>(v: ListState<T>, e: ChangeEvent<T>): (r: Outcome<ListState<T>>)
    ensures e.kind == Insert && e.index.None? ==> r == Throws(ArgumentOutOfRangeException)
    ensures e.kind == RemoveAt && e.index.None? ==> r == Ok(v)
    ensures e.kind == Remove && e.item !in v.items ==> r == Ok(v)
    ensures r.Ok? ==> r.value.selectedIndex == v.selectedIndex
  {
    var itemIndex := e.index.GetOr(-1);
    match e.kind
    case Add => Ok(AddItem(v, e.item))
    case Remove => Ok(RemoveItem(v, e.item).1)
    case Insert => InsertItem(v, itemIndex, e.item)
    case RemoveAt => Ok(RemoveItemAt(v, itemIndex).1)
    case Clear => Ok(ClearItems(v))
  }

  /** Replaying one change on a list that shows the collection gives the
      list that shows the changed collection. A change that made the
      collection throw was never reported, so it is not considered. */
  lemma MirrorMatchesEntry<T>(v: ListState<T>, entry: seq<T>, e: ChangeEvent<T>)
    requires v.items == entry
    requires ApplyToEntry(entry, e).Ok?
    ensures MirrorChange(v, e).Ok?
    ensures MirrorChange(v, e).value.items == ApplyToEntry(entry, e).value
  {
  }

  /** Run the queued callbacks in order; the first that throws stops the
      run. */
  function RunQueued<T(==)>(v: ListState<T>, queued: seq<ChangeEvent<T>>): (r: Outcome<ListState<T>>)
    decreases |queued|
  {
    if |queued| == 0 then Ok(v)
    else
      match MirrorChange(v, queued[0])
      case Throws(err) => Throws(err)
      case Ok(v') => RunQueued(v', queued[1..])
  }

  /** The collection after a run of reported changes. */
  function ApplyAllToEntry<T(==)>(entry: seq<T>, changes: seq<ChangeEvent<T>>): (r: Outcome<seq<T>>)
    decreases |changes|
  {
    if |changes| == 0 then Ok(entry)
    else
      match ApplyToEntry(entry, changes[0])
      case Throws(err) => Throws(err)
      case Ok(entry') => ApplyAllToEntry(entry', changes[1..])
  }

  /** Deferring does not lose the order: once the queue runs, the list shows
      exactly the collection the reported changes produced. */
  lemma {:induction false} QueuedMirrorCatchesUp<T>(v: ListState<T>, entry: seq<T>, changes: seq<ChangeEvent<T>>)
    requires v.items == entry
    requires ApplyAllToEntry(entry, changes).Ok?
    ensures RunQueued(v, changes).Ok?
    ensures RunQueued(v, changes).value.items == ApplyAllToEntry(entry, changes).value
    decreases |changes|
  {
    if |changes| > 0 {
      MirrorMatchesEntry(v, entry, changes[0]);
      var v' := MirrorChange(v, changes[0]).value;
      var entry' := ApplyToEntry(entry, changes[0]).value;
      QueuedMirrorCatchesUp(v', entry', changes[1..]);
    }
  }

  /** A drop adds to the list only: nothing writes it back, so afterwards
      the list holds one item the collection does not. */
  lemma DropIsNotWrittenBack<T>(b: BuilderState<T>, dragged: T)
    requires b.view.items == b.entry
    requires DropItem(b.view, Some(dragged), true).Ok? && DropItem(b.view, Some(dragged), true).value.0.Some?
    ensures var v := DropItem(b.view, Some(dragged), true).value.1;
            && |v.items| == |b.entry| + 1
            && dragged in v.items && dragged !in b.entry
  {
    var r := DropItem(b.view, Some(dragged), true).value;
    assert r.1.items[r.0.value] == dragged;
  }

  // ---------------------------------------------------------------------------
  // A reorder made by dragging inside the list
  // ---------------------------------------------------------------------------

  /** What the collection reports for `MoveItem`: the removal at the old
      index, then the insertion of the same item at the new index. */
  function MoveEvents<T>(entry: seq<T>, oldIndex: int, newIndex: int): (r: seq<ChangeEvent<T>>)
    requires 0 <= oldIndex < |entry|
    ensures |r| == 2 && r[0].kind == RemoveAt && r[1].kind == Insert
    ensures r[0].item == entry[oldIndex] && r[1].item == entry[oldIndex]
    ensures r[0].index == Some(oldIndex) && r[1].index == Some(newIndex)
  {
    [ChangeEvent(RemoveAt, entry[oldIndex], Some(oldIndex)), ChangeEvent(Insert, entry[oldIndex], Some(newIndex))]
  }

  /** The two reports of a move produce the moved collection. */
  lemma MoveEventsReportMove<T>(entry: seq<T>, oldIndex: int, newIndex: int)
    requires MoveItem(entry, oldIndex, newIndex).Normal?
    ensures ApplyAllToEntry(entry, MoveEvents(entry, oldIndex, newIndex)) == Ok(MoveItem(entry, oldIndex, newIndex).state)
  {
    var events := MoveEvents(entry, oldIndex, newIndex);
    var rest := entry[..oldIndex] + entry[oldIndex + 1..];
    var moved := MoveItem(entry, oldIndex, newIndex).state;
    assert ApplyToEntry(entry, events[0]) == Ok(rest);
    assert ApplyToEntry(rest, events[1]) == InsertAt(rest, newIndex, entry[oldIndex]) == Ok(moved);
    assert events[1..] == [events[1]] && [events[1]][1..] == [];
    assert ApplyAllToEntry(moved, []) == Ok(moved);
    assert ApplyAllToEntry(rest, [events[1]]) == Ok(moved);
  }

  /** A list view with `reorderable` set moves its own items before it
      reports the reorder, so the list already shows the moved collection
      when the collection's two reports are replayed on it. For distinct
      items the replay takes out the item that moved into the old place and
      adds a second copy of the moved item: the list stops holding the
      collection's items. */
  lemma ReorderReplayBreaksMirror<T>(entry: seq<T>, oldIndex: int, newIndex: int, shown: ListState<T>)
    requires forall i, j | 0 <= i < j < |entry| :: entry[i] != entry[j]
    requires MoveItem(entry, oldIndex, newIndex).Normal? && oldIndex != newIndex
    requires shown.items == MoveItem(entry, oldIndex, newIndex).state
    ensures var moved := MoveItem(entry, oldIndex, newIndex).state;
            var r := RunQueued(shown, MoveEvents(entry, oldIndex, newIndex));
            && r.Ok?
            && |r.value.items| == |moved|
            && moved[oldIndex] != entry[oldIndex]
            && multiset(r.value.items) == multiset(moved) - multiset{moved[oldIndex]} + multiset{entry[oldIndex]}
            && multiset(r.value.items) != multiset(moved)
  {
    var moved := MoveItem(entry, oldIndex, newIndex).state;
    var x := entry[oldIndex];
    MovedIntoOldPlace(entry, oldIndex, newIndex);
    ReplayMoveEvents(entry, oldIndex, newIndex, shown);
    RemoveThenInsertCounts(moved, oldIndex, newIndex, x);
    var items := RunQueued(shown, MoveEvents(entry, oldIndex, newIndex)).value.items;
    assert multiset(items)[x] == multiset(moved)[x] + 1;
  }

  /** Replaying a move's reports on a list removes at the old index and
      inserts the moved item at the new one. */
  lemma ReplayMoveEvents<T>(entry: seq<T>, oldIndex: int, newIndex: int, shown: ListState<T>)
    requires 0 <= oldIndex < |entry| && |shown.items| == |entry| && 0 <= newIndex < |entry|
    ensures var v1 := RemoveItemAt(shown, oldIndex).1;
            RunQueued(shown, MoveEvents(entry, oldIndex, newIndex)) == InsertItem(v1, newIndex, entry[oldIndex])
    ensures RunQueued(shown, MoveEvents(entry, oldIndex, newIndex)).Ok?
  {
    var events := MoveEvents(entry, oldIndex, newIndex);
    var v1 := RemoveItemAt(shown, oldIndex).1;
    assert MirrorChange(shown, events[0]) == Ok(v1);
    var v2 := InsertItem(v1, newIndex, entry[oldIndex]).value;
    assert MirrorChange(v1, events[1]) == Ok(v2);
    assert events[1..] == [events[1]] && [events[1]][1..] == [];
    assert RunQueued(v2, []) == Ok(v2);
    assert RunQueued(v1, [events[1]]) == Ok(v2);
  }

  /** Removing at one index and inserting `x` trades one copy of the removed
      item for one copy of `x`. */
  lemma RemoveThenInsertCounts<T>(items: seq<T>, i: int, j: int, x: T)
    requires 0 <= i < |items| && 0 <= j < |items|
    ensures var a := items[..i] + items[i + 1..];
            multiset(a[..j] + [x] + a[j..]) == multiset(items) - multiset{items[i]} + multiset{x}
  {
    var a := items[..i] + items[i + 1..];
    assert items == items[..i] + [items[i]] + items[i + 1..];
    assert multiset(a) == multiset(items) - multiset{items[i]};
    assert a == a[..j] + a[j..];
  }

  /** The item that takes the old place of a moved item is its old
      neighbour, so with distinct items it is a different item. */
  lemma MovedIntoOldPlace<T>(entry: seq<T>, oldIndex: int, newIndex: int)
    requires forall i, j | 0 <= i < j < |entry| :: entry[i] != entry[j]
    requires MoveItem(entry, oldIndex, newIndex).Normal? && oldIndex != newIndex
    ensures MoveItem(entry, oldIndex, newIndex).state[oldIndex] != entry[oldIndex]
  {
    var rest := entry[..oldIndex] + entry[oldIndex + 1..];
    var moved := MoveItem(entry, oldIndex, newIndex).state;
    assert moved == rest[..newIndex] + [entry[oldIndex]] + rest[newIndex..];
    if oldIndex < newIndex {
      assert moved[oldIndex] == rest[oldIndex] == entry[oldIndex + 1];
    } else {
      assert moved[oldIndex] == rest[oldIndex - 1] == entry[oldIndex - 1];
    }
  }

  /** Dragging the first of three items to the end: the list shows
      `[1, 2, 0]` and the collection holds it too, but the replay leaves the
      list at `[2, 0, 0]`. */
  lemma ReorderReplayExample()
    ensures MoveItem([0, 1, 2], 0, 2) == Normal([1, 2, 0])
    ensures RunQueued(NewListView([1, 2, 0]), MoveEvents([0, 1, 2], 0, 2)).Ok?
    ensures RunQueued(NewListView([1, 2, 0]), MoveEvents([0, 1, 2], 0, 2)).value.items == [2, 0, 0]
  {
    var entry := [0, 1, 2];
    assert entry[..0] + entry[1..] == [1, 2];
    assert [1, 2][..2] + [0] + [1, 2][2..] == [1, 2, 0];
    var events := MoveEvents(entry, 0, 2);
    var shown := NewListView([1, 2, 0]);
    var v1 := RemoveItemAt(shown, 0).1;
    assert v1.items == [2, 0];
    var v2 := InsertItem(v1, 2, 0).value;
    assert v2.items == [2, 0, 0];
    assert events[1..] == [events[1]] && [events[1]][1..] == [];
    assert RunQueued(v2, []) == Ok(v2);
    assert RunQueued(v1, [events[1]]) == Ok(v2);
    assert RunQueued(shown, events) == Ok(v2);
  }
}

=== FILE: visual_resolvers.dfy ===
/** The visual builder resolver and the visual processor chain resolver
    (`VisualBuilderResolverBase` / `DefaultVisualBuilderResolver` and
    `VisualProcessorChainResolverBase` / `DefaultVisualProcessorChainResolver`).
    Each initialises lazily on first use, caches what it built, and forgets
    both the flag and the cache when it goes back to the pool. The handler
    lookups they perform (`GetVisualBuilderType`, `GetVisualProcessorTypes`)
    are modelled in `HandlerQuery`; here their answers are parameters. */
module VisualResolvers {
  import opened Wrappers
  import opened Types
  import opened HandlerBases
  import opened ProcessorChain

  // ---------------------------------------------------------------------------
  // Visual builder resolver
  // ---------------------------------------------------------------------------

  datatype BuilderResolver = BuilderResolver(
    element: nat,
    isInitialized: bool,
    builder: Option<HandlerInstance>,
    initializeCalls: nat)

  /** A resolver just rented and bound to an element. */
  function NewBuilderResolver(element: nat): (r: BuilderResolver)
    ensures r.element == element && !r.isInitialized && r.builder.None? && r.initializeCalls == 0
  {
    BuilderResolver(element, false, None, 0)
  }

  /** `DefaultVisualBuilderResolver.Initialize`: instantiate the builder type
      the lookup found; when it found none, the field stays as it was. */
  function InitializeBuilder(r: BuilderResolver, builderType: Option<Ty>): (r': BuilderResolver)
    ensures builderType.Some? ==> r'.builder == Some(FreshInstance(builderType.value))
    ensures builderType.None? ==> r'.builder == r.builder
    ensures r'.element == r.element && r'.isInitialized == r.isInitialized
  {
    if builderType.Some? then r.(builder := Some(FreshInstance(builderType.value))) else r
  }

  /** `IVisualBuilderResolver.GetVisualBuilder`: initialise once, then answer
      the cached builder. `builderType` is what the lookup would answer now. */
  function GetVisualBuilder(r: BuilderResolver, builderType: Option<Ty>): (res: (Option<HandlerInstance>, BuilderResolver))
    ensures res.1.isInitialized && res.0 == res.1.builder && res.1.element == r.element
    ensures r.isInitialized ==> res.1 == r
    ensures !r.isInitialized ==>
              && res.1.initializeCalls == r.initializeCalls + 1
              && res.1.builder == InitializeBuilder(r, builderType).builder
  {
    var r' := if r.isInitialized then r
              else InitializeBuilder(r, builderType).(isInitialized := true, initializeCalls := r.initializeCalls + 1);
    (r'.builder, r')
  }

  /** `OnRelease`: forget the flag and the cached builder. */
  function ReleaseBuilderResolver(r: BuilderResolver): (r': BuilderResolver)
    ensures !r'.isInitialized && r'.builder.None?
  {
    r.(isInitialized := false, builder := None)
  }

  /** The builder is looked up once: later reads answer the same builder
      whatever a fresh lookup would find. */
  lemma BuilderIsCached(r: BuilderResolver, first: Option<Ty>, later: Option<Ty>)
    ensures var (b1, r1) := GetVisualBuilder(r, first);
            var (b2, r2) := GetVisualBuilder(r1, later);
            b2 == b1 && r2 == r1 && r2.initializeCalls <= r.initializeCalls + 1
  {
  }

  /** Back in the pool, a resolver is as good as a newly rented one: the next
      element it serves gets a fresh lookup. */
  lemma ReleasedBuilderResolverIsFresh(r: BuilderResolver, element: nat, builderType: Option<Ty>)
    ensures var rented := NewBuilderResolver(element);
            var reused := ReleaseBuilderResolver(r).(element := element);
            GetVisualBuilder(reused, builderType).0 == GetVisualBuilder(rented, builderType).0
  {
  }

  // ---------------------------------------------------------------------------
  // Visual processor chain resolver
  // ---------------------------------------------------------------------------

  datatype ChainResolver = ChainResolver(
    element: nat,
    isInitialized: bool,
    chain: Option<Chain>,
    initializeCalls: nat)

  function NewChainResolver(element: nat): (r: ChainResolver)
    ensures r.element == element && !r.isInitialized && r.chain.None? && r.initializeCalls == 0
  {
    ChainResolver(element, false, None, 0)
  }

  /** One freshly created processor per type, in lookup order. */
  function InstantiateProcessors(processorTypes: seq<Ty>): (ps: seq<HandlerInstance>)
    ensures |ps| == |processorTypes|
    ensures forall i | 0 <= i < |ps| :: ps[i] == FreshInstance(processorTypes[i])
  {
    seq(|processorTypes|, i requires 0 <= i < |processorTypes| => FreshInstance(processorTypes[i]))
  }

  /** `IVisualProcessorChainResolver.GetVisualProcessorChain`: on first use,
      create the processors the lookup found and a chain over them (identity
      `chainId`); afterwards answer that chain. */
  function GetVisualProcessorChain(r: ChainResolver, processorTypes: seq<Ty>, chainId: nat)
    : (res: (Option<Chain>, ChainResolver))
    ensures res.1.isInitialized && res.0 == res.1.chain && res.1.element == r.element
    ensures r.isInitialized ==> res.1 == r
    ensures !r.isInitialized ==>
              && res.1.initializeCalls == r.initializeCalls + 1
              && res.0 == Some(NewChain(chainId, r.element, InstantiateProcessors(processorTypes)))
  {
    var r' := if r.isInitialized then r
              else r.(isInitialized := true,
                      chain := Some(NewChain(chainId, r.element, InstantiateProcessors(processorTypes))),
                      initializeCalls := r.initializeCalls + 1);
    (r'.chain, r')
  }

  function ReleaseChainResolver(r: ChainResolver): (r': ChainResolver)
    ensures !r'.isInitialized && r'.chain.None?
  {
    r.(isInitialized := false, chain := None)
  }

  /** A newly initialised chain holds exactly the looked-up processors, in
      order, none initialised yet, with the cursor before the first. */
  lemma FirstChainMatchesLookup(element: nat, processorTypes: seq<Ty>, chainId: nat)
    ensures var c := GetVisualProcessorChain(NewChainResolver(element), processorTypes, chainId).0.value;
            && c.index == -1 && c.element == element
            && |c.processors| == |processorTypes|
            && forall i | 0 <= i < |c.processors| ::
                 c.processors[i].handlerType == processorTypes[i] && !c.processors[i].isInitialized
  {
  }

  /** An operation on a chain resolver, as the element drives it. */
  datatype ChainResolverOp = GetChain(processorTypes: seq<Ty>, chainId: nat) | ReleaseChain

  function ApplyChainOps(r: ChainResolver, ops: seq<ChainResolverOp>): ChainResolver
    decreases |ops|
  {
    if |ops| == 0 then r
    else
      var r' := match ops[0]
                case GetChain(ts, id) => GetVisualProcessorChain(r, ts, id).1
                case ReleaseChain => ReleaseChainResolver(r);
      ApplyChainOps(r', ops[1..])
  }

  /** How many releases a run of operations contains. */
  function ReleasesIn(ops: seq<ChainResolverOp>): nat
    decreases |ops|
  {
    if |ops| == 0 then 0 else (if ops[0].ReleaseChain? then 1 else 0) + ReleasesIn(ops[1..])
  }

  /** Initialisation runs at most once per rental: over any run of gets and
      releases, the resolver initialises at most once after each release,
      plus once more if it had not yet initialised. */
  lemma {:induction false} InitializeOncePerRental(r: ChainResolver, ops: seq<ChainResolverOp>)
    ensures ApplyChainOps(r, ops).initializeCalls
            <= r.initializeCalls + ReleasesIn(ops) + (if r.isInitialized then 0 else 1)
    decreases |ops|
  {
    if |ops| > 0 {
      match ops[0]
      case GetChain(ts, id) =>
        InitializeOncePerRental(GetVisualProcessorChain(r, ts, id).1, ops[1..]);
      case ReleaseChain =>
        InitializeOncePerRental(ReleaseChainResolver(r), ops[1..]);
    }
  }
}

=== FILE: wrappers.dfy ===
/** Failure-carrying datatypes shared by every module: `Option` stands for a
    nullable reference, `Outcome` for a result that may instead be one of the
    .NET exceptions the inspector code throws. */
module Wrappers {

  /** A nullable reference: `None` is C#'s `null`. */
  datatype Option<+T> = None | Some(value: T) {
    function GetOr(default: T): T {
      match this
      case Some(v) => v
      case None => default
    }
  }

  /** The exceptions the modelled code raises. */
  datatype Exception =
    | ArgumentNullException(paramName: string)
    | ArgumentException(message: string)
    | ArgumentOutOfRangeException
    | InvalidOperationException(message: string)
    | InvalidCastException
    | NotSupportedException(message: string)
    | ObjectDisposedException
    | NullReferenceException
    | UnauthorizedAccessException
    | IOException

  /** Either a value or a thrown exception. */
  datatype Outcome<+T> = Ok(value: T) | Throws(error: Exception) {
    predicate IsFailure() {
      Throws?
    }

    function PropagateFailure<U>(): Outcome<U>
      requires Throws?
    {
      Throws(error)
    }

    function Extract(): T
      requires Ok?
    {
      value
    }
  }

  /** How a call that changes state ends: normally, or with an exception
      thrown part-way through. Either way the state is the one the call
      leaves behind, so a throw keeps every change made before it. */
  datatype Completion<+S> = Normal(state: S) | Abrupt(error: Exception, state: S)
}
